=== FILE: README.md ===
# TMobCaseStudy core, modelled in Dafny

This project models the core of TMobCaseStudyWeb. It has three parts.

- **The byte cache (`LRUCache`).** It maps string keys to byte payloads and evicts least-recently-used entries. Each entry may also have its own lifetime. The cache keeps a running size estimate in bytes, and when that estimate reaches the configured maximum it evicts entries. It also keeps per-key and total hit and miss counters. `lru_cache.dfy` models it as a class whose fields are the two dictionaries, the running size and the counters.
- **The read-through layer over a cache.**
  - `CachedInternal` (`cached_internal.dfy`) reads one key and falls back to a value factory on a miss. It then writes the factory's result back with a fixed lifetime.
  - `CachedFactory` (`cached_factory.dfy`) is the two-level registry of these wrappers: cache name, then key name. It supports registration, look-ups, refreshing, clearing and wiping.
- **The Mars rover simulator.**
  - Compass directions and their parser: `direction.dfy`.
  - Quarter-turn rotations: `rotation.dfy`.
  - Locations, with the planet bounds check and the one-square step: `location.dfy`.
  - The planet, which is mutable: `planet.dfy`.
  - The rover: `rover.dfy`.
  - The three operation classes:
    - reading the planet size line and pairing input lines into (location, route): `planet_operation.dfy`;
    - reading a start location such as `1 2 N`: `location_operation.dfy`;
    - building a rover and driving it along a command string: `spacecraft_operation.dfy`.
  - The shared input check: `operation_base.dfy`.

Supporting modules:

- `enumerable_extensions.dfy`: the collection helpers the cache relies on (minimum or maximum with index, find with index, median item, ordered and unordered equality, `ItemWithIndex`).
- `http_status.dfy`: the 2xx test on status codes.
- `int32.dfy`: C#'s wrapping `int`.
- `dotnet_text.dfy`: the .NET string functions the parsers call (`Split()`, `ToUpperInvariant`, `IsNullOrWhiteSpace`, `int.TryParse`, `Int32.ToString`).
- `map_sums.dfy`: sums over maps.
- `wrappers.dfy`: `Option`, `Result` and `Outcome`.

Exceptions become `Failure`/`Fail` values that name the exception. Where the source checks for null (a null input line, a null collection, a null cached object), null becomes `None`; the other null cases are listed under "## Left out".

**The running size is an estimate.** `LruCache.Drift()` is the difference between `SizeInBytes` and the true sum of the live entries' costs. Every operation keeps the drift unchanged, except in two cases, and `AddOrReplace` states the drift exactly in both.

- In the first case, a replace reaches the maximum and the eviction loop removes the replaced key's own old node.
  - The size first grew only by the difference in payload length. Then it lost the old entry's whole cost.
  - The new entry is stored anyway, so its cost goes uncounted.
- In the second case, the eviction loop runs on an empty cache and throws (described below).
  - The increase was already added to the size, and the new node is never stored.
  - So the drift grows by that increase.
- `ReplaceEvictingOwnNode` shows it with numbers:
  - a 10-byte entry (running size 94) is replaced by a 1000-byte one in a 1024-byte cache;
  - the running size becomes 990, while the stored entry alone costs 1084;
  - removing that entry then leaves the running size at -94.

The eviction loop also runs once on an empty cache, when a single new entry alone reaches the maximum. The source then dereferences the default entry `MinItem` returns and throws a `NullReferenceException`. `AddOrReplace` returns `Fail(NullReference)` exactly in that case.

Route execution is specified by the function `SpaceCraftOperations.Execute`:

- one command character at a time;
- a rotation character turns the rover;
- `M` moves it;
- anything else is skipped;
- the first move off the planet ends the route, leaving the rover where it stood.

`MoveSpaceCraft` is the source's loop, proved against `Execute`.

`BuildRoversAndRoutesFromInput` selects lines by the parity of `IndexOf`, that is, by the position of a line's *first* occurrence. So a repeated line takes the parity of its first copy.

- `RoversAndRoutesOfDistinctLines` proves that the pairing is the intended (line 1, line 2), (line 3, line 4), … when no line repeats.
- `RepeatedSampleLineMispairs` shows the mispairing on the sample input when one location line is repeated.

`PlanetOperation.BuildPlanetBoundaries` cuts the size line at half its length, so numbers of different widths are cut in the wrong place. For example, `"105"` reads as 1 x 5 (`UnevenWidthsMisread`).

## Model

| member | source | states |
|---|---|---|
| LruCaches.NewNode | src/TMobCaseStudy.Base/Caching/LRUCache.cs:26-33 | a new node holds the payload and lifetime and is last used now; it is unexpired at now exactly when it has no lifetime or a non-negative one (expiry is strict: added + lifetime < now) |
| LruCaches.Node.HasExpired | src/TMobCaseStudy.Base/Caching/LRUCache.cs:35-38 | a node without a lifetime never expires; an expired node's lifetime ended strictly before now; ExpiryIsPermanent adds that expiry lasts |
| LruCaches.ExpiryIsPermanent | src/TMobCaseStudy.Base/Caching/LRUCache.cs:35-38 | an entry without a lifetime is never expired, and an entry expired at one tick stays expired at every later tick |
| LruCaches.Node.SizeInBytes | src/TMobCaseStudy.Base/Caching/LRUCache.cs:40-55 | a node's estimated size is its payload length plus 40 bytes (two references, two DateTimes, a TimeSpan) |
| LruCaches.StatisticsFor | src/TMobCaseStudy.Base/Caching/LRUCache.cs:268-276 | the key's registered record, or a record with no hits and no misses when it has none |
| LruCaches.KeySize | src/TMobCaseStudy.Base/Caching/LRUCache.cs:375-382 | a key costs 4·\|key\| + 16 bytes: two bytes per character plus a reference, once per dictionary |
| LruCaches.NodeSize | src/TMobCaseStudy.Base/Caching/LRUCache.cs:384-393 | a node with its statistics record costs its payload length plus 64 bytes |
| LruCaches.EntryCost | src/TMobCaseStudy.Base/Caching/LRUCache.cs:375-393 | what one entry adds to the running size is 4·\|key\| + \|data\| + 6·P + 32 (P = pointer size), which exceeds the payload length |
| LruCaches.ComputeIncreaseInSize | src/TMobCaseStudy.Base/Caching/LRUCache.cs:333-346 | for a new key the increase is the new entry's whole cost; for a replace it is the new entry's cost minus the cost of an entry holding the old payload |
| LruCaches.IncreaseIsCostDifference | src/TMobCaseStudy.Base/Caching/LRUCache.cs:333-346 | the size increase of an add or replace equals the new entry's cost minus the cost of the entry it replaces (or 0 for a new key) |
| LruCaches.TotalCostRemove | src/TMobCaseStudy.Base/Caching/LRUCache.cs:368-373 | removing an entry lowers the true total cost by exactly that entry's cost |
| LruCaches.TotalCostPut | src/TMobCaseStudy.Base/Caching/LRUCache.cs:301-306 | storing a node changes the true total by the new entry's cost minus the replaced entry's cost |
| LruCaches.TotalCostOfEmpty | src/TMobCaseStudy.Base/Caching/LRUCache.cs:162-173 | an empty cache costs nothing |
| LruCaches.HitsAfterUpdate | src/TMobCaseStudy.Base/Caching/LRUCache.cs:260-264 | replacing one key's statistics record changes the sum of hits by that record's change, so counting a hit per key keeps TotalHits the sum of the per-key hits |
| LruCaches.MissesAfterUpdate | src/TMobCaseStudy.Base/Caching/LRUCache.cs:248-254 | the same for misses and TotalMisses |
| LruCaches.MostRecentEntrySurvives | src/TMobCaseStudy.Base/Caching/LRUCache.cs:358-366 | an entry used strictly more recently than all others is never evicted unless eviction emptied the cache |
| LruCaches.LruCache.constructor | src/TMobCaseStudy.Base/Caching/LRUCache.cs:96-110 | a new cache is empty, all counters and the size are 0, and the counter invariant holds with zero drift |
| LruCaches.LruCache.Count | src/TMobCaseStudy.Base/Caching/LRUCache.cs:148-157 | the number of entries, zero exactly when the cache is empty |
| LruCaches.LruCache.Statistics | src/TMobCaseStudy.Base/Caching/LRUCache.cs:190-199 | under the counter invariant, the per-key hits and misses of the returned records add up to TotalHits and TotalMisses |
| LruCaches.LruCache.Create | src/TMobCaseStudy.Base/Caching/LRUCache.cs:96-110 | fails with the argument error exactly when the maximum is below 1024; otherwise a fresh cache with that maximum: no entries, no statistics, every counter and the size 0, zero drift |
| LruCaches.LruCache.ClearedIsValid | src/TMobCaseStudy.Base/Caching/LRUCache.cs:162-173 | a cache with empty dictionaries and zero counters satisfies the counter invariant with zero drift |
| LruCaches.LruCache.Clear | src/TMobCaseStudy.Base/Caching/LRUCache.cs:162-173 | empties both dictionaries, zeroes the size and every counter, and restores zero drift |
| LruCaches.LruCache.HitRatio | src/TMobCaseStudy.Base/Caching/LRUCache.cs:130-138 | absent exactly when no lookup was counted; otherwise hits over hits plus misses |
| LruCaches.LruCache.HitRatioIsAFraction | src/TMobCaseStudy.Base/Caching/LRUCache.cs:127-138 | under the counter invariant the ratio lies between 0 and 1 with a positive denominator |
| LruCaches.LruCache.EntryList | src/TMobCaseStudy.Base/Caching/LRUCache.cs:348-356 | enumerating the dictionary lists every entry exactly once with its node |
| LruCaches.LruCache.GetKeys | src/TMobCaseStudy.Base/Caching/LRUCache.cs:179-185 | the key list holds exactly the cache's keys, each once |
| LruCaches.LruCache.RemoveExisting | src/TMobCaseStudy.Base/Caching/LRUCache.cs:368-373 | drops the key and subtracts its cost from the size, so the drift is unchanged; statistics untouched |
| LruCaches.LruCache.GetOrCreateStatisticsForKey | src/TMobCaseStudy.Base/Caching/LRUCache.cs:268-276 | returns the key's record, or a zero record that is now registered under the key; counters keep their invariant |
| LruCaches.LruCache.TryGet | src/TMobCaseStudy.Base/Caching/LRUCache.cs:237-266 | empty key fails and changes nothing; otherwise the key gets a statistics record and: absent key counts a miss, expired entry is removed with its cost and counts nothing, live entry is marked used and counts a hit; data is returned exactly for a live entry; counter invariant and drift kept |
| LruCaches.LruCache.LookupAbsent | src/TMobCaseStudy.Base/Caching/LRUCache.cs:248-254 | a lookup of an absent key registers statistics and counts one miss, cache unchanged |
| LruCaches.LruCache.LookupExpired | src/TMobCaseStudy.Base/Caching/LRUCache.cs:255-259 | a lookup of an expired key removes the entry with its cost and counts neither a hit nor a miss |
| LruCaches.LruCache.LookupLive | src/TMobCaseStudy.Base/Caching/LRUCache.cs:260-264 | a lookup of a live key sets its LastUsed to now and counts one hit |
| LruCaches.LruCache.CountMiss | src/TMobCaseStudy.Base/Caching/LRUCache.cs:251-252 | the key's misses and TotalMisses both grow by one; the sum invariant is kept |
| LruCaches.LruCache.CountHit | src/TMobCaseStudy.Base/Caching/LRUCache.cs:262-263 | the key's hits and TotalHits both grow by one; the sum invariant is kept |
| LruCaches.LruCache.MarkUsed | src/TMobCaseStudy.Base/Caching/LRUCache.cs:260 | only the entry's LastUsed changes; size and drift unchanged |
| LruCaches.LruCache.Get | src/TMobCaseStudy.Base/Caching/LRUCache.cs:222-229 | the data of a live entry, otherwise KeyNotFound (after TryGet's bookkeeping); empty key fails |
| LruCaches.LruCache.EvictExpired | src/TMobCaseStudy.Base/Caching/LRUCache.cs:348-356 | exactly the entries expired at now are removed, each with its cost; drift and counters unchanged |
| LruCaches.LruCache.EvictOne | src/TMobCaseStudy.Base/Caching/LRUCache.cs:362-364 | on a non-empty cache removes an entry with the smallest LastUsed, lowers the running size by exactly that entry's cost and counts an eviction; on an empty cache fails and changes nothing |
| LruCaches.LruCache.EvictLeastRecentlyUsed | src/TMobCaseStudy.Base/Caching/LRUCache.cs:358-366 | evicts at least one entry; the evicted keys, in the order taken, were used no later than each other and than every kept entry; the running size drops by exactly their summed cost; after every eviction but the last the size was still above the maximum, so the loop stops as soon as the size fits or the cache is empty; TotalEvicts grows by the number evicted; fails, with nothing evicted, only when the cache was empty on entry |
| LruCaches.LruCache.EvictionStep | src/TMobCaseStudy.Base/Caching/LRUCache.cs:358-366 | adding the least recently used remaining entry to the evicted set keeps "evicted entries are the least recent" |
| LruCaches.LruCache.OrderStart | src/TMobCaseStudy.Base/Caching/LRUCache.cs:358-366 | after the first eviction the order holds only the victim, its cost is the victim's cost, and the stopping rule holds trivially |
| LruCaches.LruCache.OrderStep | src/TMobCaseStudy.Base/Caching/LRUCache.cs:358-366 | taking the next least recently used survivor while the size is still above the maximum keeps the eviction order and the stopping rule, and adds the survivor's cost to the evicted cost |
| LruCaches.LruCache.EvictWhileOver | src/TMobCaseStudy.Base/Caching/LRUCache.cs:360-365 | the do-while's repetitions: evicts least recently used entries one at a time while the size is above the maximum and entries remain, ends with the size within the maximum or the cache empty, counts each eviction, and keeps the eviction order, the evicted cost and the stopping rule |
| LruCaches.LruCache.EvictingStep | src/TMobCaseStudy.Base/Caching/LRUCache.cs:360-365 | one repetition, taken while the size is above the maximum, removes one entry, lowers the size by its cost and keeps the loop's eviction facts |
| LruCaches.LruCache.AddOrReplace | src/TMobCaseStudy.Base/Caching/LRUCache.cs:284-308 | empty key fails unchanged; otherwise expired entries are swept, the size grows by the cost difference, and eviction runs exactly when the maximum is reached; it fails with NullReference exactly when eviction finds the swept cache empty; otherwise the new node is stored over the survivors, the evicted entries are the least recently used, taken in order of last use and only while the grown size was above the maximum, and the drift drops only when the key's own old node was evicted |
| LruCaches.LruCache.StoreSwept | src/TMobCaseStudy.Base/Caching/LRUCache.cs:298-306 | the part of AddOrReplace after the sweep, with the same outcome, eviction order, stopping rule and drift statement |
| LruCaches.LruCache.GrowAndEvict | src/TMobCaseStudy.Base/Caching/LRUCache.cs:301-305 | the size grows by the increase; eviction runs exactly when the maximum is reached and fails exactly when the cache is then empty; otherwise the eviction order is least recent first and it stops as soon as the grown size minus the evicted costs fits |
| LruCaches.LruCache.DriftAfterStore | src/TMobCaseStudy.Base/Caching/LRUCache.cs:301-306 | after growing, evicting and storing, the drift is the old drift minus the replaced entry's cost when that entry was itself evicted |
| LruCaches.LruCache.Remove | src/TMobCaseStudy.Base/Caching/LRUCache.cs:315-331 | empty key fails; otherwise reports whether the key was present and removes it with exactly its cost; statistics untouched |
| LruCaches.LruCache.PutThenGet | src/TMobCaseStudy.Base/Caching/LRUCache.cs:205-215 | the indexer's setter (AddOrReplace without a lifetime) followed by its getter (Get) at the same tick returns the stored value, unless the store failed, in which case the read fails the same way |
| LruCaches.CacheWithSmallEntry | src/TMobCaseStudy.Base/Caching/LRUCache.cs:375-393 | a 10-byte entry under a one-character key costs 94 bytes, and the running size equals the true cost |
| LruCaches.ReplaceEvictingOwnNode | src/TMobCaseStudy.Base/Caching/LRUCache.cs:298-306 | replacing that entry by a 1000-byte one in a 1024-byte cache evicts the old node; the running size becomes 990 while the stored entry costs 1084, and after Remove the running size is -94 |
| EnumerableExtensions.IsEmpty | src/TMobCaseStudy.Base/Collections/EnumerableExtensions.cs:10-13 | true exactly when no element is in the sequence |
| EnumerableExtensions.IsNullOrEmpty | src/TMobCaseStudy.Base/Collections/EnumerableExtensions.cs:5-8 | true exactly for null or a sequence with no element |
| EnumerableExtensions.ExtremeIsUnique | src/TMobCaseStudy.Base/Collections/EnumerableExtensions.cs:97-118 | at most one position is the first extreme one, so the result is determined |
| EnumerableExtensions.MinOrMaxItemWithIndex | src/TMobCaseStudy.Base/Collections/EnumerableExtensions.cs:97-118 | null exactly for an empty sequence; otherwise the first position whose selector value is minimal (maximal), with its element |
| EnumerableExtensions.MinOrMaxItem | src/TMobCaseStudy.Base/Collections/EnumerableExtensions.cs:83-88 | the default for an empty sequence; otherwise the element at the first position whose selector value is minimal (maximal), which no other element beats |
| EnumerableExtensions.MinOrMaxItemIndex | src/TMobCaseStudy.Base/Collections/EnumerableExtensions.cs:90-95 | -1 for an empty sequence; otherwise the first extreme position |
| EnumerableExtensions.MinItem | src/TMobCaseStudy.Base/Collections/EnumerableExtensions.cs:20-24 | the default when empty; otherwise the element at the first position of a minimal selector value, at most every other |
| EnumerableExtensions.MaxItem | src/TMobCaseStudy.Base/Collections/EnumerableExtensions.cs:31-35 | the default when empty; otherwise the element at the first position of a maximal selector value, at least every other |
| EnumerableExtensions.MinItemIndex | src/TMobCaseStudy.Base/Collections/EnumerableExtensions.cs:42-46 | -1 when empty; otherwise the first index of a minimal selector value |
| EnumerableExtensions.MaxItemIndex | src/TMobCaseStudy.Base/Collections/EnumerableExtensions.cs:53-57 | -1 when empty; otherwise the first index of a maximal selector value |
| EnumerableExtensions.MinItemWithIndex | src/TMobCaseStudy.Base/Collections/EnumerableExtensions.cs:65-69 | null when empty; otherwise the first minimal element with its index |
| EnumerableExtensions.MaxItemWithIndex | src/TMobCaseStudy.Base/Collections/EnumerableExtensions.cs:77-81 | null when empty; otherwise the first maximal element with its index |
| EnumerableExtensions.FindItemWithIndex | src/TMobCaseStudy.Base/Collections/EnumerableExtensions.cs:120-134 | null exactly when no element matches; otherwise the first matching element with its index |
| EnumerableExtensions.OrderBy | src/TMobCaseStudy.Base/Collections/EnumerableExtensions.cs:138 | the stable ordering by the selector keeps the input's length; OrderBySortsAndPermutes proves it sorted and a permutation, OrderByIsStable proves equal elements keep their order |
| EnumerableExtensions.Insert | src/TMobCaseStudy.Base/Collections/EnumerableExtensions.cs:138 | one insertion step of the ordering grows the sequence by one; InsertAddsElement, InsertKeepsSorted and InsertFirstAmongEquals state what it adds and where |
| EnumerableExtensions.OrderBySortsAndPermutes | src/TMobCaseStudy.Base/Collections/EnumerableExtensions.cs:136-143 | the stable ordering is sorted by the selector and is a permutation of the input |
| EnumerableExtensions.InsertAddsElement | src/TMobCaseStudy.Base/Collections/EnumerableExtensions.cs:136-143 | one insertion step adds exactly the inserted element |
| EnumerableExtensions.InsertKeepsSorted | src/TMobCaseStudy.Base/Collections/EnumerableExtensions.cs:136-143 | one insertion step keeps a sorted sequence sorted |
| EnumerableExtensions.OrderByCounts | src/TMobCaseStudy.Base/Collections/EnumerableExtensions.cs:136-143 | ordering keeps the number of elements below and above any value |
| EnumerableExtensions.InsertCounts | src/TMobCaseStudy.Base/Collections/EnumerableExtensions.cs:136-143 | one insertion step keeps those numbers |
| EnumerableExtensions.InsertFirstAmongEquals | src/TMobCaseStudy.Base/Collections/EnumerableExtensions.cs:136-143 | one insertion step puts the inserted element ahead of every element with the same selector value, the others keeping their order |
| EnumerableExtensions.OrderByIsStable | src/TMobCaseStudy.Base/Collections/EnumerableExtensions.cs:136-143 | ordering is stable: for every selector value, the elements with that value come out in their input order |
| EnumerableExtensions.MedianItem | src/TMobCaseStudy.Base/Collections/EnumerableExtensions.cs:136-143 | the default for an empty sequence, otherwise one of its elements |
| EnumerableExtensions.MedianItemSplits | src/TMobCaseStudy.Base/Collections/EnumerableExtensions.cs:136-143 | at most n/2 elements lie below the median item's value and at most n-1-n/2 above it |
| EnumerableExtensions.SortedSplitsAt | src/TMobCaseStudy.Base/Collections/EnumerableExtensions.cs:139-142 | in a sorted sequence the element at m has at most m smaller and n-1-m larger elements |
| EnumerableExtensions.IsOrderedEqual | src/TMobCaseStudy.Base/Collections/EnumerableExtensions.cs:171-178 | true exactly when both are null or both hold the same elements in the same order |
| EnumerableExtensions.IsUnorderedEqual | src/TMobCaseStudy.Base/Collections/EnumerableExtensions.cs:180-187 | true exactly when both are null or each contains every element of the other |
| EnumerableExtensions.UnorderedEqualIsSymmetric | src/TMobCaseStudy.Base/Collections/EnumerableExtensions.cs:180-187 | unordered equality does not depend on argument order |
| EnumerableExtensions.OrderedEqualImpliesUnorderedEqual | src/TMobCaseStudy.Base/Collections/EnumerableExtensions.cs:171-187 | ordered equality implies unordered equality |
| EnumerableExtensions.UnorderedEqualIgnoresMultiplicity | src/TMobCaseStudy.Base/Collections/EnumerableExtensions.cs:180-187 | [1, 1, 2] and [1, 2, 2] are unordered-equal though neither ordered-equal nor equal as multisets |
| HttpStatusCodes.IsSuccess | src/TMobCaseStudy.Base/Web/HttpStatusCodeExtensions.cs:7-10 | a status code is a success exactly when its hundreds (integer division by 100) are 2 |
| HttpStatusCodes.SuccessBoundaries | src/TMobCaseStudy.Base/Web/HttpStatusCodeExtensions.cs:7-10 | 200 and 299 are successes, 199 and 300 are not |
| CachedInternals.Store.constructor | src/TMobCaseStudy.Base/Caching/ICache.cs:14 | a named cache starts empty |
| CachedInternals.Store.Get | src/TMobCaseStudy.Base/Caching/ICache.cs:22 | the object stored under the key, or null exactly when there is none |
| CachedInternals.Store.Put | src/TMobCaseStudy.Base/Caching/ICache.cs:40 | stores the object with its lifetime under the key, nothing else changes |
| CachedInternals.Store.Remove | src/TMobCaseStudy.Base/Caching/ICache.cs:46 | removes the key and reports whether it was there |
| CachedInternals.CachedInternal.Create | src/TMobCaseStudy.Base/Caching/CachedInternal.cs:13-38 | the wrapper keeps its factory, key, lifetime and cache; CacheName is the cache's name and KeyName the key |
| CachedInternals.CachedInternal.CacheName | src/TMobCaseStudy.Base/Caching/CachedInternal.cs:30-33 | the name of the cache the wrapper reads and writes; Create sets it to the given cache's name |
| CachedInternals.CachedInternal.KeyName | src/TMobCaseStudy.Base/Caching/CachedInternal.cs:35-38 | the key the wrapper reads and writes; Create sets it to the given key |
| CachedInternals.CachedInternal.GetFromValueFactoryAndPut | src/TMobCaseStudy.Base/Caching/CachedInternal.cs:61-68 | calls the factory once; a non-null result is stored under the key with the fixed lifetime, a null result stores nothing |
| CachedInternals.CachedInternal.GetValue | src/TMobCaseStudy.Base/Caching/CachedInternal.cs:40-48 | a cached object is returned without calling the factory; otherwise the factory's result is returned and stored when not null |
| CachedInternals.CachedInternal.Refresh | src/TMobCaseStudy.Base/Caching/CachedInternal.cs:50-54 | the key is dropped and the factory called once; the key ends holding the new object, or nothing when it is null; other keys unchanged |
| CachedInternals.CachedInternal.Clear | src/TMobCaseStudy.Base/Caching/CachedInternal.cs:56-59 | removes the key and reports whether it was cached |
| CachedInternals.CachedInternal.GetValueTwice | src/TMobCaseStudy.Base/Caching/CachedInternal.cs:40-48 | after a read that found or produced an object, a second read returns it without another factory call; a null result makes both reads call the factory |
| CachedFactories.ClearEach | src/TMobCaseStudy.Base/Caching/CachedFactory.cs:121-138 | clearing every wrapper of a group removes exactly that group's keys from each cache |
| CachedFactories.RefreshEach | src/TMobCaseStudy.Base/Caching/CachedFactory.cs:157-167 | every wrapper of a group calls its factory once and its key ends holding the new object (or nothing); entries of other keys stay as they were |
| CachedFactories.CachedFactory.constructor | src/TMobCaseStudy.Base/Caching/CachedFactory.cs:9-10 | the registry starts empty |
| CachedFactories.CachedFactory.GetCachedInternal | src/TMobCaseStudy.Base/Caching/CachedFactory.cs:210-224 | the wrapper registered under the cache and key names, or null exactly when there is none |
| CachedFactories.CachedFactory.RegisteredUnderOwnNames | src/TMobCaseStudy.Base/Caching/CachedInternal.cs:30-38 | a registered wrapper's CacheName and KeyName are the names it is registered under |
| CachedFactories.CachedFactory.GetCacheDictionary | src/TMobCaseStudy.Base/Caching/CachedFactory.cs:199-208 | null exactly for an unknown cache name; otherwise a dictionary agreeing with GetCachedInternal on every key |
| CachedFactories.CachedFactory.GetCacheNames | src/TMobCaseStudy.Base/Caching/CachedFactory.cs:113-119 | exactly the names GetCacheDictionary knows |
| CachedFactories.CachedFactory.GetCacheAndKeyNames | src/TMobCaseStudy.Base/Caching/CachedFactory.cs:102-111 | for each known cache name, exactly the key names with a registered wrapper |
| CachedFactories.CachedFactory.GetOrCreateCacheDictionary | src/TMobCaseStudy.Base/Caching/CachedFactory.cs:61-69 | returns the group for the name, adding an empty one when it was unknown |
| CachedFactories.CachedFactory.GetOrCreate | src/TMobCaseStudy.Base/Caching/CachedFactory.cs:31-59 | afterwards the wrapper is registered under the cache's name and the key; an existing one is returned with the registry unchanged, otherwise a fresh one with the given factory and lifetime is added |
| CachedFactories.CachedFactory.FirstRegistrationWins | src/TMobCaseStudy.Base/Caching/CachedFactory.cs:31-59 | two registrations of one key return the same wrapper, with the first call's factory and lifetime |
| CachedFactories.CachedFactory.GetValue | src/TMobCaseStudy.Base/Caching/CachedFactory.cs:77-81 | null exactly for an unregistered key; otherwise the wrapper's read-through value: a cached object is returned without calling the factory and nothing changes; on a miss the factory is called once and its result stored when not null |
| CachedFactories.CachedFactory.GetKeys | src/TMobCaseStudy.Base/Caching/CachedFactory.cs:96-100 | fails with ArgumentNull (the query's null-source check) exactly for an unknown cache; otherwise the group's key names, each once |
| CachedFactories.CachedFactory.ClearCache | src/TMobCaseStudy.Base/Caching/CachedFactory.cs:121-138 | true exactly for a known cache; the group is unregistered and its keys removed from their caches |
| CachedFactories.CachedFactory.ClearKey | src/TMobCaseStudy.Base/Caching/CachedFactory.cs:140-155 | the key is unregistered; the result says whether its cache held an object, which is removed |
| CachedFactories.CachedFactory.RefreshKey | src/TMobCaseStudy.Base/Caching/CachedFactory.cs:181-188 | true exactly for a registered key, which is then refreshed |
| CachedFactories.CachedFactory.RefreshCache | src/TMobCaseStudy.Base/Caching/CachedFactory.cs:157-167 | fails with a null dereference exactly for an unknown cache; otherwise every wrapper of the group is refreshed and true returned |
| CachedFactories.CachedFactory.WipeoutEverything | src/TMobCaseStudy.Base/Caching/CachedFactory.cs:226-239 | every group's keys are removed from their caches and the registry ends empty |
| Int32.Wrap | src/TMobCaseStudy.Data/Definitions/Location.cs:38-45 | C# `int` arithmetic: in-range values are kept, MaxValue + 1 wraps to MinValue and MinValue - 1 to MaxValue |
| Int32.WrapAddCongruent | src/TMobCaseStudy.Data/Entities/Planet.cs:16-20 | wrapping an intermediate sum does not change the final wrapped sum |
| DotNetText.IsWhiteSpace | src/TMobCaseStudy.Core/LocationOperation.cs:11 | every blank int.TryParse skips is white space, and no digit or ASCII letter is |
| DotNetText.IsNullOrWhiteSpace | src/TMobCaseStudy.Core/PlanetOperation.cs:11 | true for null; for a string, true exactly when every part Split() cuts it into is empty |
| DotNetText.BlankIffEmptyParts | src/TMobCaseStudy.Core/LocationOperation.cs:11-17 | a text is all white space exactly when all of its Split() parts are empty |
| DotNetText.ToUpperInvariant | src/TMobCaseStudy.Core/SpaceCraftOperation.cs:32 | the same length as the text, with no ASCII lower-case letter left |
| DotNetText.ToUpperInvariantAt | src/TMobCaseStudy.Core/SpaceCraftOperation.cs:32 | at each position, an ASCII lower-case letter becomes its capital, the long s becomes 'S', and every other ASCII character is kept |
| DotNetText.Join | src/TMobCaseStudy.Core/PlanetOperation.cs:31 | empty for no parts; otherwise as long as the parts plus one separator between each two, and starting with the first part |
| DotNetText.UpperIdempotent | src/TMobCaseStudy.Core/SpaceCraftOperation.cs:32 | upper-casing twice equals upper-casing once |
| DotNetText.Split | src/TMobCaseStudy.Core/LocationOperation.cs:17 | splitting yields at least one part |
| DotNetText.SplitPartsHaveNoWhiteSpace | src/TMobCaseStudy.Core/LocationOperation.cs:17 | no part of a split contains white space |
| DotNetText.SplitJoinRoundTrip | src/TMobCaseStudy.Core/LocationOperation.cs:17 | joining the parts with single spaces gives back the text with white space normalised to spaces |
| DotNetText.SplitWithoutWhiteSpace | src/TMobCaseStudy.Core/LocationOperation.cs:17 | a text without white space is one part |
| DotNetText.SplitAtWhiteSpace | src/TMobCaseStudy.Core/LocationOperation.cs:17 | a white-space character splits a text into the parts of either side |
| DotNetText.NatToDigits | src/TMobCaseStudy.Core/SpaceCraftOperation.cs:21 | the decimal text of a non-negative number: at least one digit, all digits, no leading zero when the number is positive; NatToDigitsRoundTrip shows the digits denote it |
| DotNetText.NatToDigitsRoundTrip | src/TMobCaseStudy.Core/SpaceCraftOperation.cs:21 | the decimal digits of n are non-empty and denote n |
| DotNetText.Int32ToString | src/TMobCaseStudy.Data/Entities/SpaceCraft/SpaceCraftBase.cs:24 | a non-empty text that starts with a minus sign exactly for a negative value, the rest being decimal digits |
| DotNetText.TryParseInt32 | src/TMobCaseStudy.Core/LocationOperation.cs:18-19 | accepts only a text holding at least one decimal digit |
| DotNetText.ParseOrZero | src/TMobCaseStudy.Core/PlanetOperation.cs:33-34 | the out value of int.TryParse: 0 when parsing fails, and any non-zero value is what parsing returned |
| DotNetText.TrimStartIsSuffix | src/TMobCaseStudy.Core/PlanetOperation.cs:33-34 | skipping leading blanks keeps a suffix of the text |
| DotNetText.TrimEndIsPrefix | src/TMobCaseStudy.Core/PlanetOperation.cs:33-34 | skipping trailing blanks keeps a prefix of the text |
| DotNetText.Int32RoundTrip | src/TMobCaseStudy.Core/LocationOperation.cs:18-19 | int.TryParse reads back every int Int32.ToString prints |
| DotNetText.ParseNegativeDigits | src/TMobCaseStudy.Core/PlanetOperation.cs:33-34 | a minus sign followed by digits within range parses to the negated value |
| DotNetText.ParseDigitsOnly | src/TMobCaseStudy.Core/PlanetOperation.cs:33-34 | a run of digits within range parses to its value |
| Directions.Direction.Degrees | src/TMobCaseStudy.Data/Definitions/Direction.cs:3-13 | each direction's underlying integer is a multiple of 45 in [0, 360); DegreesInjective shows distinct directions have distinct values |
| Directions.FromDegrees | src/TMobCaseStudy.Data/Definitions/Direction.cs:3-13 | the cast from a direction's underlying integer gives back the direction with that integer |
| Directions.DegreesInjective | src/TMobCaseStudy.Data/Definitions/Direction.cs:3-13 | distinct directions have distinct underlying integers |
| Directions.Abbreviation | src/TMobCaseStudy.Data/Definitions/Direction.cs:17-31 | the token of a direction has one letter exactly for the cardinal directions and two otherwise, and is already upper case |
| Directions.FromInput | src/TMobCaseStudy.Data/Definitions/Direction.cs:17-31 | a token is accepted only when its upper case is the chosen direction's abbreviation |
| Directions.FromInputAbbreviation | src/TMobCaseStudy.Data/Definitions/Direction.cs:17-31 | every direction's abbreviation parses back to it |
| Directions.FromInputAccepts | src/TMobCaseStudy.Data/Definitions/Direction.cs:17-31 | a token parses to d exactly when its upper case is d's abbreviation; any other token throws |
| Directions.FromInputIgnoresCase | src/TMobCaseStudy.Data/Definitions/Direction.cs:19 | a token and its upper case parse alike |
| Directions.FromInputInjective | src/TMobCaseStudy.Data/Definitions/Direction.cs:17-31 | two accepted tokens give the same direction exactly when their upper cases agree |
| Directions.FromInputExamples | src/TMobCaseStudy.Data/Definitions/Direction.cs:17-31 | "n" and "sW" are accepted, the long s reads as South, "X", "" and "NN" throw |
| Rotations.RotatedDegreesNameADirection | src/TMobCaseStudy.Data/Definitions/Rotation.cs:13-16 | the rotated angle always names a direction, so the cast is defined |
| Rotations.CreateDirectionFromRotation | src/TMobCaseStudy.Data/Definitions/Rotation.cs:13-16 | the new direction's angle is the old one plus 90° per rotation unit, modulo 360 |
| Rotations.Turns | src/TMobCaseStudy.Data/Definitions/Rotation.cs:13-16 | the rotation gives the direction whose angle is the rotated angle |
| Rotations.RightTurn | src/TMobCaseStudy.Data/Definitions/Rotation.cs:13-16 | R turns a quarter clockwise (N to E, E to S, NE to SE, ...) |
| Rotations.LeftTurn | src/TMobCaseStudy.Data/Definitions/Rotation.cs:13-16 | L turns a quarter counter-clockwise |
| Rotations.RightLeftCancel | src/TMobCaseStudy.Data/Definitions/Rotation.cs:13-16 | R and L undo each other in either order |
| Rotations.FourTurnsIdentity | src/TMobCaseStudy.Data/Definitions/Rotation.cs:13-16 | four turns the same way give back the direction |
| Rotations.WrapAroundNorth | src/TMobCaseStudy.Data/Definitions/Rotation.cs:13-16 | L from North is West and R from West is North |
| Rotations.FullTurnsKeep | src/TMobCaseStudy.Data/Definitions/Rotation.cs:13-16 | the numeric rotations 0 and 4 keep the direction |
| Rotations.ThreeTurnsLeft | src/TMobCaseStudy.Data/Definitions/Rotation.cs:13-16 | the numeric rotation 3 turns like L |
| Rotations.RotationKeepsCardinality | src/TMobCaseStudy.Data/Definitions/Rotation.cs:13-16 | rotations keep cardinal directions cardinal and diagonal ones diagonal |
| Locations.Validate | src/TMobCaseStudy.Data/Definitions/Location.cs:23-32 | passes exactly when both coordinates lie between 0 and their boundary inclusive; otherwise the out-of-planet error with the coordinates |
| Locations.ValidateBoundsInclusive | src/TMobCaseStudy.Data/Definitions/Location.cs:23-32 | both corners are on the planet, one square past any edge is not |
| Locations.NegativeBoundaryRejectsAll | src/TMobCaseStudy.Data/Definitions/Location.cs:23-32 | a planet with a negative boundary accepts no location |
| Locations.CreateNewLocationUsingDirection | src/TMobCaseStudy.Data/Definitions/Location.cs:34-49 | the heading is kept; the location changes exactly for cardinal headings, and then by one square along one axis |
| Locations.StepAddsDelta | src/TMobCaseStudy.Data/Definitions/Location.cs:34-49 | away from the int limits a step adds the heading's unit vector |
| Locations.StepThereAndBack | src/TMobCaseStudy.Data/Definitions/Location.cs:34-49 | stepping, turning around with two R rotations and stepping again returns to the start square |
| Locations.StepWrapLeavesEveryPlanet | src/TMobCaseStudy.Data/Definitions/Location.cs:38-39 | a North step from int.MaxValue wraps to int.MinValue, which no planet contains |
| Planets.Planet.constructor | src/TMobCaseStudy.Data/Entities/Planet.cs:9-14 | the planet has the given name and boundaries |
| Planets.Planet.Enlarge | src/TMobCaseStudy.Data/Entities/Planet.cs:16-20 | each boundary grows by its amount with wrapping `+=`; the name is kept |
| Planets.Planet.Resize | src/TMobCaseStudy.Data/Entities/Planet.cs:22-26 | both boundaries are overwritten; the name is kept |
| Planets.EnlargeTwice | src/TMobCaseStudy.Data/Entities/Planet.cs:16-20 | two enlargements equal one by the wrapped sum of the amounts |
| Planets.EnlargeUndo | src/TMobCaseStudy.Data/Entities/Planet.cs:16-20 | enlarging by an amount and by its wrapped negation restores the boundary, overflow or not |
| Rovers.Rover.constructor | src/TMobCaseStudy.Data/Entities/SpaceCraft/Rover.cs:7-10 | the rover has the given name, planet and location and the OnlyForward motility |
| Rovers.Rover.Rotate | src/TMobCaseStudy.Data/Entities/SpaceCraft/Rover.cs:12-15 | only the heading changes, by the rotation |
| Rovers.Rover.Move | src/TMobCaseStudy.Data/Entities/SpaceCraft/Rover.cs:17-22 | the step is validated before it is stored: on the planet the rover moves, off it the move fails and the rover stays |
| OperationBase.ValidateInput | src/TMobCaseStudy.Core/PlanetOperation.cs:9-13 | passes exactly for a non-null text with a non-white-space character; fails with the fixed message |
| OperationBase.ValidInputHasAWord | src/TMobCaseStudy.Core/LocationOperation.cs:9-17 | a text that passes the check splits into at least one non-empty part |
| SpaceCraftOperations.TryParseRotation | src/TMobCaseStudy.Core/SpaceCraftOperation.cs:34 | a character parses as a rotation exactly when it is L, R or a digit; L is -1, R and '1' are 1, a digit is its value |
| SpaceCraftOperations.Turned | src/TMobCaseStudy.Core/SpaceCraftOperation.cs:34-37 | a command turns the rover in place; a character that is no rotation leaves it as it is |
| SpaceCraftOperations.Execute | src/TMobCaseStudy.Core/SpaceCraftOperation.cs:32-43 | a route without M always completes and leaves the rover on its square; a route can only fail through an M |
| SpaceCraftOperations.RunRoute | src/TMobCaseStudy.Core/SpaceCraftOperation.cs:30-44 | the route text is upper-cased first; from a square on the planet the rover ends on the planet |
| SpaceCraftOperations.MoveSpaceCraft | src/TMobCaseStudy.Core/SpaceCraftOperation.cs:30-44 | the rover ends where the upper-cased route leads and the outcome is the route's; the rover's planet and name are kept |
| SpaceCraftOperations.BuildSpaceCraft | src/TMobCaseStudy.Core/SpaceCraftOperation.cs:16-29 | every motility type gives a fresh OnlyForward rover named "Rover_" and the tick count, at the given location and planet |
| SpaceCraftOperations.RouteStaysOnPlanet | src/TMobCaseStudy.Core/SpaceCraftOperation.cs:30-44 | from a valid start every route ends on the planet |
| SpaceCraftOperations.RouteConcatenation | src/TMobCaseStudy.Core/SpaceCraftOperation.cs:30-44 | running a + b runs a and, only if a completed, b from where a ended |
| SpaceCraftOperations.IgnoredCommand | src/TMobCaseStudy.Core/SpaceCraftOperation.cs:32-43 | a character that is neither a rotation nor M is skipped |
| SpaceCraftOperations.CommandsAlike | src/TMobCaseStudy.Core/SpaceCraftOperation.cs:32-43 | two characters that turn alike and are alike in being M have the same effect |
| SpaceCraftOperations.RotationCharacters | src/TMobCaseStudy.Core/SpaceCraftOperation.cs:34 | '0', '1', '3', '4' parse as numbers (1 as R); blank, M and lower-case l do not parse |
| SpaceCraftOperations.NoTurnSkipped | src/TMobCaseStudy.Core/SpaceCraftOperation.cs:32-43 | a character other than M that leaves the heading unchanged is skipped |
| SpaceCraftOperations.ZeroAndFourDoNotTurn | src/TMobCaseStudy.Core/SpaceCraftOperation.cs:34-37 | the commands 0 and 4 leave the heading unchanged |
| SpaceCraftOperations.ZeroAndFourSkipped | src/TMobCaseStudy.Core/SpaceCraftOperation.cs:32-43 | the commands 0 and 4 are skipped |
| SpaceCraftOperations.OneAndThreeTurnLikeNames | src/TMobCaseStudy.Core/SpaceCraftOperation.cs:34-37 | the command 1 turns like R and 3 like L |
| SpaceCraftOperations.OneAndThreeTurn | src/TMobCaseStudy.Core/SpaceCraftOperation.cs:32-43 | a route starting with 1 (3) runs like one starting with R (L) |
| SpaceCraftOperations.RunRouteIgnoresCase | src/TMobCaseStudy.Core/SpaceCraftOperation.cs:32 | a route and its upper case drive the rover alike |
| SpaceCraftOperations.LeftCommand | src/TMobCaseStudy.Core/SpaceCraftOperation.cs:34-37 | L turns a quarter counter-clockwise and the route continues |
| SpaceCraftOperations.RightCommand | src/TMobCaseStudy.Core/SpaceCraftOperation.cs:34-37 | R turns a quarter clockwise and the route continues |
| SpaceCraftOperations.MoveCommand | src/TMobCaseStudy.Core/SpaceCraftOperation.cs:39-42 | M steps and continues when the step is on the planet, otherwise ends the route where the rover stands |
| SpaceCraftOperations.FirstSampleRoute | src/TMobCaseStudy.Core/SpaceCraftOperation.cs:30-44 | 1 2 N with LMLMLMLMM ends at 1 3 N on any planet holding its squares |
| SpaceCraftOperations.FirstSampleRouteLeg1 | src/TMobCaseStudy.Core/SpaceCraftOperation.cs:30-44 | 1 2 N with LML ends at 0 2 S |
| SpaceCraftOperations.FirstSampleRouteLeg2 | src/TMobCaseStudy.Core/SpaceCraftOperation.cs:30-44 | 0 2 S with MLM ends at 1 1 E |
| SpaceCraftOperations.FirstSampleRouteLeg3 | src/TMobCaseStudy.Core/SpaceCraftOperation.cs:30-44 | 1 1 E with LMM ends at 1 3 N |
| SpaceCraftOperations.SecondSampleRoute | src/TMobCaseStudy.Core/SpaceCraftOperation.cs:30-44 | 3 3 E with MMRMMRMRRM ends at 5 1 E on any planet holding its squares |
| SpaceCraftOperations.SecondSampleRouteLeg1 | src/TMobCaseStudy.Core/SpaceCraftOperation.cs:30-44 | 3 3 E with MMR ends at 5 3 S |
| SpaceCraftOperations.SecondSampleRouteLeg2 | src/TMobCaseStudy.Core/SpaceCraftOperation.cs:30-44 | 5 3 S with MMR ends at 5 1 W |
| SpaceCraftOperations.SecondSampleRouteLeg3 | src/TMobCaseStudy.Core/SpaceCraftOperation.cs:30-44 | 5 1 W with MRRM ends at 5 1 E |
| SpaceCraftOperations.OffPlanetStopsRoute | src/TMobCaseStudy.Core/SpaceCraftOperation.cs:30-44 | a rover at 0 0 S fails its first move, stays put and skips the rest |
| LocationOperations.CreateLocationFromLocationText | src/TMobCaseStudy.Core/LocationOperation.cs:15-26 | succeeds exactly when the first two parts are integers and the last part is a direction, and then holds those values |
| LocationOperations.IndexOutOfRangeExactly | src/TMobCaseStudy.Core/LocationOperation.cs:17-19 | the missing-second-token error happens exactly when the whole text is one integer token |
| LocationOperations.SplitThreeWords | src/TMobCaseStudy.Core/LocationOperation.cs:17 | three words without white space joined by single spaces split into those three words |
| LocationOperations.LocationTextRoundTrip | src/TMobCaseStudy.Core/LocationOperation.cs:15-26 | a location written as "x y D" parses back to that location |
| LocationOperations.MiddleWordIgnored | src/TMobCaseStudy.Core/LocationOperation.cs:22 | words between the coordinates and the direction are ignored |
| LocationOperations.NegativeCoordinatesParse | src/TMobCaseStudy.Core/LocationOperation.cs:15-26 | negative coordinates parse; only the bounds check rejects them |
| LocationOperations.LoneIntegerText | src/TMobCaseStudy.Core/LocationOperation.cs:18-19 | "7" has no second token |
| LocationOperations.LeadingBlankText | src/TMobCaseStudy.Core/LocationOperation.cs:17-18 | a leading blank makes an empty first token, which is not an integer |
| LocationOperations.MissingDirectionText | src/TMobCaseStudy.Core/LocationOperation.cs:22-23 | without a direction the last token is the second coordinate, which names no direction |
| LocationOperations.IntegerTextIsNoDirection | src/TMobCaseStudy.Core/LocationOperation.cs:22-23 | no integer's text is a direction token |
| LocationOperations.DirectionTokenAnyCase | src/TMobCaseStudy.Core/LocationOperation.cs:22-23 | the direction token may be written in any case the direction parser accepts |
| PlanetOperations.CreatePlanet | src/TMobCaseStudy.Core/PlanetOperation.cs:15-18 | a fresh planet with the given boundaries and name |
| PlanetOperations.SplitHalves | src/TMobCaseStudy.Core/PlanetOperation.cs:42-57 | two pieces, the first half the length rounded down, that concatenate to the text |
| PlanetOperations.PlanetBoundaries | src/TMobCaseStudy.Core/PlanetOperation.cs:20-40 | a text shorter than two characters is refused; otherwise the text is accepted exactly when int.TryParse reads a non-zero value from each half, and the boundaries are those values |
| PlanetOperations.BuildPlanetBoundaries | src/TMobCaseStudy.Core/PlanetOperation.cs:20-40 | the loop computes the two halves read as integers (0 when unreadable) and refuses a zero boundary |
| PlanetOperations.ParseIgnoresTrailingBlank | src/TMobCaseStudy.Core/PlanetOperation.cs:28-33 | the blank appended to the first half does not change how it parses |
| PlanetOperations.BoundariesRoundTrip | src/TMobCaseStudy.Core/PlanetOperation.cs:20-40 | two non-zero numbers printed with the same width are read back as the boundaries |
| PlanetOperations.ZeroBoundaryRefused | src/TMobCaseStudy.Core/PlanetOperation.cs:36-37 | a zero on either side is refused |
| PlanetOperations.FiveByFive | src/TMobCaseStudy.Core/PlanetOperation.cs:20-40 | "55" is a 5 x 5 planet |
| PlanetOperations.ZeroByZero | src/TMobCaseStudy.Core/PlanetOperation.cs:36-37 | "00" is refused |
| PlanetOperations.NegativeSizeAccepted | src/TMobCaseStudy.Core/PlanetOperation.cs:20-40 | "-5-5" is accepted as -5 x -5 |
| PlanetOperations.UnevenWidthsMisread | src/TMobCaseStudy.Core/PlanetOperation.cs:20-40 | "105" is read as 1 x 5 |
| PlanetOperations.ShortTextRefused | src/TMobCaseStudy.Core/PlanetOperation.cs:25-37 | a text shorter than two characters is refused |
| PlanetOperations.TwentyByTwenty | src/TMobCaseStudy.Core/PlanetOperation.cs:20-40 | "2020" is a 20 x 20 planet |
| PlanetOperations.IndexOf | src/TMobCaseStudy.Core/PlanetOperation.cs:67 | the first position holding the line, or -1 exactly when it is absent |
| PlanetOperations.RemainderByTwo | src/TMobCaseStudy.Core/PlanetOperation.cs:67-68 | C#'s `% 2`, truncating toward zero: -1, 0 or 1, never of the opposite sign to the operand |
| PlanetOperations.RemainderByTwoIsTruncated | src/TMobCaseStudy.Core/PlanetOperation.cs:67-68 | the operand minus its remainder is even |
| PlanetOperations.WhereIndexParity | src/TMobCaseStudy.Core/PlanetOperation.cs:67-69 | the `Where` filter on the remainder of the first index never grows its input; WhereIndexParityKeeps says which items it keeps |
| PlanetOperations.WhereIndexParityKeeps | src/TMobCaseStudy.Core/PlanetOperation.cs:67-69 | the filter keeps exactly the items whose first position in the list has the given C# remainder by two (truncating, as `%` in C#), none added |
| PlanetOperations.WhereIndexParitySplits | src/TMobCaseStudy.Core/PlanetOperation.cs:67-69 | every line of the input lands in exactly one of the odd and even filters, so their lengths add up to the number of lines |
| PlanetOperations.BuildRoversAndRoutesFromInput | src/TMobCaseStudy.Core/PlanetOperation.cs:65-72 | zips the lines whose first occurrence is at an odd index with the lines whose first occurrence is at an even index, after the size line; each pair takes two lines besides the size line, so there are fewer than half as many pairs as lines; RoversAndRoutesParity gives every pair's parities, and RoversAndRoutesOfDistinctLines shows it pairs consecutive lines when no line repeats |
| PlanetOperations.RoversAndRoutesParity | src/TMobCaseStudy.Core/PlanetOperation.cs:65-72 | every pair is a line whose first occurrence is at an odd position, then one whose first occurrence is at an even position |
| PlanetOperations.Zip | src/TMobCaseStudy.Core/PlanetOperation.cs:71 | pairs elements position by position up to the shorter length |
| PlanetOperations.ConsecutivePairs | src/TMobCaseStudy.Core/PlanetOperation.cs:65-72 | the intended pairing: lines k and k+1, k+2 and k+3, ..., a lone last line dropped |
| PlanetOperations.IndexOfDistinct | src/TMobCaseStudy.Core/PlanetOperation.cs:67 | without repeated lines IndexOf finds each line at its own position |
| PlanetOperations.WhereParityOfDistinct | src/TMobCaseStudy.Core/PlanetOperation.cs:67-69 | without repeated lines the parity filter keeps every other line |
| PlanetOperations.ZipEveryOther | src/TMobCaseStudy.Core/PlanetOperation.cs:71 | zipping every other line with the lines after them gives the consecutive pairs |
| PlanetOperations.RoversAndRoutesOfDistinctLines | src/TMobCaseStudy.Core/PlanetOperation.cs:65-72 | without repeated lines the rovers are (line 1, line 2), (line 3, line 4), ... |
| PlanetOperations.RepeatedLineMispairs | src/TMobCaseStudy.Core/PlanetOperation.cs:65-72 | for lines size, a, a, b, route the first rover gets the second rover's route and the second rover is dropped |
| PlanetOperations.RepeatedLocationLines | src/TMobCaseStudy.Core/PlanetOperation.cs:67 | with a repeated location line both copies and the next location are taken as locations |
| PlanetOperations.RepeatedRouteLines | src/TMobCaseStudy.Core/PlanetOperation.cs:68-69 | with a repeated location line only the size line and the last route have even parity |
| PlanetOperations.RepeatedSampleLineMispairs | src/TMobCaseStudy.Core/PlanetOperation.cs:65-72 | the sample input with its second location line repeated yields only ("1 2 N", "M") |

## Left out

- Locking: the cache's lock and the registry's semaphore are not modelled. Each operation is one atomic step, and concurrent callers are not modelled.
- Async: the async variants (`GetOrCreateAsync`, `RefreshCacheAsync`, `RefreshKeyAsync`, and the awaited cache calls) are modelled as the sequential operations they wrap.
- The clock: `DateTime.Now` is the parameter `now`, and `DateTime.Now.Ticks` the parameter `ticks`.
  - LruCaches.LruCache.TryGet: uses one tick for the expiry test and for LastUsed, where the source reads the clock twice.
  - LruCaches.LruCache.AddOrReplace: uses one tick for the expiry sweep and the new node, where the source reads the clock separately for each.
- Pointer size: `IntPtr.Size` is fixed at 8, a 64-bit process.
- LruCaches.KeySize, LruCaches.NodeSize, LruCaches.ComputeIncreaseInSize: the source computes these in 32-bit `int`, which wraps for keys or payloads near `int.MaxValue` bytes. The model computes them as unbounded integers.
- Overflow in the cache:
  - `int` overflow of the cache's counters is not modelled; the counters, the `long` size and the tick counts are unbounded integers.
  - `DateTime` overflow in `Added + Expiration` is not modelled.
- LruCaches.LruCache.EvictOne: when several entries share the smallest LastUsed, the source evicts the first in the dictionary's enumeration order. The model leaves that order open and evicts one of them.
- Null payloads: `AddOrReplace`'s null-value check is not modelled, because a payload is a byte sequence and never null. A null key and an empty key are one case, `NullKey`.
- Aliasing of cache values:
  - The byte array `TryGet` returns is the cached array itself, so later writes to it would show in the cache.
  - `Statistics` copies the dictionary but shares its `KeyStatistics` objects.
  - Both are modelled as values.
- `HitRatio`: the `decimal` ratio is kept as numerator and denominator.
- `Median` and `Mean` are not part of this model: they are decimal arithmetic.
- Selectors in `EnumerableExtensions`:
  - Selectors return `int`, standing for any `IComparable` or `decimal` key.
  - The identity-selector overloads (`MinItem()` and the like) are the selector overloads applied to `x => x`.
  - `Enumerable.OrderBy` is modelled as a stable insertion sort.
- ItemWithIndex: equality is the datatype's equality. `GetHashCode` and `ToString` are not modelled.
- The LRU indexer is not a separate member: its getter is `Get` and its setter `AddOrReplace(key, value, None)`.
- CachedInternals.Store models the `ICache` interface only as a named map that holds what was put until it is removed. Expiry by timeout inside the cache implementation (`InMemoryCache`) is not part of this model.
- Casts in the cached layer: cached objects are byte payloads. The casts `as T` to the caller's type, and the null they yield for a wrong type, are not modelled.
- CachedInternals.ValueFactory: the value factory is a function of how often it was called before. A factory that throws is not modelled.
- `Cached<T>` wrappers in `CachedFactory`:
  - `GetCached` and `GetObjectsOfCache` wrap their results in `Cached<T>`. The wrapper is not part of this model.
  - `GetCachedInternal` and `GetCacheDictionary` model the look-ups they perform.
  - `InMemoryCachedFactory` is not part of this model.
- CachedFactories.CachedFactory.GetCacheNames and CachedFactories.CachedFactory.GetCacheAndKeyNames return sets, not the immutable lists the source builds, so list order is not modelled.
- CachedFactories.CachedFactory.GetKeys returns the keys in an order the model leaves open.
- Location aliasing: `Location` is a mutable class in the source.
  - `Rotate` changes the direction of the shared `Location` object in place.
  - `CreateNewLocationUsingDirection` returns the same object for a diagonal heading.
  - The model's `Location` is a value, so changes through other references are not modelled.
- `SpaceCraftBase`, `ISpaceCraftBase` and the commented-out spacecraft kinds are not part of this model. `MotilityType` is an enum of its three names.
- DotNetText.ToUpperInvariant: covers the ASCII letters and the long s (U+017F), which upper-cases to 'S'. The Turkish dotless i (U+0131) is kept as it is, as the invariant casing keeps it. Other characters are left as they are.
- DotNetText.TryParseInt32, DotNetText.Int32ToString: modelled in the invariant culture. The source calls int.TryParse and ToString under the current culture. A culture whose sign characters differ (another minus sign, say) is not modelled.
- DotNetText.TryParseInt32: follows `NumberStyles.Integer`: blanks, an optional sign, ASCII digits, and the `int` range. It does not accept the trailing NUL characters that .NET also accepts.
- OperationBase.ValidateInput: the source copies this check into each operation class, and `PlanetOperation.ValidatePlanetSizeInput` is one more copy. It is modelled once.
- LocationOperations.CreateLocationFromLocationText: the source's plain `Exception` for a bad coordinate is `NotAnInteger`. Indexing a missing second token is `IndexOutOfRange`.
- Null strings in the rover input: a null token in Directions.FromInput, a null text in LocationOperations.CreateLocationFromLocationText, a null route in SpaceCraftOperations.MoveSpaceCraft, and null lines reaching these from PlanetOperations.BuildRoversAndRoutesFromInput. Each throws `NullReferenceException` in the source. The model's strings are never null, so these exceptions are not modelled.
- Null sources in EnumerableExtensions: the helpers that do not check for null throw on a null sequence. The min, max and find helpers call `GetEnumerator` on it and throw `NullReferenceException`. IsEmpty and MedianItem pass it to LINQ and throw `ArgumentNullException`. The model's sequences for these helpers are never null, so these exceptions are not modelled. IsNullOrEmpty, IsOrderedEqual and IsUnorderedEqual check for null, and model it as `None`.
- Outside the model: the web layer, the HTTP client, serialization, publish/subscribe, monitoring and every `ToString` override.

=== FILE: cached_factory.dfy ===
/**
 * The registry of read-through wrappers, grouped first by cache name and then by key
 * name. The first registration of a (cache, key) pair wins; clearing goes through to
 * the caches.
 */
module CachedFactories {
  import opened Wrappers
  import opened CachedInternals

  /**
   * What the registry's null for an unknown cache name turns into: a loop over it
   * dereferences it, a LINQ query over it rejects it as a null argument.
   */
  datatype FactoryError = NullReference | ArgumentNull

  /** Every wrapper is registered under its own key name. */
  ghost predicate KeyedByName(dict: map<string, CachedInternal>)
  {
    forall k | k in dict :: dict[k].keyName == k
  }

  /** The caches the wrappers of one cache name write to. */
  ghost function StoresOf(dict: map<string, CachedInternal>): set<Store>
  {
    set k | k in dict :: dict[k].cache
  }

  /** The keys of dict whose wrapper writes to store. */
  ghost function KeysIn(dict: map<string, CachedInternal>, store: Store): set<string>
  {
    set k | k in dict && dict[k].cache == store
  }

  lemma RemoveOneMore(entries: map<string, Stored>, removed: set<string>, key: string)
    ensures (entries - removed) - {key} == entries - (removed + {key})
  {
  }

  lemma KeysInStep(dict: map<string, CachedInternal>, store: Store, remaining: set<string>, key: string)
    requires key in remaining
    ensures key in dict && dict[key].cache == store ==>
              KeysIn(dict, store) - (remaining - {key}) == (KeysIn(dict, store) - remaining) + {key}
    ensures key !in dict || dict[key].cache != store ==>
              KeysIn(dict, store) - (remaining - {key}) == KeysIn(dict, store) - remaining
  {
  }

  /** Clears every wrapper of dict: each cache loses exactly the keys registered with it. */
  method ClearEach(dict: map<string, CachedInternal>)
    requires KeyedByName(dict)
    modifies StoresOf(dict)
    ensures forall s | s in StoresOf(dict) :: s.entries == old(s.entries) - KeysIn(dict, s)
  {
    var remaining := dict.Keys;
    while remaining != {}
      invariant remaining <= dict.Keys
      invariant forall s | s in StoresOf(dict) :: s.entries == old(s.entries) - (KeysIn(dict, s) - remaining)
      decreases |remaining|
    {
      var key :| key in remaining;
      var removed := dict[key].Clear();
      forall s | s in StoresOf(dict)
        ensures s.entries == old(s.entries) - (KeysIn(dict, s) - (remaining - {key}))
      {
        KeysInStep(dict, s, remaining, key);
        if s == dict[key].cache {
          RemoveOneMore(old(s.entries), KeysIn(dict, s) - remaining, key);
        }
      }
      remaining := remaining - {key};
    }
    forall s | s in StoresOf(dict)
      ensures s.entries == old(s.entries) - KeysIn(dict, s)
    {
      assert KeysIn(dict, s) - {} == KeysIn(dict, s);
    }
  }

  /** The wrappers of one cache name. */
  ghost function InternalsOf(dict: map<string, CachedInternal>): set<CachedInternal>
  {
    set k | k in dict :: dict[k]
  }

  /** After a refresh that saw value, the wrapper's key holds value, or nothing when value is null. */
  ghost predicate RefreshedWith(cached: CachedInternal, value: Option<Payload>)
    reads cached.cache
  {
    if value.Some? then
      cached.keyName in cached.cache.entries
      && cached.cache.entries[cached.keyName] == Stored(value.value, cached.expirationDuration)
    else
      cached.keyName !in cached.cache.entries
  }

  /** key has the same entry, or none, in both maps. */
  ghost predicate SameEntry(entries: map<string, Stored>, previous: map<string, Stored>, key: string)
  {
    && (key in entries <==> key in previous)
    && (key in entries ==> entries[key] == previous[key])
  }

  /** The entry of key in store is as it was before. */
  twostate predicate EntryUnchanged(store: Store, key: string)
    reads store
  {
    SameEntry(store.entries, old(store.entries), key)
  }

  /**
   * How far a refresh of every wrapper of dict has come: the keys outside remaining
   * were refreshed once with what their factory produced at the start, and every other
   * entry of the caches is as it was at the start.
   */
  ghost predicate RefreshProgress(dict: map<string, CachedInternal>, remaining: set<string>,
                                  calls: map<string, nat>, next: map<string, Option<Payload>>,
                                  initial: map<Store, map<string, Stored>>)
    reads InternalsOf(dict), StoresOf(dict)
  {
    && (forall k | k in dict :: k in calls && k in next && next[k] == dict[k].valueFactory(calls[k]))
    && (forall s | s in StoresOf(dict) :: s in initial)
    && (forall k | k in dict :: dict[k].factoryCalls == calls[k] + (if k in remaining then 0 else 1))
    && (forall k | k in dict && k !in remaining :: RefreshedWith(dict[k], next[k]))
    && (forall s, key | s in StoresOf(dict) && key !in KeysIn(dict, s) - remaining ::
          SameEntry(s.entries, initial[s], key))
  }

  /** Refreshes the wrapper of one more key. */
  method RefreshStep(dict: map<string, CachedInternal>, remaining: set<string>, key: string,
                     ghost calls: map<string, nat>, ghost next: map<string, Option<Payload>>,
                     ghost initial: map<Store, map<string, Stored>>)
    requires KeyedByName(dict) && key in remaining && remaining <= dict.Keys
    requires RefreshProgress(dict, remaining, calls, next, initial)
    modifies dict[key], dict[key].cache
    ensures RefreshProgress(dict, remaining - {key}, calls, next, initial)
  {
    var cached := dict[key];
    cached.Refresh();
    forall k | k in dict && k != key
      ensures dict[k].factoryCalls == old(dict[k].factoryCalls)
    {
      assert dict[k].keyName != cached.keyName;
    }
    forall s, k | s in StoresOf(dict) && k !in KeysIn(dict, s) - (remaining - {key})
      ensures SameEntry(s.entries, initial[s], k)
    {
      assert SameEntry(old(s.entries), initial[s], k);
      if s == cached.cache {
        assert k != key;
      }
      assert SameEntry(s.entries, old(s.entries), k);
    }
  }

  lemma RefreshStarts(dict: map<string, CachedInternal>, calls: map<string, nat>,
                      next: map<string, Option<Payload>>, initial: map<Store, map<string, Stored>>)
    requires calls == map k | k in dict :: dict[k].factoryCalls
    requires next == map k | k in dict :: dict[k].NextValue()
    requires initial == map s | s in StoresOf(dict) :: s.entries
    ensures RefreshProgress(dict, dict.Keys, calls, next, initial)
  {
  }

  lemma RefreshEnds(dict: map<string, CachedInternal>, calls: map<string, nat>,
                    next: map<string, Option<Payload>>, initial: map<Store, map<string, Stored>>)
    requires RefreshProgress(dict, {}, calls, next, initial)
    ensures forall k | k in dict :: dict[k].factoryCalls == calls[k] + 1 && RefreshedWith(dict[k], next[k])
    ensures forall s, key | s in StoresOf(dict) && key !in KeysIn(dict, s) :: SameEntry(s.entries, initial[s], key)
  {
    forall s, key | s in StoresOf(dict) && key !in KeysIn(dict, s)
      ensures SameEntry(s.entries, initial[s], key)
    {
      assert key !in KeysIn(dict, s) - {};
    }
  }

  /** Refreshes every wrapper of dict: each key gets what its factory produces next. */
  method RefreshEach(dict: map<string, CachedInternal>)
    requires KeyedByName(dict)
    modifies InternalsOf(dict), StoresOf(dict)
    ensures forall k | k in dict :: dict[k].factoryCalls == old(dict[k].factoryCalls) + 1
    ensures forall k | k in dict :: RefreshedWith(dict[k], old(dict[k].NextValue()))
    ensures forall s, key | s in StoresOf(dict) && key !in KeysIn(dict, s) :: EntryUnchanged(s, key)
  {
    ghost var calls := map k | k in dict :: dict[k].factoryCalls;
    ghost var next := map k | k in dict :: dict[k].NextValue();
    ghost var initial := map s | s in StoresOf(dict) :: s.entries;
    RefreshStarts(dict, calls, next, initial);
    var remaining := dict.Keys;
    while remaining != {}
      invariant remaining <= dict.Keys
      invariant RefreshProgress(dict, remaining, calls, next, initial)
      decreases |remaining|
    {
      var key :| key in remaining;
      RefreshStep(dict, remaining, key, calls, next, initial);
      remaining := remaining - {key};
    }
    RefreshEnds(dict, calls, next, initial);
  }

  /** A cache that a wrapper of one group writes to carries that group's name. */
  lemma StoreOfGroupIsNamed(dict: map<string, CachedInternal>, name: string, store: Store)
    requires forall k | k in dict :: dict[k].cache.name == name
    requires store in StoresOf(dict)
    ensures store.name == name
  {
    var k :| k in dict && dict[k].cache == store;
  }

  class CachedFactory {
    var cachedObjects: map<string, map<string, CachedInternal>>

    /** Each wrapper sits under its own key name and under the name of the cache it writes to. */
    ghost predicate Valid()
      reads this
    {
      forall c | c in cachedObjects ::
        && KeyedByName(cachedObjects[c])
        && forall k | k in cachedObjects[c] :: cachedObjects[c][k].cache.name == c
    }

    /** Every cache some registered wrapper writes to. */
    ghost function Stores(): set<Store>
      reads this
    {
      set c, k | c in cachedObjects && k in cachedObjects[c] :: cachedObjects[c][k].cache
    }

    constructor()
      ensures Valid() && cachedObjects == map[]
    {
      cachedObjects := map[];
    }

    /** The wrapper registered for the pair, if any. */
    function GetCachedInternal(cacheName: string, keyName: string): (r: Option<CachedInternal>)
      reads this
      ensures r.Some? <==> cacheName in cachedObjects && keyName in cachedObjects[cacheName]
      ensures r.Some? ==> r.value == cachedObjects[cacheName][keyName]
    {
      if cacheName in cachedObjects && keyName in cachedObjects[cacheName] then
        Some(cachedObjects[cacheName][keyName])
      else
        None
    }

    /** A registered wrapper reports the cache name and the key name it is registered under. */
    lemma RegisteredUnderOwnNames(cacheName: string, keyName: string)
      requires Valid() && GetCachedInternal(cacheName, keyName).Some?
      ensures GetCachedInternal(cacheName, keyName).value.CacheName() == cacheName
      ensures GetCachedInternal(cacheName, keyName).value.KeyName() == keyName
    {
    }

    /** The wrappers of one cache name, or None for a name never registered. */
    function GetCacheDictionary(cacheName: string): (r: Option<map<string, CachedInternal>>)
      reads this
      ensures r.None? <==> cacheName !in cachedObjects
      ensures r.Some? ==> forall k :: GetCachedInternal(cacheName, k) == (if k in r.value then Some(r.value[k]) else None)
    {
      if cacheName in cachedObjects then Some(cachedObjects[cacheName]) else None
    }

    function GetCacheNames(): (names: set<string>)
      reads this
      ensures forall c :: c in names <==> GetCacheDictionary(c).Some?
    {
      cachedObjects.Keys
    }

    function GetCacheAndKeyNames(): (names: map<string, set<string>>)
      reads this
      ensures names.Keys == GetCacheNames()
      ensures forall c, k | c in names :: k in names[c] <==> GetCachedInternal(c, k).Some?
    {
      map c | c in cachedObjects :: cachedObjects[c].Keys
    }

    /** Adds an empty group on the first use of a cache name; afterwards a no-op. */
    method GetOrCreateCacheDictionary(cacheName: string) returns (dict: map<string, CachedInternal>)
      requires Valid()
      modifies this
      ensures Valid()
      ensures cacheName in old(cachedObjects) ==> cachedObjects == old(cachedObjects)
      ensures cacheName !in old(cachedObjects) ==> cachedObjects == old(cachedObjects)[cacheName := map[]]
      ensures cacheName in cachedObjects && dict == cachedObjects[cacheName]
    {
      if cacheName !in cachedObjects {
        cachedObjects := cachedObjects[cacheName := map[]];
      }
      dict := cachedObjects[cacheName];
    }

    /**
     * The wrapper for (cache.name, keyName): the registered one when there is one,
     * whatever factory and lifetime are passed now; otherwise a new one, registered.
     */
    method GetOrCreate(valueFactory: ValueFactory, keyName: string, expirationDuration: int, cache: Store)
      returns (cached: CachedInternal)
      requires Valid()
      modifies this
      ensures Valid()
      ensures GetCachedInternal(cache.name, keyName) == Some(cached)
      ensures old(GetCachedInternal(cache.name, keyName)).Some? ==>
        cached == old(GetCachedInternal(cache.name, keyName)).value && cachedObjects == old(cachedObjects)
      ensures old(GetCachedInternal(cache.name, keyName)).None? ==>
        && fresh(cached) && cached.factoryCalls == 0
        && cached.valueFactory == valueFactory && cached.keyName == keyName
        && cached.expirationDuration == expirationDuration && cached.cache == cache
        && cachedObjects.Keys == old(cachedObjects).Keys + {cache.name}
        && forall c, k :: GetCachedInternal(c, k) == (if c == cache.name && k == keyName then Some(cached) else old(GetCachedInternal(c, k)))
    {
      var dict := GetOrCreateCacheDictionary(cache.name);
      if keyName in dict {
        return dict[keyName];
      }
      cached := new CachedInternal.Create(valueFactory, keyName, expirationDuration, cache);
      cachedObjects := cachedObjects[cache.name := dict[keyName := cached]];
    }

    /** Two registrations of the same pair: the second gets the first one's wrapper and factory. */
    method FirstRegistrationWins(first: ValueFactory, second: ValueFactory, keyName: string,
                                 firstExpiration: int, secondExpiration: int, cache: Store)
      returns (a: CachedInternal, b: CachedInternal)
      requires Valid() && GetCachedInternal(cache.name, keyName).None?
      modifies this
      ensures Valid()
      ensures a == b && b.valueFactory == first && b.expirationDuration == firstExpiration
    {
      a := GetOrCreate(first, keyName, firstExpiration, cache);
      b := GetOrCreate(second, keyName, secondExpiration, cache);
    }

    /**
     * Reads through the registered wrapper; None, the null task, when the pair is not
     * registered.
     */
    method GetValue(cacheName: string, keyName: string) returns (r: Option<Option<Payload>>)
      requires Valid()
      modifies if GetCachedInternal(cacheName, keyName).Some? then {cachedObjects[cacheName][keyName]} else {}
      modifies if GetCachedInternal(cacheName, keyName).Some? then {cachedObjects[cacheName][keyName].cache} else {}
      ensures r.None? <==> old(GetCachedInternal(cacheName, keyName)).None?
      ensures r.Some? ==>
        var cached := old(cachedObjects[cacheName][keyName]);
        && (keyName in old(cached.cache.entries) ==> r.value == Some(old(cached.cache.entries[keyName].value)))
        && (keyName !in old(cached.cache.entries) ==> r.value == old(cached.NextValue()))
      ensures r.Some? ==>
        var cached := old(cachedObjects[cacheName][keyName]);
        && (keyName in old(cached.cache.entries) ==>
              cached.factoryCalls == old(cached.factoryCalls) && cached.cache.entries == old(cached.cache.entries))
        && (keyName !in old(cached.cache.entries) ==>
              && cached.factoryCalls == old(cached.factoryCalls) + 1
              && cached.cache.entries == cached.AfterFactory(old(cached.cache.entries), r.value))
        && (r.value.Some? ==> keyName in cached.cache.entries && cached.cache.entries[keyName].value == r.value.value)
    {
      var cached := GetCachedInternal(cacheName, keyName);
      if cached.None? {
        return None;
      }
      var value := cached.value.GetValue();
      return Some(value);
    }

    /** The key names of one cache's wrappers; for an unknown name the query is handed a null source. */
    method GetKeys(cacheName: string) returns (r: Result<seq<string>, FactoryError>)
      requires Valid()
      ensures r.Failure? <==> cacheName !in GetCacheNames()
      ensures r.Failure? ==> r.error == ArgumentNull
      ensures r.Success? ==> forall k :: k in r.value <==> k in GetCacheAndKeyNames()[cacheName]
      ensures r.Success? ==> |r.value| == |cachedObjects[cacheName]|
      ensures r.Success? ==> forall i, j | 0 <= i < j < |r.value| :: r.value[i] != r.value[j]
    {
      var cacheDict := GetCacheDictionary(cacheName);
      if cacheDict.None? {
        return Failure(ArgumentNull);
      }
      var dict := cacheDict.value;
      var keys := [];
      var remaining := dict.Keys;
      while remaining != {}
        invariant remaining <= dict.Keys
        invariant |keys| + |remaining| == |dict|
        invariant forall k :: k in keys <==> k in dict && k !in remaining
        invariant forall i, j | 0 <= i < j < |keys| :: keys[i] != keys[j]
        decreases |remaining|
      {
        var key :| key in remaining;
        keys := keys + [dict[key].KeyName()];
        remaining := remaining - {key};
      }
      return Success(keys);
    }

    /**
     * For a known name: clears every key of that cache, drops the name, and returns
     * true. An unknown name changes nothing and returns false.
     */
    method ClearCache(cacheName: string) returns (cleared: bool)
      requires Valid()
      modifies this, if cacheName in cachedObjects then StoresOf(cachedObjects[cacheName]) else {}
      ensures Valid()
      ensures cleared == (cacheName in old(cachedObjects))
      ensures cachedObjects == old(cachedObjects) - {cacheName}
      ensures cleared ==>
        var dict := old(cachedObjects)[cacheName];
        forall s | s in StoresOf(dict) :: s.entries == old(s.entries) - KeysIn(dict, s)
    {
      if cacheName !in cachedObjects {
        return false;
      }
      ClearEach(cachedObjects[cacheName]);
      cachedObjects := cachedObjects - {cacheName};
      return true;
    }

    /**
     * For a registered pair: drops the registration and returns whether the cache still
     * held the key, so the result can be false with the registration gone.
     */
    method ClearKey(cacheName: string, keyName: string) returns (r: bool)
      requires Valid()
      modifies this
      modifies if GetCachedInternal(cacheName, keyName).Some? then {cachedObjects[cacheName][keyName].cache} else {}
      ensures Valid()
      ensures GetCachedInternal(cacheName, keyName).None?
      ensures old(GetCachedInternal(cacheName, keyName)).None? ==> !r && cachedObjects == old(cachedObjects)
      ensures old(GetCachedInternal(cacheName, keyName)).Some? ==>
        var store := old(cachedObjects)[cacheName][keyName].cache;
        && cachedObjects == old(cachedObjects)[cacheName := old(cachedObjects)[cacheName] - {keyName}]
        && r == (keyName in old(store.entries))
        && store.entries == old(store.entries) - {keyName}
    {
      var cached := GetCachedInternal(cacheName, keyName);
      if cached.None? {
        return false;
      }
      cachedObjects := cachedObjects[cacheName := cachedObjects[cacheName] - {keyName}];
      r := cached.value.Clear();
    }

    /** For a registered pair: refreshes its wrapper and returns true; otherwise false. */
    method RefreshKey(cacheName: string, keyName: string) returns (r: bool)
      requires Valid()
      modifies if GetCachedInternal(cacheName, keyName).Some? then {cachedObjects[cacheName][keyName]} else {}
      modifies if GetCachedInternal(cacheName, keyName).Some? then {cachedObjects[cacheName][keyName].cache} else {}
      ensures r <==> old(GetCachedInternal(cacheName, keyName)).Some?
      ensures r ==>
        var cached := old(cachedObjects)[cacheName][keyName];
        && cached.factoryCalls == old(cached.factoryCalls) + 1
        && cached.cache.entries == cached.AfterFactory(old(cached.cache.entries) - {keyName}, old(cached.NextValue()))
    {
      var cached := GetCachedInternal(cacheName, keyName);
      if cached.None? {
        return false;
      }
      cached.value.Refresh();
      return true;
    }

    /**
     * Refreshes every wrapper of a known cache name and returns true; an unknown name
     * is the null dereference.
     */
    method RefreshCache(cacheName: string) returns (r: Result<bool, FactoryError>)
      requires Valid()
      modifies if cacheName in cachedObjects then InternalsOf(cachedObjects[cacheName]) else {}
      modifies if cacheName in cachedObjects then StoresOf(cachedObjects[cacheName]) else {}
      ensures r.Failure? <==> cacheName !in cachedObjects
      ensures r.Failure? ==> r.error == NullReference
      ensures r.Success? ==> r.value
      ensures r.Success? ==>
        var dict := cachedObjects[cacheName];
        && (forall k | k in dict :: dict[k].factoryCalls == old(dict[k].factoryCalls) + 1)
        && (forall k | k in dict :: RefreshedWith(dict[k], old(dict[k].NextValue())))
        && (forall s, key | s in StoresOf(dict) && key !in KeysIn(dict, s) :: EntryUnchanged(s, key))
    {
      var cacheDict := GetCacheDictionary(cacheName);
      if cacheDict.None? {
        return Failure(NullReference);
      }
      RefreshEach(cacheDict.value);
      return Success(true);
    }

    /** Clears every key of every cache name, then forgets all names. */
    method WipeoutEverything()
      requires Valid()
      modifies this, Stores()
      ensures Valid() && cachedObjects == map[]
      ensures forall c, s | c in old(cachedObjects) && s in StoresOf(old(cachedObjects)[c]) ::
        s.entries == old(s.entries) - KeysIn(old(cachedObjects)[c], s)
    {
      var remaining := cachedObjects.Keys;
      while remaining != {}
        invariant remaining <= cachedObjects.Keys && Valid()
        invariant cachedObjects == old(cachedObjects)
        invariant forall c, s | c in cachedObjects && s in StoresOf(cachedObjects[c]) ::
          s.entries == old(s.entries) - (if c in remaining then {} else KeysIn(cachedObjects[c], s))
        decreases |remaining|
      {
        var name :| name in remaining;
        var dict := cachedObjects[name];
        assert StoresOf(dict) <= Stores();
        ClearEach(dict);
        forall c, s | c in cachedObjects && c != name && s in StoresOf(cachedObjects[c])
          ensures s !in StoresOf(dict)
        {
          StoreOfGroupIsNamed(cachedObjects[c], c, s);
          if s in StoresOf(dict) {
            StoreOfGroupIsNamed(dict, name, s);
          }
        }
        remaining := remaining - {name};
      }
      cachedObjects := map[];
    }
  }
}
=== FILE: cached_internal.dfy ===
/**
 * The read-through wrapper around one key of a cache: read the cache, fall back to the
 * value factory on a miss, write the factory's result back with a fixed lifetime.
 */
module CachedInternals {
  import opened Wrappers

  /** A cached object, modelled by its content; a null object is the absent Option. */
  datatype Payload = Payload(bytes: seq<bv8>)

  /** What a cache holds under a key: the object and the lifetime it was put with. */
  datatype Stored = Stored(value: Payload, timeout: int)

  /**
   * The cache interface, modelled as a named map. Removal on timeout is the
   * implementation's business and is not part of the interface.
   */
  class Store {
    const name: string
    var entries: map<string, Stored>

    constructor(name: string)
      ensures this.name == name && entries == map[]
    {
      this.name := name;
      entries := map[];
    }

    /** The object under key, or None when the cache has none. */
    method Get(key: string) returns (value: Option<Payload>)
      ensures value.Some? <==> key in entries
      ensures value.Some? ==> value.value == entries[key].value
    {
      if key in entries {
        return Some(entries[key].value);
      }
      return None;
    }

    method Put(key: string, value: Payload, timeout: int)
      modifies this
      ensures entries == old(entries)[key := Stored(value, timeout)]
    {
      entries := entries[key := Stored(value, timeout)];
    }

    /** Removes key and reports whether it was there. */
    method Remove(key: string) returns (existed: bool)
      modifies this
      ensures existed == (key in old(entries))
      ensures entries == old(entries) - {key}
    {
      existed := key in entries;
      entries := entries - {key};
    }
  }

  /**
   * The factory is an arbitrary function of how often it has been called before, so
   * each call may produce a different object, or none.
   */
  type ValueFactory = nat -> Option<Payload>

  class CachedInternal {
    const valueFactory: ValueFactory
    const keyName: string
    const expirationDuration: int
    const cache: Store
    /** How often this wrapper has called its factory. */
    var factoryCalls: nat

    /** The key, the lifetime and the cache are fixed here for good. */
    constructor Create(valueFactory: ValueFactory, keyName: string, expirationDuration: int, cache: Store)
      ensures this.valueFactory == valueFactory && this.keyName == keyName
      ensures this.expirationDuration == expirationDuration && this.cache == cache
      ensures CacheName() == cache.name && KeyName() == keyName
      ensures factoryCalls == 0
    {
      this.valueFactory := valueFactory;
      this.keyName := keyName;
      this.expirationDuration := expirationDuration;
      this.cache := cache;
      factoryCalls := 0;
    }

    function CacheName(): string
    {
      cache.name
    }

    function KeyName(): string
    {
      keyName
    }

    /** What the factory produces when it is called next. */
    ghost function NextValue(): Option<Payload>
      reads this
    {
      valueFactory(factoryCalls)
    }

    /** The cache's entries after storing a factory result: a null result is not stored. */
    ghost function AfterFactory(entries: map<string, Stored>, value: Option<Payload>): map<string, Stored>
    {
      if value.Some? then entries[keyName := Stored(value.value, expirationDuration)] else entries
    }

    /** Calls the factory once and stores a non-null result under the key with the fixed lifetime. */
    method GetFromValueFactoryAndPut() returns (value: Option<Payload>)
      modifies this, cache
      ensures value == old(NextValue()) && factoryCalls == old(factoryCalls) + 1
      ensures cache.entries == AfterFactory(old(cache.entries), value)
      ensures value.Some? ==> keyName in cache.entries && cache.entries[keyName].value == value.value
    {
      value := valueFactory(factoryCalls);
      factoryCalls := factoryCalls + 1;
      if value.None? {
        return None;
      }
      cache.Put(keyName, value.value, expirationDuration);
    }

    /**
     * The cached object when the cache holds one, without calling the factory;
     * otherwise the factory's result, stored when it is not null.
     */
    method GetValue() returns (value: Option<Payload>)
      modifies this, cache
      ensures keyName in old(cache.entries) ==>
        && value == Some(old(cache.entries)[keyName].value)
        && factoryCalls == old(factoryCalls) && cache.entries == old(cache.entries)
      ensures keyName !in old(cache.entries) ==>
        && value == old(NextValue()) && factoryCalls == old(factoryCalls) + 1
        && cache.entries == AfterFactory(old(cache.entries), value)
      ensures value.Some? ==> keyName in cache.entries && cache.entries[keyName].value == value.value
    {
      value := cache.Get(keyName);
      if value.None? {
        value := GetFromValueFactoryAndPut();
      }
    }

    /** Drops the cached object, then asks the factory again. */
    method Refresh()
      modifies this, cache
      ensures factoryCalls == old(factoryCalls) + 1
      ensures cache.entries == AfterFactory(old(cache.entries) - {keyName}, old(NextValue()))
      ensures old(NextValue()).None? ==> keyName !in cache.entries
      ensures forall k | k != keyName :: k in cache.entries <==> k in old(cache.entries)
      ensures forall k | k != keyName && k in cache.entries :: cache.entries[k] == old(cache.entries[k])
    {
      var existed := cache.Remove(keyName);
      var value := GetFromValueFactoryAndPut();
    }

    /** Removes the key from the cache and passes on whether it was there. */
    method Clear() returns (removed: bool)
      modifies cache
      ensures removed == (keyName in old(cache.entries))
      ensures cache.entries == old(cache.entries) - {keyName}
    {
      removed := cache.Remove(keyName);
    }

    /** A second read right after a read that found or produced an object hits the cache. */
    method GetValueTwice() returns (first: Option<Payload>, second: Option<Payload>)
      modifies this, cache
      ensures first.Some? ==> second == first
      ensures first.Some? ==> factoryCalls <= old(factoryCalls) + 1
      ensures first.None? ==> factoryCalls == old(factoryCalls) + 2
    {
      first := GetValue();
      second := GetValue();
    }
  }
}

=== FILE: direction.dfy ===
/** The compass directions of the rover simulator and the parser of direction tokens. */
module Directions {
  import opened Wrappers
  import opened DotNetText

  /** The enum's eight named values; Degrees gives each one's underlying integer. */
  datatype Direction = North | NorthEast | East | SouthEast | South | SouthWest | West | NorthWest
  {
    function Degrees(): (r: int)
      ensures 0 <= r < 360 && r % 45 == 0
    {
      match this
      case North => 0
      case NorthEast => 45
      case East => 90
      case SouthEast => 135
      case South => 180
      case SouthWest => 225
      case West => 270
      case NorthWest => 315
    }

    predicate IsCardinal() {
      this == North || this == East || this == South || this == West
    }
  }

  /** The integers that name a direction. */
  predicate IsDirectionDegrees(n: int) {
    n == 0 || n == 45 || n == 90 || n == 135 || n == 180 || n == 225 || n == 270 || n == 315
  }

  /** The cast from an integer back to the enum, for the integers that name a direction. */
  function FromDegrees(n: int): (d: Direction)
    requires IsDirectionDegrees(n)
    ensures d.Degrees() == n
  {
    if n == 0 then North
    else if n == 45 then NorthEast
    else if n == 90 then East
    else if n == 135 then SouthEast
    else if n == 180 then South
    else if n == 225 then SouthWest
    else if n == 270 then West
    else NorthWest
  }

  lemma DegreesInjective(d: Direction, e: Direction)
    ensures d.Degrees() == e.Degrees() <==> d == e
  {
  }

  /**
   * The token each direction is written as in the rover input: one letter for the four
   * cardinal directions, two for the others, already in upper case.
   */
  function Abbreviation(d: Direction): (r: string)
    ensures 1 <= |r| <= 2 && (|r| == 1 <==> d.IsCardinal())
    ensures ToUpperInvariant(r) == r
  {
    match d
    case North => "N"
    case NorthEast => "NE"
    case East => "E"
    case SouthEast => "SE"
    case South => "S"
    case SouthWest => "SW"
    case West => "W"
    case NorthWest => "NW"
  }

  /** The exception FromInput throws for an unknown token. */
  datatype DirectionError = ArgumentOutOfRange

  /** DirectionExtensions.FromInput: the upper-cased token selects the direction. */
  function FromInput(directionInput: string): (r: Result<Direction, DirectionError>)
    ensures r.Success? ==> Abbreviation(r.value) == ToUpperInvariant(directionInput)
  {
    var token := ToUpperInvariant(directionInput);
    if token == "N" then Success(North)
    else if token == "W" then Success(West)
    else if token == "S" then Success(South)
    else if token == "E" then Success(East)
    else if token == "NE" then Success(NorthEast)
    else if token == "NW" then Success(NorthWest)
    else if token == "SE" then Success(SouthEast)
    else if token == "SW" then Success(SouthWest)
    else Failure(ArgumentOutOfRange)
  }

  /** Every direction's own token parses back to it: FromInput inverts Abbreviation. */
  lemma FromInputAbbreviation(d: Direction)
    ensures FromInput(Abbreviation(d)) == Success(d)
  {
    assert ToUpperInvariant(Abbreviation(d)) == Abbreviation(d);
  }

  /** A token is accepted exactly when its upper case is one of the eight abbreviations. */
  lemma FromInputAccepts(directionInput: string, d: Direction)
    ensures FromInput(directionInput) == Success(d) <==> ToUpperInvariant(directionInput) == Abbreviation(d)
  {
  }

  /** Matching ignores case: a token and its upper case give the same answer. */
  lemma FromInputIgnoresCase(directionInput: string)
    ensures FromInput(directionInput) == FromInput(ToUpperInvariant(directionInput))
  {
    UpperIdempotent(directionInput);
  }

  /** Distinct directions come only from tokens that differ beyond case. */
  lemma FromInputInjective(a: string, b: string)
    requires FromInput(a).Success? && FromInput(b).Success?
    ensures FromInput(a) == FromInput(b) <==> ToUpperInvariant(a) == ToUpperInvariant(b)
  {
  }

  /** Lower-case tokens are accepted; the long s (U+017F) upper-cases to 'S' and reads as South. */
  lemma FromInputExamples()
    ensures FromInput("n") == Success(North)
    ensures FromInput("sW") == Success(SouthWest)
    ensures FromInput([0x17F as char]) == Success(South)
    ensures FromInput("X") == Failure(ArgumentOutOfRange)
    ensures FromInput("") == Failure(ArgumentOutOfRange)
    ensures FromInput("NN") == Failure(ArgumentOutOfRange)
  {
    assert ToUpperInvariant("n") == "N";
    assert ToUpperInvariant("sW") == "SW";
    assert ToUpperInvariant([0x17F as char]) == "S";
    assert ToUpperInvariant("X") == "X";
    assert ToUpperInvariant("NN") == "NN";
  }
}

=== FILE: dotnet_text.dfy ===
/**
 * The .NET string behaviour the rover parsers rely on: Char.IsWhiteSpace,
 * String.IsNullOrWhiteSpace, String.ToUpperInvariant, String.Split() with no
 * separator, String.Join and int.TryParse.
 */
module DotNetText {
  import opened Wrappers
  import opened Int32

  /** Char.IsWhiteSpace: the Unicode space separators plus U+0009..U+000D and U+0085. */
  predicate IsWhiteSpace(c: char): (r: bool)
    ensures IsNumberWhite(c) ==> r
    ensures r ==> !IsDigit(c) && !('A' <= c <= 'Z') && !('a' <= c <= 'z')
  {
    var n := c as int;
    (0x09 <= n <= 0x0D) || n == 0x20 || n == 0x85 || n == 0xA0 || n == 0x1680
    || (0x2000 <= n <= 0x200A) || n == 0x2028 || n == 0x2029 || n == 0x202F
    || n == 0x205F || n == 0x3000
  }

  /** The white space int.TryParse skips around a number (NumberStyles.Integer). */
  predicate IsNumberWhite(c: char) {
    var n := c as int;
    (0x09 <= n <= 0x0D) || n == 0x20
  }

  /**
   * String.IsNullOrWhiteSpace; `None` stands for a null string. A string is blank
   * exactly when every part String.Split() cuts it into is empty.
   */
  predicate IsNullOrWhiteSpace(s: Option<string>): (r: bool)
    ensures s.Some? ==> (r <==> forall j | 0 <= j < |Split(s.value)| :: Split(s.value)[j] == "")
  {
    if s.None? then true
    else
      BlankIffEmptyParts(s.value);
      forall i | 0 <= i < |s.value| :: IsWhiteSpace(s.value[i])
  }

  /**
   * Char.ToUpperInvariant on the characters whose upper case matters here: the
   * ASCII letters and U+017F (long s, upper case 'S'). The invariant casing keeps
   * the Turkish dotless i (U+0131) as it is. Other characters are left as they are.
   */
  function UpperChar(c: char): char {
    if 'a' <= c <= 'z' then (c as int - 32) as char
    else if c as int == 0x17F then 'S'
    else c
  }

  /**
   * String.ToUpperInvariant: as long as the text, with no ASCII lower-case letter left.
   * ToUpperInvariantAt says what becomes of each character.
   */
  function ToUpperInvariant(s: string): (r: string)
    ensures |r| == |s|
    ensures forall i | 0 <= i < |r| :: !('a' <= r[i] <= 'z')
  {
    seq(|s|, i requires 0 <= i < |s| => UpperChar(s[i]))
  }

  /**
   * Character by character: an ASCII lower-case letter becomes its capital, the long s
   * becomes 'S', and every other ASCII character is kept.
   */
  lemma ToUpperInvariantAt(s: string, i: int)
    requires 0 <= i < |s|
    ensures 'a' <= s[i] <= 'z' ==> ToUpperInvariant(s)[i] as int == s[i] as int - 32
    ensures s[i] as int == 0x17F ==> ToUpperInvariant(s)[i] == 'S'
    ensures s[i] as int < 0x80 && !('a' <= s[i] <= 'z') ==> ToUpperInvariant(s)[i] == s[i]
  {
  }

  lemma UpperIdempotent(s: string)
    ensures ToUpperInvariant(ToUpperInvariant(s)) == ToUpperInvariant(s)
  {
  }

  /** String.Split() with no separator: every white-space character separates, empty parts are kept. */
  function Split(s: string): (parts: seq<string>)
    ensures |parts| >= 1
    decreases |s|
  {
    if s == [] then [""]
    else
      var rest := Split(s[1..]);
      if IsWhiteSpace(s[0]) then [""] + rest
      else [[s[0]] + rest[0]] + rest[1..]
  }

  /** The summed length of the parts. */
  function TotalLength(parts: seq<string>): nat
  {
    if |parts| == 0 then 0 else |parts[0]| + TotalLength(parts[1..])
  }

  /** String.Join(separator, parts): the parts with one separator between each two. */
  function Join(separator: string, parts: seq<string>): (r: string)
    ensures |parts| == 0 ==> r == ""
    ensures |parts| > 0 ==> |r| == TotalLength(parts) + (|parts| - 1) * |separator|
    ensures |parts| > 0 ==> parts[0] <= r
    decreases |parts|
  {
    if |parts| == 0 then ""
    else if |parts| == 1 then parts[0]
    else parts[0] + separator + Join(separator, parts[1..])
  }

  predicate NoWhiteSpace(s: string) {
    forall i | 0 <= i < |s| :: !IsWhiteSpace(s[i])
  }

  /** `s` with every white-space character replaced by a plain space. */
  function SpacesNormalized(s: string): string {
    seq(|s|, i requires 0 <= i < |s| => if IsWhiteSpace(s[i]) then ' ' else s[i])
  }

  /** No part of a split contains white space. */
  lemma {:induction false} SplitPartsHaveNoWhiteSpace(s: string)
    ensures forall j | 0 <= j < |Split(s)| :: NoWhiteSpace(Split(s)[j])
    decreases |s|
  {
    if s != [] {
      SplitPartsHaveNoWhiteSpace(s[1..]);
    }
  }

  /** Joining the parts with single spaces gives back the text, white space normalized to spaces. */
  lemma {:induction false} SplitJoinRoundTrip(s: string)
    ensures Join(" ", Split(s)) == SpacesNormalized(s)
    decreases |s|
  {
    if s != [] {
      var rest := Split(s[1..]);
      SplitJoinRoundTrip(s[1..]);
      assert SpacesNormalized(s) == [SpacesNormalized(s)[0]] + SpacesNormalized(s[1..]);
      if IsWhiteSpace(s[0]) {
        assert Split(s) == [""] + rest;
      } else {
        var parts := Split(s);
        assert parts == [[s[0]] + rest[0]] + rest[1..];
        if |rest| == 1 {
          assert Join(" ", parts) == [s[0]] + rest[0];
        } else {
          assert parts[1..] == rest[1..];
          assert Join(" ", parts) == [s[0]] + rest[0] + " " + Join(" ", rest[1..]);
        }
      }
    }
  }

  /** A text is all white space exactly when every part of its split is empty. */
  lemma {:induction false} BlankIffEmptyParts(s: string)
    ensures (forall i | 0 <= i < |s| :: IsWhiteSpace(s[i])) <==> (forall j | 0 <= j < |Split(s)| :: Split(s)[j] == "")
    decreases |s|
  {
    if s != [] {
      var rest := Split(s[1..]);
      BlankIffEmptyParts(s[1..]);
      if IsWhiteSpace(s[0]) {
        assert Split(s) == [""] + rest;
        assert (forall j | 0 <= j < |Split(s)| :: Split(s)[j] == "") <==> (forall j | 0 <= j < |rest| :: rest[j] == "") by {
          assert forall j | 0 <= j < |rest| :: Split(s)[j + 1] == rest[j];
        }
        assert (forall i | 0 <= i < |s| :: IsWhiteSpace(s[i])) <==> (forall i | 0 <= i < |s[1..]| :: IsWhiteSpace(s[1..][i]));
      } else {
        assert Split(s)[0] != "";
      }
    }
  }

  /** A text without white space is a single part. */
  lemma {:induction false} SplitWithoutWhiteSpace(s: string)
    requires NoWhiteSpace(s)
    ensures Split(s) == [s]
    decreases |s|
  {
    if s != [] {
      SplitWithoutWhiteSpace(s[1..]);
      assert [s[0]] + s[1..] == s;
    }
  }

  /** One unfolding of Split on a text with a known first character. */
  lemma SplitCons(x: char, t: string)
    ensures Split([x] + t) == ConsParts(x, IsWhiteSpace(x), Split(t))
  {
    assert ([x] + t)[0] == x;
    assert ([x] + t)[1..] == t;
  }

  /** The parts of `x` followed by a text whose parts are `parts`, given whether `x` is white space. */
  function ConsParts(x: char, white: bool, parts: seq<string>): seq<string>
    requires |parts| >= 1
  {
    if white then [""] + parts else [[x] + parts[0]] + parts[1..]
  }

  lemma ConsPartsKeepsTail(x: char, white: bool, parts: seq<string>, tail: seq<string>)
    requires |parts| >= 1
    ensures ConsParts(x, white, parts + tail) == ConsParts(x, white, parts) + tail
  {
    if !white {
      assert (parts + tail)[1..] == parts[1..] + tail;
    }
  }

  /** Putting the same character in front of two texts keeps a common tail of their parts. */
  lemma SplitConsKeepsTail(x: char, t: string, u: string, tail: seq<string>)
    requires Split(t) == Split(u) + tail
    ensures Split([x] + t) == Split([x] + u) + tail
  {
    SplitCons(x, t);
    SplitCons(x, u);
    ConsPartsKeepsTail(x, IsWhiteSpace(x), Split(u), tail);
  }

  /** A white-space character splits the text into the parts of either side. */
  lemma {:induction false} SplitAtWhiteSpace(a: string, c: char, b: string)
    requires IsWhiteSpace(c)
    ensures Split(a + [c] + b) == Split(a) + Split(b)
    decreases |a|
  {
    if a == [] {
      assert a + [c] + b == [c] + b;
      SplitCons(c, b);
    } else {
      var rest := a[1..];
      assert a + [c] + b == [a[0]] + (rest + [c] + b);
      assert a == [a[0]] + rest;
      SplitAtWhiteSpace(rest, c, b);
      SplitConsKeepsTail(a[0], rest + [c] + b, rest, Split(b));
    }
  }

  predicate IsDigit(c: char) {
    '0' <= c <= '9'
  }

  predicate AllDigits(ds: string) {
    forall i | 0 <= i < |ds| :: IsDigit(ds[i])
  }

  /** The value of a decimal digit string, most significant digit first. */
  function DigitsValue(ds: string): nat
    requires AllDigits(ds)
    decreases |ds|
  {
    if ds == [] then 0
    else DigitsValue(ds[..|ds| - 1]) * 10 + (ds[|ds| - 1] as int - '0' as int)
  }

  /** The text without its leading number white space. */
  function TrimStart(s: string): string
    decreases |s|
  {
    if s != [] && IsNumberWhite(s[0]) then TrimStart(s[1..]) else s
  }

  /** The text without its trailing number white space. */
  function TrimEnd(s: string): string
    decreases |s|
  {
    if s != [] && IsNumberWhite(s[|s| - 1]) then TrimEnd(s[..|s| - 1]) else s
  }

  /** TrimStart keeps a suffix of the text. */
  lemma {:induction false} TrimStartIsSuffix(s: string)
    ensures |TrimStart(s)| <= |s| && TrimStart(s) == s[|s| - |TrimStart(s)|..]
    decreases |s|
  {
    if s != [] && IsNumberWhite(s[0]) {
      TrimStartIsSuffix(s[1..]);
      assert s[1..][|s[1..]| - |TrimStart(s[1..])|..] == s[|s| - |TrimStart(s[1..])|..];
    }
  }

  /** TrimEnd keeps a prefix of the text. */
  lemma {:induction false} TrimEndIsPrefix(s: string)
    ensures |TrimEnd(s)| <= |s| && TrimEnd(s) == s[..|TrimEnd(s)|]
    decreases |s|
  {
    if s != [] && IsNumberWhite(s[|s| - 1]) {
      var shorter := s[..|s| - 1];
      TrimEndIsPrefix(shorter);
      assert shorter[..|TrimEnd(shorter)|] == s[..|TrimEnd(shorter)|];
    }
  }

  /**
   * int.TryParse(s, out v) with NumberStyles.Integer and the invariant culture's signs:
   * white space, an optional sign, one or more ASCII digits, white space, and a
   * value that fits in 32 bits. `None` where TryParse returns false.
   * ParseDigitsOnly, ParseNegativeDigits and Int32RoundTrip state the values it reads.
   */
  function TryParseInt32(s: string): (r: Option<int32>)
    ensures r.Some? ==> exists i | 0 <= i < |s| :: IsDigit(s[i])
  {
    TrimStartIsSuffix(s);
    TrimEndIsPrefix(TrimStart(s));
    var t := TrimEnd(TrimStart(s));
    ParseSignedHasDigit(t);
    DigitInSlice(s, t, |s| - |TrimStart(s)|);
    ParseSigned(t)
  }

  /** The trimmed text: an optional sign, one or more digits, and a value within 32 bits. */
  function ParseSigned(t: string): Option<int32> {
    var negative := |t| > 0 && t[0] == '-';
    var digits := if |t| > 0 && (t[0] == '-' || t[0] == '+') then t[1..] else t;
    if |digits| == 0 || !AllDigits(digits) then None
    else
      var v: int := if negative then 0 - DigitsValue(digits) else DigitsValue(digits);
      if MinValue <= v <= MaxValue then Some(v) else None
  }

  /** ParseSigned reads a value only from a text holding a digit. */
  lemma ParseSignedHasDigit(t: string)
    ensures ParseSigned(t).Some? ==> exists i | 0 <= i < |t| :: IsDigit(t[i])
  {
    if ParseSigned(t).Some? {
      var digits := if t[0] == '-' || t[0] == '+' then t[1..] else t;
      assert t[|t| - |digits|] == digits[0];
    }
  }

  /** A digit in a slice of s is a digit of s. */
  lemma DigitInSlice(s: string, t: string, k: int)
    requires 0 <= k && k + |t| <= |s| && t == s[k..k + |t|]
    ensures (exists i | 0 <= i < |t| :: IsDigit(t[i])) ==> exists j | 0 <= j < |s| :: IsDigit(s[j])
  {
    if exists i | 0 <= i < |t| :: IsDigit(t[i]) {
      var i :| 0 <= i < |t| && IsDigit(t[i]);
      assert s[k + i] == t[i];
    }
  }

  /** The value int.TryParse leaves in its out parameter: 0 when parsing fails. */
  function ParseOrZero(s: string): (r: int32)
    ensures TryParseInt32(s).None? ==> r == 0
    ensures r != 0 ==> TryParseInt32(s) == Some(r)
  {
    match TryParseInt32(s)
    case Some(v) => v
    case None => 0
  }

  /** The decimal digits of `n`, most significant first, without leading zeros. */
  function NatToDigits(n: nat): (r: string)
    ensures |r| >= 1 && AllDigits(r)
    ensures n > 0 ==> r[0] != '0'
    decreases n
  {
    if n < 10 then [('0' as int + n) as char]
    else NatToDigits(n / 10) + [('0' as int + n % 10) as char]
  }

  /** Int32.ToString() in the invariant culture: a minus sign exactly for a negative value, then digits. */
  function Int32ToString(n: int32): (r: string)
    ensures |r| >= 1 && (r[0] == '-' <==> n < 0)
    ensures AllDigits(if n < 0 then r[1..] else r)
  {
    NatToDigitsRoundTrip(if n < 0 then 0 - n as int else n as int);
    if n < 0 then "-" + NatToDigits(0 - n as int) else NatToDigits(n)
  }

  lemma {:induction false} NatToDigitsRoundTrip(n: nat)
    ensures AllDigits(NatToDigits(n)) && |NatToDigits(n)| > 0
    ensures DigitsValue(NatToDigits(n)) == n
    decreases n
  {
    var ds := NatToDigits(n);
    if n >= 10 {
      NatToDigitsRoundTrip(n / 10);
      assert ds[..|ds| - 1] == NatToDigits(n / 10);
    }
  }

  /** What Int32ToString prints, int.TryParse reads back. */
  lemma Int32RoundTrip(n: int32)
    ensures TryParseInt32(Int32ToString(n)) == Some(n)
  {
    if n < 0 {
      var ds := NatToDigits(0 - n as int);
      NatToDigitsRoundTrip(0 - n as int);
      assert Int32ToString(n) == "-" + ds;
      ParseNegativeDigits(ds);
    } else {
      var ds := NatToDigits(n as int);
      NatToDigitsRoundTrip(n as int);
      assert Int32ToString(n) == ds;
      ParseDigitsOnly(ds);
    }
  }

  /** A minus sign followed by a run of digits, read by int.TryParse. */
  lemma ParseNegativeDigits(ds: string)
    requires |ds| > 0 && AllDigits(ds) && DigitsValue(ds) <= 0 - MinValue
    ensures TryParseInt32("-" + ds) == Some(0 - DigitsValue(ds))
  {
    var s := "-" + ds;
    assert s[|s| - 1] == ds[|ds| - 1] && IsDigit(ds[|ds| - 1]);
    NothingToTrim(s);
    assert s[1..] == ds;
    assert ParseSigned(s) == Some(0 - DigitsValue(ds));
  }

  /** A text with no number white space at either end is its own trim. */
  lemma NothingToTrim(s: string)
    requires |s| > 0 && !IsNumberWhite(s[0]) && !IsNumberWhite(s[|s| - 1])
    ensures TrimEnd(TrimStart(s)) == s
  {
    assert TrimStart(s) == s;
    assert TrimEnd(s) == s;
  }

  /** A string that is a run of digits, read by int.TryParse. */
  lemma ParseDigitsOnly(s: string)
    requires |s| > 0 && AllDigits(s) && DigitsValue(s) <= MaxValue
    ensures TryParseInt32(s) == Some(DigitsValue(s))
  {
    assert IsDigit(s[0]) && IsDigit(s[|s| - 1]);
    NothingToTrim(s);
    assert ParseSigned(s) == Some(DigitsValue(s));
  }
}

=== FILE: enumerable_extensions.dfy ===
/**
 * Selection and comparison helpers over sequences. A null sequence is None where
 * the helper checks for null; the selector's comparable values are integers.
 */
module EnumerableExtensions {
  import opened Wrappers

  /** An element together with the position it was found at. */
  datatype ItemWithIndex<T> = ItemWithIndex(index: int, item: T)

  /** A sequence is empty when it has no element at all. */
  function IsEmpty<T>(items: seq<T>): (r: bool)
    ensures r <==> forall x :: x !in items
  {
    if |items| == 0 then true
    else
      assert items[0] in items;
      false
  }

  /** Null or without elements. */
  function IsNullOrEmpty<T>(items: Option<seq<T>>): (r: bool)
    ensures r <==> items.None? || forall x :: x !in items.value
  {
    items.None? || IsEmpty(items.value)
  }

  /** Whether a selector value replaces the one kept so far: strictly smaller, or strictly larger. */
  predicate Beats(candidate: int, current: int, isMin: bool)
  {
    if isMin then candidate < current else candidate > current
  }

  /**
   * Position i holds a minimum (or maximum) of the selector values, and it is the
   * first such position: everything before it is strictly worse.
   */
  predicate IsExtremeAt<T>(items: seq<T>, selector: T -> int, isMin: bool, i: int)
  {
    && 0 <= i < |items|
    && (forall j | 0 <= j < |items| :: !Beats(selector(items[j]), selector(items[i]), isMin))
    && (forall j | 0 <= j < i :: Beats(selector(items[i]), selector(items[j]), isMin))
  }

  /** Only one position can be the first extreme one, so the helpers below are deterministic. */
  lemma ExtremeIsUnique<T>(items: seq<T>, selector: T -> int, isMin: bool, i: int, k: int)
    requires IsExtremeAt(items, selector, isMin, i) && 0 <= k < |items|
    ensures IsExtremeAt(items, selector, isMin, k) <==> k == i
  {
    if k < i {
      assert Beats(selector(items[i]), selector(items[k]), isMin);
    } else if k > i {
      assert !Beats(selector(items[k]), selector(items[i]), isMin);
    }
  }

  /** One pass keeping the first element whose selector value is the smallest (or largest) so far. */
  method MinOrMaxItemWithIndex<T>(items: seq<T>, selector: T -> int, isMin: bool)
    returns (r: Option<ItemWithIndex<T>>)
    ensures r.None? <==> |items| == 0
    ensures r.Some? ==> IsExtremeAt(items, selector, isMin, r.value.index)
    ensures r.Some? ==> r.value.item == items[r.value.index]
  {
    if |items| == 0 {
      return None;
    }
    var minMaxIndex := 0;
    var minMaxItem := items[0];
    var minMaxValue := selector(items[0]);
    var i := 1;
    while i < |items|
      invariant 1 <= i <= |items|
      invariant 0 <= minMaxIndex < i
      invariant minMaxItem == items[minMaxIndex] && minMaxValue == selector(minMaxItem)
      invariant forall j | 0 <= j < i :: !Beats(selector(items[j]), minMaxValue, isMin)
      invariant forall j | 0 <= j < minMaxIndex :: Beats(minMaxValue, selector(items[j]), isMin)
    {
      var currentValue := selector(items[i]);
      if (isMin && currentValue < minMaxValue) || (!isMin && currentValue > minMaxValue) {
        minMaxIndex := i;
        minMaxItem := items[i];
        minMaxValue := currentValue;
      }
      i := i + 1;
    }
    r := Some(ItemWithIndex(minMaxIndex, minMaxItem));
  }

  /** The extreme element, or the caller's default value for an empty sequence. */
  method MinOrMaxItem<T>(items: seq<T>, selector: T -> int, isMin: bool, dflt: T) returns (r: T)
    ensures |items| == 0 ==> r == dflt
    ensures |items| > 0 ==> r in items
    ensures forall j | 0 <= j < |items| :: !Beats(selector(items[j]), selector(r), isMin)
    ensures |items| > 0 ==> exists i :: IsExtremeAt(items, selector, isMin, i) && r == items[i]
  {
    var found := MinOrMaxItemWithIndex(items, selector, isMin);
    r := if found.None? then dflt else found.value.item;
  }

  /** The position of the extreme element, or -1 for an empty sequence. */
  method MinOrMaxItemIndex<T>(items: seq<T>, selector: T -> int, isMin: bool) returns (r: int)
    ensures |items| == 0 ==> r == -1
    ensures |items| > 0 ==> IsExtremeAt(items, selector, isMin, r)
  {
    var found := MinOrMaxItemWithIndex(items, selector, isMin);
    r := if found.None? then -1 else found.value.index;
  }

  method MinItem<T>(items: seq<T>, selector: T -> int, dflt: T) returns (r: T)
    ensures |items| == 0 ==> r == dflt
    ensures |items| > 0 ==> r in items
    ensures forall j | 0 <= j < |items| :: selector(r) <= selector(items[j])
    ensures |items| > 0 ==> exists i :: IsExtremeAt(items, selector, true, i) && r == items[i]
  {
    r := MinOrMaxItem(items, selector, true, dflt);
  }

  method MaxItem<T>(items: seq<T>, selector: T -> int, dflt: T) returns (r: T)
    ensures |items| == 0 ==> r == dflt
    ensures |items| > 0 ==> r in items
    ensures forall j | 0 <= j < |items| :: selector(r) >= selector(items[j])
    ensures |items| > 0 ==> exists i :: IsExtremeAt(items, selector, false, i) && r == items[i]
  {
    r := MinOrMaxItem(items, selector, false, dflt);
  }

  method MinItemIndex<T>(items: seq<T>, selector: T -> int) returns (r: int)
    ensures |items| == 0 ==> r == -1
    ensures |items| > 0 ==> 0 <= r < |items|
    ensures |items| > 0 ==> forall j | 0 <= j < |items| :: selector(items[r]) <= selector(items[j])
    ensures |items| > 0 ==> forall j | 0 <= j < r :: selector(items[j]) > selector(items[r])
  {
    r := MinOrMaxItemIndex(items, selector, true);
  }

  method MaxItemIndex<T>(items: seq<T>, selector: T -> int) returns (r: int)
    ensures |items| == 0 ==> r == -1
    ensures |items| > 0 ==> 0 <= r < |items|
    ensures |items| > 0 ==> forall j | 0 <= j < |items| :: selector(items[r]) >= selector(items[j])
    ensures |items| > 0 ==> forall j | 0 <= j < r :: selector(items[j]) < selector(items[r])
  {
    r := MinOrMaxItemIndex(items, selector, false);
  }

  method MinItemWithIndex<T>(items: seq<T>, selector: T -> int) returns (r: Option<ItemWithIndex<T>>)
    ensures r.None? <==> |items| == 0
    ensures r.Some? ==> IsExtremeAt(items, selector, true, r.value.index)
    ensures r.Some? ==> r.value.item == items[r.value.index]
  {
    r := MinOrMaxItemWithIndex(items, selector, true);
  }

  method MaxItemWithIndex<T>(items: seq<T>, selector: T -> int) returns (r: Option<ItemWithIndex<T>>)
    ensures r.None? <==> |items| == 0
    ensures r.Some? ==> IsExtremeAt(items, selector, false, r.value.index)
    ensures r.Some? ==> r.value.item == items[r.value.index]
  {
    r := MinOrMaxItemWithIndex(items, selector, false);
  }

  /** The first element satisfying the predicate, with its position, or None when none does. */
  method FindItemWithIndex<T>(items: seq<T>, matches: T -> bool) returns (r: Option<ItemWithIndex<T>>)
    ensures r.None? <==> forall j | 0 <= j < |items| :: !matches(items[j])
    ensures r.Some? ==> 0 <= r.value.index < |items| && r.value.item == items[r.value.index]
    ensures r.Some? ==> matches(r.value.item)
    ensures r.Some? ==> forall j | 0 <= j < r.value.index :: !matches(items[j])
  {
    var i := 0;
    while i < |items|
      invariant 0 <= i <= |items|
      invariant forall j | 0 <= j < i :: !matches(items[j])
    {
      if matches(items[i]) {
        return Some(ItemWithIndex(i, items[i]));
      }
      i := i + 1;
    }
    return None;
  }

  // ---- Stable ordering by a selector, and the median item ----

  /** Inserts x before the first element whose selector value is not smaller than x's. */
  function Insert<T>(x: T, sorted: seq<T>, selector: T -> int): (r: seq<T>)
    ensures |r| == |sorted| + 1
  {
    if |sorted| == 0 then [x]
    else if selector(x) <= selector(sorted[0]) then [x] + sorted
    else [sorted[0]] + Insert(x, sorted[1..], selector)
  }

  /**
   * The stable sort by selector: an element is inserted ahead of every later element
   * with an equal selector value, so equal elements keep their input order.
   */
  function OrderBy<T>(items: seq<T>, selector: T -> int): (r: seq<T>)
    ensures |r| == |items|
  {
    if |items| == 0 then [] else Insert(items[0], OrderBy(items[1..], selector), selector)
  }

  predicate SortedBy<T>(s: seq<T>, selector: T -> int)
  {
    forall i, j | 0 <= i < j < |s| :: selector(s[i]) <= selector(s[j])
  }

  /** Insert adds exactly x to the elements. */
  lemma {:induction false} InsertAddsElement<T>(x: T, sorted: seq<T>, selector: T -> int)
    ensures multiset(Insert(x, sorted, selector)) == multiset(sorted) + multiset{x}
    decreases |sorted|
  {
    if |sorted| > 0 && selector(x) > selector(sorted[0]) {
      InsertAddsElement(x, sorted[1..], selector);
      assert sorted == [sorted[0]] + sorted[1..];
    }
  }

  /** Inserting into a sorted sequence keeps it sorted. */
  lemma {:induction false} InsertKeepsSorted<T>(x: T, sorted: seq<T>, selector: T -> int)
    requires SortedBy(sorted, selector)
    ensures SortedBy(Insert(x, sorted, selector), selector)
    decreases |sorted|
  {
    if |sorted| > 0 && selector(x) > selector(sorted[0]) {
      var rest := sorted[1..];
      InsertKeepsSorted(x, rest, selector);
      InsertAddsElement(x, rest, selector);
      var inserted := Insert(x, rest, selector);
      forall k | 0 <= k < |inserted|
        ensures selector(sorted[0]) <= selector(inserted[k])
      {
        assert inserted[k] in multiset(rest) + multiset{x};
      }
    }
  }

  /** OrderBy returns its input rearranged into selector order. */
  lemma OrderBySortsAndPermutes<T>(items: seq<T>, selector: T -> int)
    ensures SortedBy(OrderBy(items, selector), selector)
    ensures multiset(OrderBy(items, selector)) == multiset(items)
  {
    OrderBySorts(items, selector);
    OrderByPermutes(items, selector);
  }

  lemma {:induction false} OrderBySorts<T>(items: seq<T>, selector: T -> int)
    ensures SortedBy(OrderBy(items, selector), selector)
  {
    if |items| > 0 {
      OrderBySorts(items[1..], selector);
      InsertKeepsSorted(items[0], OrderBy(items[1..], selector), selector);
    }
  }

  lemma {:induction false} OrderByPermutes<T>(items: seq<T>, selector: T -> int)
    ensures multiset(OrderBy(items, selector)) == multiset(items)
  {
    if |items| > 0 {
      OrderByPermutes(items[1..], selector);
      InsertAddsElement(items[0], OrderBy(items[1..], selector), selector);
      assert items == [items[0]] + items[1..];
    }
  }

  /** The elements whose selector value is v, in the order they come in. */
  function WithKey<T>(s: seq<T>, selector: T -> int, v: int): (r: seq<T>)
    ensures |r| <= |s|
  {
    if |s| == 0 then [] else (if selector(s[0]) == v then [s[0]] else []) + WithKey(s[1..], selector, v)
  }

  /** WithKey of a sequence starting with y: y when it has the value, then the rest's. */
  lemma WithKeyCons<T>(y: T, t: seq<T>, selector: T -> int, v: int)
    ensures WithKey([y] + t, selector, v) == (if selector(y) == v then [y] else []) + WithKey(t, selector, v)
  {
    assert ([y] + t)[1..] == t;
  }

  /** Insert puts x ahead of every element with the same selector value. */
  lemma {:induction false} InsertFirstAmongEquals<T>(x: T, s: seq<T>, selector: T -> int, v: int)
    ensures WithKey(Insert(x, s, selector), selector, v) == WithKey([x] + s, selector, v)
    decreases |s|
  {
    if |s| > 0 && selector(x) > selector(s[0]) {
      var kx := if selector(x) == v then [x] else [];
      var k0 := if selector(s[0]) == v then [s[0]] else [];
      var rest := s[1..];
      InsertFirstAmongEquals(x, rest, selector, v);
      var w := WithKey(rest, selector, v);
      assert Insert(x, s, selector) == [s[0]] + Insert(x, rest, selector);
      WithKeyCons(s[0], Insert(x, rest, selector), selector, v);
      WithKeyCons(x, rest, selector, v);
      assert WithKey(Insert(x, s, selector), selector, v) == k0 + (kx + w);
      assert s == [s[0]] + rest;
      WithKeyCons(x, s, selector, v);
      WithKeyCons(s[0], rest, selector, v);
      assert WithKey([x] + s, selector, v) == kx + (k0 + w);
      if kx == [] {
        assert kx + (k0 + w) == k0 + w == k0 + (kx + w);
      } else {
        assert k0 == [];
        assert kx + (k0 + w) == kx + w == k0 + (kx + w);
      }
    }
  }

  /** OrderBy is stable: the elements sharing a selector value keep their input order. */
  lemma {:induction false} OrderByIsStable<T>(items: seq<T>, selector: T -> int, v: int)
    ensures WithKey(OrderBy(items, selector), selector, v) == WithKey(items, selector, v)
  {
    if |items| > 0 {
      OrderByIsStable(items[1..], selector, v);
      InsertFirstAmongEquals(items[0], OrderBy(items[1..], selector), selector, v);
      assert ([items[0]] + OrderBy(items[1..], selector))[1..] == OrderBy(items[1..], selector);
    }
  }

  /**
   * The element at position count/2 of the stably sorted sequence, or the default when empty.
   * MedianItemSplits states how many elements lie below and above it.
   */
  function MedianItem<T>(items: seq<T>, selector: T -> int, dflt: T): (r: T)
    ensures |items| == 0 ==> r == dflt
    ensures |items| > 0 ==> r in items
  {
    var orderedItems := OrderBy(items, selector);
    if |orderedItems| == 0 then dflt
    else
      OrderBySortsAndPermutes(items, selector);
      assert orderedItems[|orderedItems| / 2] in multiset(orderedItems);
      orderedItems[|orderedItems| / 2]
  }

  /** The number of elements whose selector value is below v. */
  function CountBelow<T>(s: seq<T>, selector: T -> int, v: int): (n: nat)
    ensures n <= |s|
  {
    if |s| == 0 then 0 else (if selector(s[0]) < v then 1 else 0) + CountBelow(s[1..], selector, v)
  }

  /** The number of elements whose selector value is above v. */
  function CountAbove<T>(s: seq<T>, selector: T -> int, v: int): (n: nat)
    ensures n <= |s|
  {
    if |s| == 0 then 0 else (if selector(s[0]) > v then 1 else 0) + CountAbove(s[1..], selector, v)
  }

  lemma {:induction false} InsertCounts<T>(x: T, s: seq<T>, selector: T -> int, v: int)
    ensures CountBelow(Insert(x, s, selector), selector, v) == CountBelow([x] + s, selector, v)
    ensures CountAbove(Insert(x, s, selector), selector, v) == CountAbove([x] + s, selector, v)
    decreases |s|
  {
    if |s| > 0 && selector(x) > selector(s[0]) {
      InsertCounts(x, s[1..], selector, v);
      assert ([x] + s)[1..] == s;
      assert ([x] + s[1..])[1..] == s[1..];
      assert ([s[0]] + Insert(x, s[1..], selector))[1..] == Insert(x, s[1..], selector);
    } else if |s| > 0 {
      assert ([x] + s)[1..] == s;
    }
  }

  lemma {:induction false} OrderByCounts<T>(items: seq<T>, selector: T -> int, v: int)
    ensures CountBelow(OrderBy(items, selector), selector, v) == CountBelow(items, selector, v)
    ensures CountAbove(OrderBy(items, selector), selector, v) == CountAbove(items, selector, v)
  {
    if |items| > 0 {
      OrderByCounts(items[1..], selector, v);
      InsertCounts(items[0], OrderBy(items[1..], selector), selector, v);
      assert ([items[0]] + OrderBy(items[1..], selector))[1..] == OrderBy(items[1..], selector);
    }
  }

  /** When everything from position m on is at least v, at most m elements are below v. */
  lemma {:induction false} CountBelowBound<T>(s: seq<T>, selector: T -> int, v: int, m: nat)
    requires m <= |s|
    requires forall k | m <= k < |s| :: selector(s[k]) >= v
    ensures CountBelow(s, selector, v) <= m
  {
    if |s| > 0 {
      if m == 0 {
        CountBelowBound(s[1..], selector, v, 0);
      } else {
        CountBelowBound(s[1..], selector, v, m - 1);
      }
    }
  }

  /** When everything up to position m is at most v, at most |s| - 1 - m elements are above v. */
  lemma {:induction false} CountAboveBound<T>(s: seq<T>, selector: T -> int, v: int, m: nat)
    requires m < |s|
    requires forall k | 0 <= k <= m :: selector(s[k]) <= v
    ensures CountAbove(s, selector, v) <= |s| - 1 - m
  {
    if m > 0 {
      CountAboveBound(s[1..], selector, v, m - 1);
    }
  }

  /**
   * The median item splits the sequence: at most count/2 elements have a smaller
   * selector value and at most count - 1 - count/2 have a larger one.
   */
  lemma MedianItemSplits<T>(items: seq<T>, selector: T -> int, dflt: T)
    requires |items| > 0
    ensures CountBelow(items, selector, selector(MedianItem(items, selector, dflt))) <= |items| / 2
    ensures CountAbove(items, selector, selector(MedianItem(items, selector, dflt))) <= |items| - 1 - |items| / 2
  {
    var s := OrderBy(items, selector);
    OrderBySortsAndPermutes(items, selector);
    assert |s| == |items| by {
      assert |multiset(s)| == |multiset(items)|;
    }
    var m := |items| / 2;
    assert MedianItem(items, selector, dflt) == s[m];
    var v := selector(s[m]);
    SortedSplitsAt(s, selector, m);
    OrderByCounts(items, selector, v);
  }

  /** In a sorted sequence the element at m has at most m smaller and |s| - 1 - m larger elements. */
  lemma SortedSplitsAt<T>(s: seq<T>, selector: T -> int, m: nat)
    requires SortedBy(s, selector) && m < |s|
    ensures CountBelow(s, selector, selector(s[m])) <= m
    ensures CountAbove(s, selector, selector(s[m])) <= |s| - 1 - m
  {
    CountBelowBound(s, selector, selector(s[m]), m);
    CountAboveBound(s, selector, selector(s[m]), m);
  }

  // ---- Equality of sequences ----

  /** Both null, or both present with the same elements in the same order. */
  function IsOrderedEqual<T(==)>(items1: Option<seq<T>>, items2: Option<seq<T>>): (r: bool)
    ensures r <==> items1 == items2
  {
    if items1.None? && items2.None? then true
    else if items1.None? || items2.None? then false
    else
      var a, b := items1.value, items2.value;
      var same := |a| == |b| && forall i | 0 <= i < |a| :: a[i] == b[i];
      assert same ==> a == b;
      same
  }

  /** Both null, or both present and each containing every element of the other. */
  function IsUnorderedEqual<T(==)>(items1: Option<seq<T>>, items2: Option<seq<T>>): (r: bool)
    ensures r <==> (items1.None? && items2.None?)
                   || (items1.Some? && items2.Some? && (set x | x in items1.value) == (set x | x in items2.value))
  {
    if items1.None? && items2.None? then true
    else if items1.None? || items2.None? then false
    else
      var a, b := items1.value, items2.value;
      var inA, inB := (set x | x in a), (set x | x in b);
      var same := (forall x | x in a :: x in b) && (forall x | x in b :: x in a);
      assert same <==> inA == inB by {
        if inA == inB {
          forall x | x in a ensures x in b {
            assert x in inA;
          }
          forall x | x in b ensures x in a {
            assert x in inB;
          }
        }
      }
      same
  }

  lemma UnorderedEqualIsSymmetric<T>(items1: Option<seq<T>>, items2: Option<seq<T>>)
    ensures IsUnorderedEqual(items1, items2) == IsUnorderedEqual(items2, items1)
  {
  }

  lemma OrderedEqualImpliesUnorderedEqual<T>(items1: Option<seq<T>>, items2: Option<seq<T>>)
    ensures IsOrderedEqual(items1, items2) ==> IsUnorderedEqual(items1, items2)
  {
  }

  /** Multiplicity is ignored: [1, 1, 2] and [1, 2, 2] are equal unordered but not ordered. */
  lemma UnorderedEqualIgnoresMultiplicity()
    ensures IsUnorderedEqual(Some([1, 1, 2]), Some([1, 2, 2]))
    ensures !IsOrderedEqual(Some([1, 1, 2]), Some([1, 2, 2]))
    ensures multiset([1, 1, 2]) != multiset([1, 2, 2])
  {
    var a, b := [1, 1, 2], [1, 2, 2];
    assert (set x | x in a) == {1, 2};
    assert (set x | x in b) == {1, 2};
    assert a[1] != b[1];
    assert multiset(a)[1] == 2;
  }
}

=== FILE: http_status.dfy ===
/** The status-code helper of the web layer. */
module HttpStatusCodes {

  /** A status code is a success when it lies in the 2xx range, both ends included: exactly the 2xx class. */
  predicate IsSuccess(statusCode: int): (r: bool)
    ensures r <==> statusCode / 100 == 2
  {
    HundredsOfTwoHundreds(statusCode);
    statusCode >= 200 && statusCode <= 299
  }

  /** The integers from 200 to 299 are those whose quotient by 100 is 2. */
  lemma HundredsOfTwoHundreds(n: int)
    ensures 200 <= n <= 299 <==> n / 100 == 2
  {
    if 200 <= n <= 299 {
      assert 200 <= n < 300;
    } else if n < 200 {
      assert n / 100 <= 1;
    } else {
      assert n / 100 >= 3;
    }
  }

  /** Both bounds are inclusive, and their neighbours outside are rejected. */
  lemma SuccessBoundaries(lowest: int, highest: int)
    requires lowest == 200 && highest == 299
    ensures IsSuccess(lowest) && IsSuccess(highest)
    ensures !IsSuccess(lowest - 1) && !IsSuccess(highest + 1)
  {
  }
}

=== FILE: int32.dfy ===
/** C#'s `int`: 32-bit two's complement, with unchecked (wrapping) arithmetic. */
module Int32 {

  const MinValue: int := -0x8000_0000
  const MaxValue: int := 0x7fff_ffff
  const Modulus: int := 0x1_0000_0000

  type int32 = x: int | -0x8000_0000 <= x <= 0x7fff_ffff

  /** The value an unchecked C# `int` operation yields for the mathematical result `x`. */
  function Wrap(x: int): (r: int32)
    ensures MinValue <= x <= MaxValue ==> r == x
    ensures x == MaxValue + 1 ==> r == MinValue
    ensures x == MinValue - 1 ==> r == MaxValue
  {
    (x - MinValue) % Modulus + MinValue
  }

  /** Wrapping an intermediate result changes nothing: `int` addition is arithmetic modulo 2^32. */
  lemma WrapAddCongruent(x: int, y: int)
    ensures Wrap(Wrap(x) + y) == Wrap(x + y)
  {
    var a := x - MinValue;
    var q := a / Modulus;
    assert Wrap(x) - MinValue == a - q * Modulus;
    ModShift(a + y, q);
  }

  lemma ModShift(a: int, q: int)
    ensures (a - q * Modulus) % Modulus == a % Modulus
  {
    var r := a % Modulus;
    assert a == (a / Modulus) * Modulus + r;
    assert a - q * Modulus == (a / Modulus - q) * Modulus + r;
  }
}

=== FILE: location.dfy ===
/** A rover's position and heading on the planet grid, the bounds check and one step forward. */
module Locations {
  import opened Wrappers
  import opened Int32
  import opened Directions
  import opened Rotations

  /** The Location record: grid coordinates and the direction the rover faces. */
  datatype Location = Location(x: int32, y: int32, direction: Direction)

  /** The OutOfPlanetException, carrying the coordinates its message reports. */
  datatype OutOfPlanet = OutOfPlanet(x: int32, y: int32)

  /**
   * LocationExtensions.Validate against a planet with the given boundaries:
   * fails when a coordinate lies beyond its boundary or below zero.
   */
  function Validate(location: Location, horizontalBoundary: int32, verticalBoundary: int32): (r: Outcome<OutOfPlanet>)
    ensures r.Pass? <==> 0 <= location.x <= horizontalBoundary && 0 <= location.y <= verticalBoundary
    ensures r.Fail? ==> r.error == OutOfPlanet(location.x, location.y)
  {
    if location.x > horizontalBoundary || location.y > verticalBoundary || location.x < 0 || location.y < 0 then
      Fail(OutOfPlanet(location.x, location.y))
    else
      Pass
  }

  /** Both corners of the rectangle are on the planet; one past either end is not. */
  lemma ValidateBoundsInclusive(horizontalBoundary: int32, verticalBoundary: int32, d: Direction)
    requires 0 <= horizontalBoundary < MaxValue && 0 <= verticalBoundary < MaxValue
    ensures Validate(Location(0, 0, d), horizontalBoundary, verticalBoundary) == Pass
    ensures Validate(Location(horizontalBoundary, verticalBoundary, d), horizontalBoundary, verticalBoundary) == Pass
    ensures Validate(Location(-1, 0, d), horizontalBoundary, verticalBoundary).Fail?
    ensures Validate(Location(0, -1, d), horizontalBoundary, verticalBoundary).Fail?
    ensures Validate(Location(horizontalBoundary + 1, 0, d), horizontalBoundary, verticalBoundary).Fail?
    ensures Validate(Location(0, verticalBoundary + 1, d), horizontalBoundary, verticalBoundary).Fail?
  {
  }

  /** A planet with a negative boundary has no valid location at all. */
  lemma NegativeBoundaryRejectsAll(location: Location, horizontalBoundary: int32, verticalBoundary: int32)
    requires horizontalBoundary < 0 || verticalBoundary < 0
    ensures Validate(location, horizontalBoundary, verticalBoundary).Fail?
  {
  }

  /**
   * LocationExtensions.CreateNewLocationUsingDirection: one grid step the way the
   * location faces, with C#'s wrapping `int` arithmetic; a diagonal heading
   * returns the location itself.
   */
  function CreateNewLocationUsingDirection(current: Location): (r: Location)
    ensures r.direction == current.direction
    ensures r == current <==> !current.direction.IsCardinal()
    ensures current.direction.IsCardinal() && MinValue < current.x < MaxValue && MinValue < current.y < MaxValue ==>
              (if r.x == current.x then r.y - current.y else r.x - current.x) in {-1, 1}
  {
    match current.direction
    case North => Location(current.x, Wrap(current.y + 1), current.direction)
    case East => Location(Wrap(current.x + 1), current.y, current.direction)
    case South => Location(current.x, Wrap(current.y - 1), current.direction)
    case West => Location(Wrap(current.x - 1), current.y, current.direction)
    case _ => current
  }

  /** The unit vector of a cardinal heading, (0, 0) for a diagonal one. */
  function Delta(d: Direction): (int, int) {
    match d
    case North => (0, 1)
    case East => (1, 0)
    case South => (0, -1)
    case West => (-1, 0)
    case _ => (0, 0)
  }

  /** Away from the int range's ends, a step adds the heading's unit vector. */
  lemma StepAddsDelta(current: Location)
    requires MinValue < current.x < MaxValue && MinValue < current.y < MaxValue
    ensures CreateNewLocationUsingDirection(current).x == current.x + Delta(current.direction).0
    ensures CreateNewLocationUsingDirection(current).y == current.y + Delta(current.direction).1
  {
  }

  /** Turning around (two R rotations) and stepping again returns to the starting square. */
  lemma StepThereAndBack(current: Location)
    requires MinValue < current.x < MaxValue && MinValue < current.y < MaxValue
    ensures var there := CreateNewLocationUsingDirection(current);
            var around := CreateDirectionFromRotation(R, CreateDirectionFromRotation(R, current.direction));
            var back := CreateNewLocationUsingDirection(there.(direction := around));
            back.x == current.x && back.y == current.y
  {
    RightTurn(current.direction);
    RightTurn(QuarterClockwise(current.direction));
    match current.direction
    case North =>
    case NorthEast =>
    case East =>
    case SouthEast =>
    case South =>
    case SouthWest =>
    case West =>
    case NorthWest =>
  }

  /** A step off the top of the int range wraps to int.MinValue, which no planet contains. */
  lemma StepWrapLeavesEveryPlanet(x: int32, horizontalBoundary: int32, verticalBoundary: int32)
    ensures CreateNewLocationUsingDirection(Location(x, MaxValue, North)).y == MinValue
    ensures Validate(CreateNewLocationUsingDirection(Location(x, MaxValue, North)), horizontalBoundary, verticalBoundary).Fail?
  {
  }
}

=== FILE: location_operation.dfy ===
/** LocationOperation: reading a rover's starting location from a line such as "1 2 N". */
module LocationOperations {
  import opened Wrappers
  import opened Int32
  import opened DotNetText
  import opened Directions
  import opened Locations

  /** The exceptions the parser throws: a bad coordinate, a missing second token, an unknown direction. */
  datatype LocationError = NotAnInteger | IndexOutOfRange | DirectionOutOfRange

  /**
   * CreateLocationFromLocationText: the first two white-space separated tokens are the
   * coordinates, the last token is the direction. The first coordinate is parsed before
   * the second token is looked up, and the direction is read last.
   */
  function CreateLocationFromLocationText(locationText: string): (r: Result<Location, LocationError>)
    ensures var parts := Split(locationText);
            r.Success? <==>
              |parts| >= 2 && TryParseInt32(parts[0]).Some? && TryParseInt32(parts[1]).Some? &&
              FromInput(parts[|parts| - 1]).Success?
    ensures var parts := Split(locationText);
            r.Success? ==>
              TryParseInt32(parts[0]) == Some(r.value.x) && TryParseInt32(parts[1]) == Some(r.value.y) &&
              FromInput(parts[|parts| - 1]) == Success(r.value.direction)
  {
    var parts := Split(locationText);
    var first := TryParseInt32(parts[0]);
    if first.None? then Failure(NotAnInteger)
    else if |parts| < 2 then Failure(IndexOutOfRange)
    else
      var second := TryParseInt32(parts[1]);
      var direction := FromInput(parts[|parts| - 1]);
      if second.None? then Failure(NotAnInteger)
      else if direction.Failure? then Failure(DirectionOutOfRange)
      else Success(Location(first.value, second.value, direction.value))
  }

  /** The second token is missing exactly when the whole text is one integer token. */
  lemma IndexOutOfRangeExactly(locationText: string)
    ensures CreateLocationFromLocationText(locationText) == Failure(IndexOutOfRange) <==>
            |Split(locationText)| == 1 && TryParseInt32(locationText).Some?
  {
    if |Split(locationText)| == 1 {
      SplitSinglePart(locationText);
    }
  }

  /** A text that splits into one part is that part. */
  lemma SplitSinglePart(s: string)
    requires |Split(s)| == 1
    ensures Split(s)[0] == s
  {
    SplitJoinRoundTrip(s);
    SplitPartsHaveNoWhiteSpace(s);
    assert Join(" ", Split(s)) == Split(s)[0];
    assert forall i | 0 <= i < |s| :: SpacesNormalized(s)[i] == Split(s)[0][i];
  }

  lemma IntegerTextHasNoWhiteSpace(n: int32)
    ensures NoWhiteSpace(Int32ToString(n))
  {
    var mag: nat := if n < 0 then 0 - n as int else n;
    NatToDigitsRoundTrip(mag);
  }

  lemma AbbreviationHasNoWhiteSpace(d: Direction)
    ensures NoWhiteSpace(Abbreviation(d))
  {
  }

  /** The parts of three white-space free words joined by single spaces. */
  lemma SplitThreeWords(a: string, b: string, c: string)
    requires NoWhiteSpace(a) && NoWhiteSpace(b) && NoWhiteSpace(c)
    ensures Split(a + " " + b + " " + c) == [a, b, c]
  {
    SplitWithoutWhiteSpace(a);
    SplitWithoutWhiteSpace(b);
    SplitWithoutWhiteSpace(c);
    SplitAtWhiteSpace(b, ' ', c);
    assert a + " " + b + " " + c == a + [' '] + (b + [' '] + c);
    SplitAtWhiteSpace(a, ' ', b + [' '] + c);
  }

  /** A location written as "x y D" reads back as that location. */
  lemma LocationTextRoundTrip(location: Location)
    ensures CreateLocationFromLocationText(
              Int32ToString(location.x) + " " + Int32ToString(location.y) + " " + Abbreviation(location.direction))
            == Success(location)
  {
    IntegerTextHasNoWhiteSpace(location.x);
    IntegerTextHasNoWhiteSpace(location.y);
    AbbreviationHasNoWhiteSpace(location.direction);
    SplitThreeWords(Int32ToString(location.x), Int32ToString(location.y), Abbreviation(location.direction));
    Int32RoundTrip(location.x);
    Int32RoundTrip(location.y);
    FromInputAbbreviation(location.direction);
  }

  /** Words between the coordinates and the direction are ignored. */
  lemma MiddleWordIgnored(x: string, y: string, middle: string, d: string)
    requires NoWhiteSpace(x) && NoWhiteSpace(y) && NoWhiteSpace(middle) && NoWhiteSpace(d)
    ensures CreateLocationFromLocationText(x + " " + y + " " + middle + " " + d) ==
            CreateLocationFromLocationText(x + " " + y + " " + d)
  {
    SplitThreeWords(x, y, d);
    SplitThreeWords(x, y, middle);
    SplitWithoutWhiteSpace(d);
    SplitAtWhiteSpace(x + " " + y + " " + middle, ' ', d);
    assert x + " " + y + " " + middle + " " + d == (x + " " + y + " " + middle) + [' '] + d;
  }

  /** Negative coordinates parse; only Validate rejects them. */
  lemma NegativeCoordinatesParse(y: int32, d: Direction)
    ensures CreateLocationFromLocationText("-1 " + Int32ToString(y) + " " + Abbreviation(d)) == Success(Location(-1, y, d))
    ensures forall h: int32, v: int32 :: Validate(Location(-1, y, d), h, v).Fail?
  {
    assert NatToDigits(1) == "1";
    assert Int32ToString(-1) == "-1";
    assert "-1 " + Int32ToString(y) + " " + Abbreviation(d) == Int32ToString(-1) + " " + Int32ToString(y) + " " + Abbreviation(d);
    LocationTextRoundTrip(Location(-1, y, d));
  }

  /** A single integer has no second token. */
  lemma LoneIntegerText()
    ensures CreateLocationFromLocationText("7") == Failure(IndexOutOfRange)
  {
    SplitWithoutWhiteSpace("7");
    ParseDigitsOnly("7");
  }

  /** A leading blank makes an empty first token, which is not an integer. */
  lemma LeadingBlankText()
    ensures CreateLocationFromLocationText(" 1 2 N") == Failure(NotAnInteger)
  {
    SplitCons(' ', "1 2 N");
    assert " 1 2 N" == [' '] + "1 2 N";
    assert Split(" 1 2 N")[0] == "";
    assert TryParseInt32("") == None;
  }

  /** Without a direction the last token is the second coordinate, which names no direction. */
  lemma MissingDirectionText(x: int32, y: int32)
    ensures CreateLocationFromLocationText(Int32ToString(x) + " " + Int32ToString(y)) == Failure(DirectionOutOfRange)
  {
    IntegerTextHasNoWhiteSpace(x);
    IntegerTextHasNoWhiteSpace(y);
    SplitWithoutWhiteSpace(Int32ToString(x));
    SplitWithoutWhiteSpace(Int32ToString(y));
    SplitAtWhiteSpace(Int32ToString(x), ' ', Int32ToString(y));
    Int32RoundTrip(x);
    Int32RoundTrip(y);
    IntegerTextIsNoDirection(y);
  }

  /** No integer's text is a direction token. */
  lemma IntegerTextIsNoDirection(n: int32)
    ensures FromInput(Int32ToString(n)).Failure?
  {
    var mag: nat := if n < 0 then 0 - n as int else n;
    NatToDigitsRoundTrip(mag);
    var s := Int32ToString(n);
    assert s[0] == '-' || IsDigit(s[0]);
    assert ToUpperInvariant(s)[0] == s[0];
  }

  /** The direction token may be spelled in any case the direction parser accepts. */
  lemma DirectionTokenAnyCase(x: int32, y: int32, token: string)
    requires NoWhiteSpace(token) && FromInput(token).Success?
    ensures CreateLocationFromLocationText(Int32ToString(x) + " " + Int32ToString(y) + " " + token) ==
            Success(Location(x, y, FromInput(token).value))
  {
    IntegerTextHasNoWhiteSpace(x);
    IntegerTextHasNoWhiteSpace(y);
    SplitThreeWords(Int32ToString(x), Int32ToString(y), token);
    Int32RoundTrip(x);
    Int32RoundTrip(y);
  }
}

=== FILE: lru_cache.dfy ===
/**
 * The byte-payload cache keyed by string, with least-recently-used eviction and an
 * optional lifetime per entry. Time is a tick count the caller passes in; the lock
 * that serialises the operations is left out, so each operation is one atomic step.
 */
module LruCaches {
  import opened Wrappers
  import opened MapSums
  import opened EnumerableExtensions

  /** IntPtr.Size, taken as a 64-bit process. */
  const PointerSize := 8
  /** The sizes the cache assumes for a DateTime and a TimeSpan. */
  const SizeOfDateTime := 8
  const SizeOfTimeSpan := 8
  /** Two 32-bit counters. */
  const KeyStatisticsSize := 8
  /** The smallest maximum size the constructor accepts. */
  const MinimumMaxSize := 1024

  /** An entry: its payload, when it was added, its optional lifetime and when it was last read. */
  datatype Node = Node(data: seq<bv8>, added: int, expiration: Option<int>, lastUsed: int)
  {
    /** Expired once its lifetime, when it has one, ended strictly before now. */
    predicate HasExpired(now: int): (r: bool)
      ensures expiration.None? ==> !r
      ensures r ==> now > added + expiration.value
    {
      expiration.Some? && added + expiration.value < now
    }

    /** The payload plus two references, two DateTimes and a TimeSpan: 40 bytes over the payload. */
    function SizeInBytes(): (r: int)
      ensures r == |data| + 40
    {
      |data| + PointerSize + SizeOfDateTime + SizeOfDateTime + SizeOfTimeSpan + PointerSize
    }
  }

  /**
   * A node made now: added and last used at the same tick. It is live at that tick
   * exactly when its lifetime is absent or not negative.
   */
  function NewNode(data: seq<bv8>, expiration: Option<int>, now: int): (n: Node)
    ensures n.data == data && n.expiration == expiration && n.lastUsed == now
    ensures !n.HasExpired(now) <==> expiration.None? || expiration.value >= 0
  {
    Node(data, now, expiration, now)
  }

  /** An entry without a lifetime never expires, and once expired an entry stays expired. */
  lemma ExpiryIsPermanent(node: Node, now: int, later: int)
    requires now <= later
    ensures node.expiration.None? ==> !node.HasExpired(now)
    ensures node.HasExpired(now) ==> node.HasExpired(later)
  {
  }

  datatype KeyStatistics = KeyStatistics(hits: int, misses: int)
  {
    function Hit(): KeyStatistics { this.(hits := hits + 1) }

    function Miss(): KeyStatistics { this.(misses := misses + 1) }
  }

  /** The record a key has, or the fresh one it gets on first lookup, with nothing counted yet. */
  function StatisticsFor(statistics: map<string, KeyStatistics>, key: string): (r: KeyStatistics)
    ensures key in statistics ==> r == statistics[key]
    ensures key !in statistics ==> r.hits == 0 && r.misses == 0
  {
    if key in statistics then statistics[key] else KeyStatistics(0, 0)
  }

  /** Two bytes per character plus a reference, counted for both dictionaries. */
  function KeySize(key: string): (r: int)
    ensures r == 4 * |key| + 16
  {
    (|key| * 2 + PointerSize) * 2
  }

  /** The node with its reference, and a statistics record with its reference. */
  function NodeSize(node: Node): (r: int)
    ensures r == |node.data| + 64
  {
    var cacheValueSize := node.SizeInBytes() + PointerSize;
    var statisticsValueSize := KeyStatisticsSize + PointerSize;
    cacheValueSize + statisticsValueSize
  }

  /** What one live entry adds to the running size: 4 * |key| + |data| + 6 * P + 32. */
  function EntryCost(key: string, node: Node): (c: int)
    ensures c == 4 * |key| + |node.data| + 6 * PointerSize + 32
    ensures c > |node.data|
  {
    KeySize(key) + NodeSize(node)
  }

  /**
   * A replace adds the difference in payload length, an insert the entry's whole cost.
   * Either way the increase is the new entry's cost minus the cost of an entry holding
   * the replaced payload, as an entry's cost depends on its payload only through its length.
   */
  function ComputeIncreaseInSize(key: string, existingData: Option<seq<bv8>>, newNode: Node): (r: int)
    ensures existingData.None? ==> r == EntryCost(key, newNode)
    ensures existingData.Some? ==> r == EntryCost(key, newNode) - EntryCost(key, newNode.(data := existingData.value))
  {
    if existingData.Some? then |newNode.data| - |existingData.value|
    else KeySize(key) + NodeSize(newNode)
  }

  /** The increase is exactly the new entry's cost minus the cost of the entry it replaces. */
  lemma IncreaseIsCostDifference(key: string, existing: Option<Node>, newNode: Node)
    ensures ComputeIncreaseInSize(key, if existing.Some? then Some(existing.value.data) else None, newNode)
            == EntryCost(key, newNode) - (if existing.Some? then EntryCost(key, existing.value) else 0)
  {
  }

  // ---- The true size of a cache, and the counters' sums ----

  /** The sum of the costs of the live entries. */
  ghost function TotalCost(cache: map<string, Node>): int
  {
    Sum(cache, EntryCost)
  }

  lemma TotalCostRemove(cache: map<string, Node>, key: string)
    requires key in cache
    ensures TotalCost(cache - {key}) == TotalCost(cache) - EntryCost(key, cache[key])
  {
    SumRemove(cache, EntryCost, key);
  }

  lemma TotalCostPut(cache: map<string, Node>, key: string, node: Node)
    ensures TotalCost(cache[key := node])
            == TotalCost(cache) - (if key in cache then EntryCost(key, cache[key]) else 0) + EntryCost(key, node)
  {
    SumUpdate(cache, EntryCost, key, node);
  }

  lemma TotalCostOfEmpty(cache: map<string, Node>)
    requires cache == map[]
    ensures TotalCost(cache) == 0
  {
    SumOfEmpty(cache, EntryCost);
  }

  function HitsOf(key: string, statistics: KeyStatistics): int
  {
    statistics.hits
  }

  function MissesOf(key: string, statistics: KeyStatistics): int
  {
    statistics.misses
  }

  /** Replacing one key's record changes the hit sum by that record's change. */
  lemma HitsAfterUpdate(statistics: map<string, KeyStatistics>, key: string, s: KeyStatistics)
    ensures Sum(statistics[key := s], HitsOf)
            == Sum(statistics, HitsOf) - StatisticsFor(statistics, key).hits + s.hits
  {
    SumUpdate(statistics, HitsOf, key, s);
  }

  /** Replacing one key's record changes the miss sum by that record's change. */
  lemma MissesAfterUpdate(statistics: map<string, KeyStatistics>, key: string, s: KeyStatistics)
    ensures Sum(statistics[key := s], MissesOf)
            == Sum(statistics, MissesOf) - StatisticsFor(statistics, key).misses + s.misses
  {
    SumUpdate(statistics, MissesOf, key, s);
  }

  /** The entries that survive the expiry sweep at now. */
  function Unexpired(cache: map<string, Node>, now: int): map<string, Node>
  {
    map k | k in cache && !cache[k].HasExpired(now) :: cache[k]
  }

  /** Every evicted entry was used no later than every entry that stayed. */
  ghost predicate EvictedLeastRecent(before: map<string, Node>, evicted: set<string>)
  {
    forall e, s | e in evicted && e in before && s in before && s !in evicted ::
      before[e].lastUsed <= before[s].lastUsed
  }

  /** The summed cost of the entries of before that order names, in order. */
  function CostOf(before: map<string, Node>, order: seq<string>): (r: int)
    ensures order == [] ==> r == 0
  {
    if order == [] then 0
    else
      var last := order[|order| - 1];
      CostOf(before, order[..|order| - 1]) + (if last in before then EntryCost(last, before[last]) else 0)
  }

  /**
   * order lists the evicted keys once each, in the order the loop took them: no entry
   * is taken before one that was used earlier.
   */
  ghost predicate InEvictionOrder(before: map<string, Node>, order: seq<string>, evicted: set<string>)
  {
    && |order| == |evicted|
    && (forall k :: k in order <==> k in evicted)
    && (forall i, j | 0 <= i < j < |order| && order[i] in before && order[j] in before ::
          before[order[i]].lastUsed <= before[order[j]].lastUsed)
  }

  /**
   * The eviction loop that started at size start went on after each eviction but the
   * last only because the size was still above max: it stops as soon as the size fits.
   */
  ghost predicate EvictedWhileOver(before: map<string, Node>, order: seq<string>, start: int, max: int)
  {
    forall n | 1 <= n < |order| :: start - CostOf(before, order[..n]) > max
  }

  /**
   * An entry read more recently than every other one is never evicted, unless the
   * eviction emptied the cache.
   */
  lemma MostRecentEntrySurvives(before: map<string, Node>, evicted: set<string>, key: string, kept: string)
    requires EvictedLeastRecent(before, evicted)
    requires key in before
    requires forall j | j in before && j != key :: before[j].lastUsed < before[key].lastUsed
    requires kept in before && kept !in evicted
    ensures key !in evicted
  {
    if kept != key {
      assert before[kept].lastUsed < before[key].lastUsed;
    }
  }

  datatype CacheError =
    | MaxSizeTooSmall  // ArgumentException from the constructor
    | NullKey          // ArgumentNullException for a null or empty key
    | KeyNotFound      // KeyNotFoundException from Get
    | NullReference    // the eviction loop dereferencing the default entry of an empty cache

  /** Hits over hits plus misses, kept as numerator and denominator. */
  datatype Ratio = Ratio(hits: int, requests: int)

  class LruCache {
    const maxCacheSizeInBytes: int
    var cache: map<string, Node>
    var statisticsDict: map<string, KeyStatistics>
    var sizeInBytes: int
    var totalHits: int
    var totalMisses: int
    var totalEvicts: int

    /** The global counters are the sums of the per-key counters. */
    ghost predicate Valid()
      reads this
    {
      && maxCacheSizeInBytes >= MinimumMaxSize
      && totalHits == Sum(statisticsDict, HitsOf) && totalHits >= 0
      && totalMisses == Sum(statisticsDict, MissesOf) && totalMisses >= 0
    }

    /** How far the running size is from the true cost of the live entries. */
    ghost function Drift(): int
      reads this
    {
      sizeInBytes - TotalCost(cache)
    }

    constructor(maxCacheSizeInBytes: int)
      requires maxCacheSizeInBytes >= MinimumMaxSize
      ensures Valid() && Drift() == 0
      ensures this.maxCacheSizeInBytes == maxCacheSizeInBytes
      ensures cache == map[] && statisticsDict == map[]
      ensures sizeInBytes == 0 && totalHits == 0 && totalMisses == 0 && totalEvicts == 0
    {
      this.maxCacheSizeInBytes := maxCacheSizeInBytes;
      cache := map[];
      statisticsDict := map[];
      sizeInBytes := 0;
      totalHits := 0;
      totalMisses := 0;
      totalEvicts := 0;
      new;
      ClearedIsValid();
    }

    lemma ClearedIsValid()
      requires maxCacheSizeInBytes >= MinimumMaxSize
      requires cache == map[] && statisticsDict == map[]
      requires sizeInBytes == 0 && totalHits == 0 && totalMisses == 0
      ensures Valid() && Drift() == 0
    {
      SumOfEmpty(statisticsDict, HitsOf);
      SumOfEmpty(statisticsDict, MissesOf);
      TotalCostOfEmpty(cache);
    }

    /** The constructor's check: a maximum below 1024 bytes is refused. */
    static method Create(maxCacheSizeInBytes: int) returns (r: Result<LruCache, CacheError>)
      ensures r.Failure? <==> maxCacheSizeInBytes < MinimumMaxSize
      ensures r.Failure? ==> r.error == MaxSizeTooSmall
      ensures r.Success? ==> fresh(r.value) && r.value.Valid()
      ensures r.Success? ==> r.value.maxCacheSizeInBytes == maxCacheSizeInBytes
      ensures r.Success? ==> r.value.cache == map[] && r.value.sizeInBytes == 0 && r.value.totalEvicts == 0
      ensures r.Success? ==> r.value.statisticsDict == map[] && r.value.totalHits == 0 && r.value.totalMisses == 0
      ensures r.Success? ==> r.value.Drift() == 0
    {
      if maxCacheSizeInBytes < MinimumMaxSize {
        return Failure(MaxSizeTooSmall);
      }
      var c := new LruCache(maxCacheSizeInBytes);
      return Success(c);
    }

    method Clear()
      requires Valid()
      modifies this
      ensures Valid() && Drift() == 0
      ensures cache == map[] && statisticsDict == map[]
      ensures sizeInBytes == 0 && totalHits == 0 && totalMisses == 0 && totalEvicts == 0
    {
      sizeInBytes := 0;
      cache := map[];
      statisticsDict := map[];
      totalHits := 0;
      totalMisses := 0;
      totalEvicts := 0;
      ClearedIsValid();
    }

    /** The number of entries; zero exactly when the cache is empty. */
    function Count(): (r: nat)
      reads this
      ensures r == 0 <==> cache == map[]
    {
      |cache|
    }

    /** A copy of the per-key statistics; their hits and misses add up to the global counters. */
    function Statistics(): (r: map<string, KeyStatistics>)
      reads this
      ensures Valid() ==> Sum(r, HitsOf) == totalHits && Sum(r, MissesOf) == totalMisses
    {
      statisticsDict
    }

    /** None before any lookup was counted, otherwise hits over hits plus misses. */
    function HitRatio(): (r: Option<Ratio>)
      reads this
      ensures r.None? <==> totalHits + totalMisses == 0
      ensures r.Some? ==> r.value.hits == totalHits && r.value.requests == totalHits + totalMisses
    {
      var totalGetRequests := totalHits + totalMisses;
      if totalGetRequests == 0 then None else Some(Ratio(totalHits, totalGetRequests))
    }

    /** The ratio is a fraction between 0 and 1. */
    lemma HitRatioIsAFraction()
      requires Valid() && HitRatio().Some?
      ensures 0 <= HitRatio().value.hits <= HitRatio().value.requests
      ensures HitRatio().value.requests > 0
    {
    }

    /** The dictionary's entries, each once, in an order the model leaves open. */
    method EntryList() returns (entries: seq<(string, Node)>)
      ensures |entries| == |cache|
      ensures forall i | 0 <= i < |entries| :: entries[i].0 in cache && cache[entries[i].0] == entries[i].1
      ensures forall k | k in cache :: (k, cache[k]) in entries
      ensures forall i, j | 0 <= i < j < |entries| :: entries[i].0 != entries[j].0
    {
      entries := [];
      var remaining := cache.Keys;
      while remaining != {}
        invariant remaining <= cache.Keys
        invariant |entries| + |remaining| == |cache|
        invariant forall i | 0 <= i < |entries| ::
          entries[i].0 in cache && entries[i].0 !in remaining && cache[entries[i].0] == entries[i].1
        invariant forall k | k in cache && k !in remaining :: (k, cache[k]) in entries
        invariant forall i, j | 0 <= i < j < |entries| :: entries[i].0 != entries[j].0
        decreases |remaining|
      {
        var k :| k in remaining;
        entries := entries + [(k, cache[k])];
        remaining := remaining - {k};
      }
    }

    /** The keys of the live entries, each once. */
    method GetKeys() returns (keys: seq<string>)
      ensures |keys| == |cache|
      ensures forall k :: k in keys <==> k in cache
      ensures forall i, j | 0 <= i < j < |keys| :: keys[i] != keys[j]
    {
      var entries := EntryList();
      keys := seq(|entries|, i requires 0 <= i < |entries| => entries[i].0);
      forall k | k in cache
        ensures k in keys
      {
        var i :| 0 <= i < |entries| && entries[i] == (k, cache[k]);
        assert keys[i] == k;
      }
    }

    /** Takes a live entry out and subtracts its cost. */
    method RemoveExisting(key: string, node: Node)
      requires key in cache && cache[key] == node
      modifies this
      ensures cache == old(cache) - {key}
      ensures sizeInBytes == old(sizeInBytes) - EntryCost(key, node)
      ensures Drift() == old(Drift())
      ensures statisticsDict == old(statisticsDict) && totalEvicts == old(totalEvicts)
      ensures totalHits == old(totalHits) && totalMisses == old(totalMisses)
    {
      var entrySizeInBytes := KeySize(key) + NodeSize(node);
      sizeInBytes := sizeInBytes - entrySizeInBytes;
      cache := cache - {key};
      TotalCostRemove(old(cache), key);
    }

    /** Gives the key a zero record if it has none yet, and returns its record. */
    method GetOrCreateStatisticsForKey(key: string) returns (statistics: KeyStatistics)
      requires Valid()
      modifies this
      ensures Valid()
      ensures statistics == StatisticsFor(old(statisticsDict), key)
      ensures statisticsDict == old(statisticsDict)[key := statistics]
      ensures cache == old(cache) && sizeInBytes == old(sizeInBytes) && totalEvicts == old(totalEvicts)
      ensures totalHits == old(totalHits) && totalMisses == old(totalMisses)
    {
      statistics := StatisticsFor(statisticsDict, key);
      if key !in statisticsDict {
        HitsAfterUpdate(statisticsDict, key, statistics);
        MissesAfterUpdate(statisticsDict, key, statistics);
        statisticsDict := statisticsDict[key := statistics];
      } else {
        assert statisticsDict == statisticsDict[key := statistics];
      }
    }

    /**
     * What a lookup of a non-empty key does to the cache: the key always ends with a
     * statistics record; an absent key counts a miss; an expired entry is removed
     * with its cost and counts nothing; a live entry is marked used now and counts a hit.
     */
    twostate predicate LookupEffect(key: string, now: int)
      reads this
    {
      && totalEvicts == old(totalEvicts)
      && (key !in old(cache) ==>
            && cache == old(cache) && sizeInBytes == old(sizeInBytes)
            && statisticsDict == old(statisticsDict)[key := StatisticsFor(old(statisticsDict), key).Miss()]
            && totalMisses == old(totalMisses) + 1 && totalHits == old(totalHits))
      && (key in old(cache) && old(cache)[key].HasExpired(now) ==>
            && cache == old(cache) - {key}
            && sizeInBytes == old(sizeInBytes) - EntryCost(key, old(cache)[key])
            && statisticsDict == old(statisticsDict)[key := StatisticsFor(old(statisticsDict), key)]
            && totalMisses == old(totalMisses) && totalHits == old(totalHits))
      && (key in old(cache) && !old(cache)[key].HasExpired(now) ==>
            && cache == old(cache)[key := old(cache)[key].(lastUsed := now)]
            && sizeInBytes == old(sizeInBytes)
            && statisticsDict == old(statisticsDict)[key := StatisticsFor(old(statisticsDict), key).Hit()]
            && totalHits == old(totalHits) + 1 && totalMisses == old(totalMisses))
    }

    /** The data of a live entry; None for an absent or expired key. */
    method TryGet(key: string, now: int) returns (r: Result<Option<seq<bv8>>, CacheError>)
      requires Valid()
      modifies this
      ensures Valid() && Drift() == old(Drift())
      ensures key == "" ==> r == Failure(NullKey) && unchanged(this)
      ensures key != "" ==> LookupEffect(key, now)
      ensures key != "" ==> r.Success?
      ensures r.Success? && r.value.Some? <==> key != "" && key in old(cache) && !old(cache)[key].HasExpired(now)
      ensures r.Success? && r.value.Some? ==> r.value.value == old(cache)[key].data
    {
      if key == "" {
        return Failure(NullKey);
      }
      if key !in cache {
        LookupAbsent(key, now);
        return Success(None);
      }
      var node := cache[key];
      if node.HasExpired(now) {
        LookupExpired(key, now);
        return Success(None);
      }
      LookupLive(key, now);
      return Success(Some(node.data));
    }

    /** The lookup of a key the cache does not hold: a miss. */
    method LookupAbsent(key: string, now: int)
      requires Valid() && key !in cache
      modifies this
      ensures Valid() && Drift() == old(Drift())
      ensures LookupEffect(key, now)
    {
      var statistics := GetOrCreateStatisticsForKey(key);
      CountMiss(key);
    }

    /** The lookup of an expired entry: it is removed, and nothing is counted. */
    method LookupExpired(key: string, now: int)
      requires Valid() && key in cache && cache[key].HasExpired(now)
      modifies this
      ensures Valid() && Drift() == old(Drift())
      ensures LookupEffect(key, now)
    {
      var statistics := GetOrCreateStatisticsForKey(key);
      RemoveExisting(key, cache[key]);
    }

    /** The lookup of a live entry: it is marked used now, and a hit is counted. */
    method LookupLive(key: string, now: int)
      requires Valid() && key in cache && !cache[key].HasExpired(now)
      modifies this
      ensures Valid() && Drift() == old(Drift())
      ensures LookupEffect(key, now)
    {
      var statistics := GetOrCreateStatisticsForKey(key);
      MarkUsed(key, now);
      CountHit(key);
    }

    /** The per-key and the global miss counters go up by one. */
    method CountMiss(key: string)
      requires Valid() && key in statisticsDict
      modifies this
      ensures Valid()
      ensures statisticsDict == old(statisticsDict)[key := old(statisticsDict)[key].Miss()]
      ensures totalMisses == old(totalMisses) + 1 && totalHits == old(totalHits)
      ensures cache == old(cache) && sizeInBytes == old(sizeInBytes) && totalEvicts == old(totalEvicts)
    {
      var statistics := statisticsDict[key];
      HitsAfterUpdate(statisticsDict, key, statistics.Miss());
      MissesAfterUpdate(statisticsDict, key, statistics.Miss());
      statisticsDict := statisticsDict[key := statistics.Miss()];
      totalMisses := totalMisses + 1;
    }

    /** The per-key and the global hit counters go up by one. */
    method CountHit(key: string)
      requires Valid() && key in statisticsDict
      modifies this
      ensures Valid()
      ensures statisticsDict == old(statisticsDict)[key := old(statisticsDict)[key].Hit()]
      ensures totalHits == old(totalHits) + 1 && totalMisses == old(totalMisses)
      ensures cache == old(cache) && sizeInBytes == old(sizeInBytes) && totalEvicts == old(totalEvicts)
    {
      var statistics := statisticsDict[key];
      HitsAfterUpdate(statisticsDict, key, statistics.Hit());
      MissesAfterUpdate(statisticsDict, key, statistics.Hit());
      statisticsDict := statisticsDict[key := statistics.Hit()];
      totalHits := totalHits + 1;
    }

    /** The entry's LastUsed becomes now; its cost does not change. */
    method MarkUsed(key: string, now: int)
      requires key in cache
      modifies this
      ensures cache == old(cache)[key := old(cache)[key].(lastUsed := now)]
      ensures Drift() == old(Drift())
      ensures sizeInBytes == old(sizeInBytes) && statisticsDict == old(statisticsDict)
      ensures totalHits == old(totalHits) && totalMisses == old(totalMisses) && totalEvicts == old(totalEvicts)
    {
      var node := cache[key];
      TotalCostPut(cache, key, node.(lastUsed := now));
      cache := cache[key := node.(lastUsed := now)];
    }

    /** Like TryGet, but a key without a live entry is an error. */
    method Get(key: string, now: int) returns (r: Result<seq<bv8>, CacheError>)
      requires Valid()
      modifies this
      ensures Valid() && Drift() == old(Drift())
      ensures key == "" ==> r == Failure(NullKey) && unchanged(this)
      ensures key != "" ==> LookupEffect(key, now)
      ensures r.Success? <==> key != "" && key in old(cache) && !old(cache)[key].HasExpired(now)
      ensures r.Success? ==> r.value == old(cache)[key].data
      ensures key != "" && r.Failure? ==> r.error == KeyNotFound
    {
      var found := TryGet(key, now);
      if found.Failure? {
        return Failure(found.error);
      }
      if found.value.None? {
        return Failure(KeyNotFound);
      }
      return Success(found.value.value);
    }

    /** Removes every entry expired at now, each with its cost. */
    method EvictExpired(now: int)
      modifies this
      ensures cache == Unexpired(old(cache), now)
      ensures Drift() == old(Drift())
      ensures statisticsDict == old(statisticsDict) && totalEvicts == old(totalEvicts)
      ensures totalHits == old(totalHits) && totalMisses == old(totalMisses)
    {
      var expiredEntries := set k | k in cache && cache[k].HasExpired(now);
      ghost var before := cache;
      var remaining := expiredEntries;
      while remaining != {}
        invariant remaining <= expiredEntries
        invariant cache == map k | k in before && (k !in expiredEntries || k in remaining) :: before[k]
        invariant Drift() == old(Drift())
        invariant statisticsDict == old(statisticsDict) && totalEvicts == old(totalEvicts)
        invariant totalHits == old(totalHits) && totalMisses == old(totalMisses)
        decreases |remaining|
      {
        var key :| key in remaining;
        RemoveExisting(key, cache[key]);
        remaining := remaining - {key};
      }
      assert cache == Unexpired(before, now);
    }

    /**
     * One round of the eviction loop: the entry with the smallest LastUsed is removed
     * and counted. With no entry left, the default entry the selection returns cannot be
     * removed, and ok is false.
     */
    method EvictOne() returns (ok: bool, ghost victim: string)
      modifies this
      ensures ok <==> old(cache) != map[]
      ensures !ok ==> unchanged(this)
      ensures ok ==> victim in old(cache) && cache == old(cache) - {victim}
      ensures ok ==> forall k | k in old(cache) :: old(cache)[victim].lastUsed <= old(cache)[k].lastUsed
      ensures ok ==> totalEvicts == old(totalEvicts) + 1
      ensures ok ==> sizeInBytes == old(sizeInBytes) - EntryCost(victim, old(cache)[victim])
      ensures Drift() == old(Drift())
      ensures statisticsDict == old(statisticsDict)
      ensures totalHits == old(totalHits) && totalMisses == old(totalMisses)
    {
      var entries := EntryList();
      var lruEntry := MinItemWithIndex(entries, (e: (string, Node)) => e.1.lastUsed);
      if lruEntry.None? {
        assert cache == map[] by {
          assert |cache| == 0;
          assert cache.Keys == {};
        }
        return false, "";
      }
      var (key, node) := lruEntry.value.item;
      ghost var i := lruEntry.value.index;
      forall k | k in cache
        ensures cache[key].lastUsed <= cache[k].lastUsed
      {
        var j :| 0 <= j < |entries| && entries[j] == (k, cache[k]);
        assert !Beats(entries[j].1.lastUsed, entries[i].1.lastUsed, true);
      }
      RemoveExisting(key, node);
      totalEvicts := totalEvicts + 1;
      return true, key;
    }

    /**
     * Evicts least recently used entries: once unconditionally, then while the size
     * is above the maximum and entries remain. ok is false when the cache was empty
     * at the start, where the source throws.
     */
    method EvictLeastRecentlyUsed() returns (ok: bool, ghost evicted: set<string>, ghost order: seq<string>)
      modifies this
      ensures ok <==> old(cache) != map[]
      ensures !ok ==> unchanged(this) && evicted == {} && order == []
      ensures ok ==> evicted != {}
      ensures evicted <= old(cache).Keys && cache == old(cache) - evicted
      ensures EvictedLeastRecent(old(cache), evicted)
      ensures InEvictionOrder(old(cache), order, evicted)
      ensures sizeInBytes == old(sizeInBytes) - CostOf(old(cache), order)
      ensures EvictedWhileOver(old(cache), order, old(sizeInBytes), maxCacheSizeInBytes)
      ensures totalEvicts == old(totalEvicts) + |evicted|
      ensures ok ==> sizeInBytes <= maxCacheSizeInBytes || cache == map[]
      ensures Drift() == old(Drift())
      ensures statisticsDict == old(statisticsDict)
      ensures totalHits == old(totalHits) && totalMisses == old(totalMisses)
    {
      ghost var before := cache;
      ghost var start := sizeInBytes;
      ghost var victim;
      ok, victim := EvictOne();
      if !ok {
        return ok, {}, [];
      }
      evicted, order := {victim}, [victim];
      assert before - evicted == cache;
      OrderStart(before, victim, start, maxCacheSizeInBytes);
      evicted, order := EvictWhileOver(before, start, evicted, order);
    }

    /**
     * What the eviction loop keeps, from a cache before and a running size start: which
     * entries went, in which order, and the size they took.
     */
    static ghost predicate Evicting(before: map<string, Node>, start: int, max: int, evicted: set<string>,
                                    order: seq<string>, cache: map<string, Node>, size: int)
    {
      && evicted <= before.Keys && evicted != {}
      && cache == before - evicted
      && EvictedLeastRecent(before, evicted)
      && InEvictionOrder(before, order, evicted)
      && size == start - CostOf(before, order)
      && EvictedWhileOver(before, order, start, max)
    }

    /** Evicting a least recently used entry while the size is above max keeps the loop's facts. */
    static lemma EvictingStep(before: map<string, Node>, start: int, max: int, evicted: set<string>,
                              order: seq<string>, cache: map<string, Node>, size: int, next: string)
      requires Evicting(before, start, max, evicted, order, cache, size) && size > max
      requires next in cache && forall k | k in cache :: cache[next].lastUsed <= cache[k].lastUsed
      ensures Evicting(before, start, max, evicted + {next}, order + [next], cache - {next},
                       size - EntryCost(next, cache[next]))
      ensures |evicted + {next}| == |evicted| + 1 && |cache - {next}| == |cache| - 1
    {
      assert next in before && next !in evicted && cache[next] == before[next];
      assert forall k | k in before - evicted :: before[next].lastUsed <= before[k].lastUsed;
      RemoveShrinks(cache, next);
      EvictionStep(before, evicted, next);
      OrderStep(before, evicted, order, next, start, max);
    }

    /** The loop of EvictLeastRecentlyUsed after its first, unconditional eviction. */
    method EvictWhileOver(ghost before: map<string, Node>, ghost start: int, ghost evicted0: set<string>,
                          ghost order0: seq<string>)
      returns (ghost evicted: set<string>, ghost order: seq<string>)
      requires Evicting(before, start, maxCacheSizeInBytes, evicted0, order0, cache, sizeInBytes)
      modifies this
      ensures Evicting(before, start, maxCacheSizeInBytes, evicted, order, cache, sizeInBytes)
      ensures sizeInBytes <= maxCacheSizeInBytes || cache == map[]
      ensures totalEvicts == old(totalEvicts) + |evicted| - |evicted0|
      ensures Drift() == old(Drift())
      ensures statisticsDict == old(statisticsDict)
      ensures totalHits == old(totalHits) && totalMisses == old(totalMisses)
    {
      evicted, order := evicted0, order0;
      while sizeInBytes > maxCacheSizeInBytes && |cache| > 0
        invariant Evicting(before, start, maxCacheSizeInBytes, evicted, order, cache, sizeInBytes)
        invariant totalEvicts == old(totalEvicts) + |evicted| - |evicted0|
        invariant Drift() == old(Drift())
        invariant statisticsDict == old(statisticsDict)
        invariant totalHits == old(totalHits) && totalMisses == old(totalMisses)
        decreases |cache|
      {
        ghost var removedOne, next;
        ghost var c, z := cache, sizeInBytes;
        assert cache != map[] by {
          assert |cache| > 0;
        }
        removedOne, next := EvictOne();
        EvictingStep(before, start, maxCacheSizeInBytes, evicted, order, c, z, next);
        evicted, order := evicted + {next}, order + [next];
      }
      if |cache| == 0 {
        assert cache.Keys == {};
      }
    }

    /** After the first eviction the order holds the one victim. */
    static lemma OrderStart(before: map<string, Node>, victim: string, start: int, max: int)
      requires victim in before
      ensures InEvictionOrder(before, [victim], {victim})
      ensures EvictedWhileOver(before, [victim], start, max)
      ensures CostOf(before, [victim]) == EntryCost(victim, before[victim])
    {
      assert [victim][..0] == [];
    }

    /**
     * Appending the next least recently used survivor, taken while the size was still
     * above the maximum, keeps the order and the stopping rule.
     */
    static lemma OrderStep(before: map<string, Node>, evicted: set<string>, order: seq<string>, next: string,
                           start: int, max: int)
      requires EvictedLeastRecent(before, evicted) && InEvictionOrder(before, order, evicted)
      requires next in before && next !in evicted
      requires EvictedWhileOver(before, order, start, max)
      requires start - CostOf(before, order) > max
      ensures InEvictionOrder(before, order + [next], evicted + {next})
      ensures EvictedWhileOver(before, order + [next], start, max)
      ensures CostOf(before, order + [next]) == CostOf(before, order) + EntryCost(next, before[next])
    {
      var longer := order + [next];
      assert longer[..|order|] == order;
      forall n | 1 <= n < |longer|
        ensures start - CostOf(before, longer[..n]) > max
      {
        assert longer[..n] == order[..n];
      }
      forall i, j | 0 <= i < j < |longer| && longer[i] in before && longer[j] in before
        ensures before[longer[i]].lastUsed <= before[longer[j]].lastUsed
      {
        if j == |order| {
          assert longer[i] in evicted;
        }
      }
      assert forall k :: k in longer <==> k in order || k == next;
    }

    /** Taking out a least recently used survivor keeps the eviction order. */
    static lemma EvictionStep(before: map<string, Node>, evicted: set<string>, next: string)
      requires EvictedLeastRecent(before, evicted)
      requires next in before && next !in evicted
      requires forall k | k in before - evicted :: before[next].lastUsed <= before[k].lastUsed
      ensures EvictedLeastRecent(before, evicted + {next})
      ensures (before - evicted) - {next} == before - (evicted + {next})
      ensures |evicted + {next}| == |evicted| + 1
    {
      forall e, s | e in evicted + {next} && e in before && s in before && s !in evicted + {next}
        ensures before[e].lastUsed <= before[s].lastUsed
      {
        assert s in before - evicted;
      }
    }

    /**
     * Stores value under key after sweeping expired entries and, when the running size
     * reaches the maximum, evicting least recently used ones. The new node is not in
     * the map while eviction runs, so it is never its own victim; the old node of a
     * replaced key is, and if it is evicted the running size loses that key's cost.
     */
    method AddOrReplace(key: string, value: seq<bv8>, expiration: Option<int>, now: int)
      returns (r: Outcome<CacheError>, ghost evicted: set<string>, ghost order: seq<string>)
      requires Valid()
      modifies this
      ensures Valid()
      ensures key == "" ==> r == Fail(NullKey) && unchanged(this)
      ensures statisticsDict == old(statisticsDict)
      ensures totalHits == old(totalHits) && totalMisses == old(totalMisses)
      ensures key != "" ==>
        var swept := Unexpired(old(cache), now);
        var newNode := NewNode(value, expiration, now);
        var increase := ComputeIncreaseInSize(key, if key in swept then Some(swept[key].data) else None, newNode);
        var start := old(Drift()) + TotalCost(swept) + increase;
        var reached := start >= maxCacheSizeInBytes;
        && (r.Fail? <==> reached && swept == map[])
        && (r.Fail? ==> r.error == NullReference && cache == map[] && evicted == {} && order == []
                        && sizeInBytes == old(Drift()) + increase && totalEvicts == old(totalEvicts))
        && (r.Pass? ==>
              && evicted <= swept.Keys
              && (evicted != {} <==> reached)
              && cache == (swept - evicted)[key := newNode]
              && EvictedLeastRecent(swept, evicted)
              && InEvictionOrder(swept, order, evicted)
              && EvictedWhileOver(swept, order, start, maxCacheSizeInBytes)
              && totalEvicts == old(totalEvicts) + |evicted|
              && Drift() == old(Drift()) - (if key in evicted && key in swept then EntryCost(key, swept[key]) else 0)
              && (sizeInBytes <= maxCacheSizeInBytes || cache == map[key := newNode]))
    {
      evicted, order := {}, [];
      if key == "" {
        return Fail(NullKey), evicted, order;
      }
      EvictExpired(now);
      r, evicted, order := StoreSwept(key, value, expiration, now);
    }

    /** AddOrReplace once the expired entries are gone: the size update, the eviction and the store. */
    method StoreSwept(key: string, value: seq<bv8>, expiration: Option<int>, now: int)
      returns (r: Outcome<CacheError>, ghost evicted: set<string>, ghost order: seq<string>)
      modifies this
      ensures statisticsDict == old(statisticsDict)
      ensures totalHits == old(totalHits) && totalMisses == old(totalMisses)
      ensures
        var newNode := NewNode(value, expiration, now);
        var increase := ComputeIncreaseInSize(key, if key in old(cache) then Some(old(cache)[key].data) else None, newNode);
        var start := old(Drift()) + TotalCost(old(cache)) + increase;
        var reached := start >= maxCacheSizeInBytes;
        && (r.Fail? <==> reached && old(cache) == map[])
        && (r.Fail? ==> r.error == NullReference && cache == map[] && evicted == {} && order == []
                        && sizeInBytes == old(Drift()) + increase && totalEvicts == old(totalEvicts))
        && (r.Pass? ==>
              && evicted <= old(cache).Keys
              && (evicted != {} <==> reached)
              && cache == (old(cache) - evicted)[key := newNode]
              && EvictedLeastRecent(old(cache), evicted)
              && InEvictionOrder(old(cache), order, evicted)
              && EvictedWhileOver(old(cache), order, start, maxCacheSizeInBytes)
              && totalEvicts == old(totalEvicts) + |evicted|
              && Drift() == old(Drift()) - (if key in evicted && key in old(cache) then EntryCost(key, old(cache)[key]) else 0)
              && (sizeInBytes <= maxCacheSizeInBytes || cache == map[key := newNode]))
    {
      ghost var swept := cache;
      ghost var drift := Drift();
      var existingData := if key in cache then Some(cache[key].data) else None;
      var newNode := NewNode(value, expiration, now);
      IncreaseIsCostDifference(key, if key in cache then Some(cache[key]) else None, newNode);
      var increase := ComputeIncreaseInSize(key, existingData, newNode);
      var ok;
      ok, evicted, order := GrowAndEvict(increase);
      if !ok {
        TotalCostOfEmpty(swept);
        return Fail(NullReference), evicted, order;
      }
      DriftAfterStore(swept, evicted, key, newNode, drift, increase, sizeInBytes);
      cache := cache[key := newNode];
      r := Pass;
    }

    /**
     * Adds increase to the running size and, when that reaches the maximum, runs the
     * eviction loop; ok is false when the loop found the cache empty.
     */
    method GrowAndEvict(increase: int) returns (ok: bool, ghost evicted: set<string>, ghost order: seq<string>)
      modifies this
      ensures statisticsDict == old(statisticsDict)
      ensures totalHits == old(totalHits) && totalMisses == old(totalMisses)
      ensures Drift() == old(Drift()) + increase
      ensures
        var reached := old(sizeInBytes) + increase >= maxCacheSizeInBytes;
        && (!ok <==> reached && old(cache) == map[])
        && (!ok ==> cache == map[] && evicted == {} && order == [] && totalEvicts == old(totalEvicts))
        && (ok ==>
              && evicted <= old(cache).Keys
              && (evicted != {} <==> reached)
              && cache == old(cache) - evicted
              && EvictedLeastRecent(old(cache), evicted)
              && InEvictionOrder(old(cache), order, evicted)
              && EvictedWhileOver(old(cache), order, old(sizeInBytes) + increase, maxCacheSizeInBytes)
              && totalEvicts == old(totalEvicts) + |evicted|
              && (sizeInBytes <= maxCacheSizeInBytes || cache == map[]))
    {
      sizeInBytes := sizeInBytes + increase;
      if sizeInBytes >= maxCacheSizeInBytes {
        ok, evicted, order := EvictLeastRecentlyUsed();
      } else {
        ok, evicted, order := true, {}, [];
        assert cache == old(cache) - evicted;
      }
    }

    /** The running size after the store is off by the old entry's cost exactly when it was evicted. */
    static lemma DriftAfterStore(swept: map<string, Node>, evicted: set<string>, key: string, newNode: Node,
                                 drift: int, increase: int, size: int)
      requires size - TotalCost(swept - evicted) == drift + increase
      requires increase == EntryCost(key, newNode) - (if key in swept then EntryCost(key, swept[key]) else 0)
      ensures size - TotalCost((swept - evicted)[key := newNode])
              == drift - (if key in evicted && key in swept then EntryCost(key, swept[key]) else 0)
    {
      var kept := swept - evicted;
      TotalCostPut(kept, key, newNode);
      assert key in kept <==> key in swept && key !in evicted;
    }

    /** Removes a live entry with its cost; true exactly when the key had one. */
    method Remove(key: string) returns (r: Result<bool, CacheError>)
      requires Valid()
      modifies this
      ensures Valid() && Drift() == old(Drift())
      ensures key == "" ==> r == Failure(NullKey) && unchanged(this)
      ensures key != "" ==> r == Success(key in old(cache))
      ensures key in old(cache) && key != "" ==> cache == old(cache) - {key}
      ensures key in old(cache) && key != "" ==> sizeInBytes == old(sizeInBytes) - EntryCost(key, old(cache)[key])
      ensures key !in old(cache) ==> cache == old(cache) && sizeInBytes == old(sizeInBytes)
      ensures statisticsDict == old(statisticsDict) && totalEvicts == old(totalEvicts)
      ensures totalHits == old(totalHits) && totalMisses == old(totalMisses)
    {
      if key == "" {
        return Failure(NullKey);
      }
      if key !in cache {
        return Success(false);
      }
      RemoveExisting(key, cache[key]);
      return Success(true);
    }

    /**
     * The indexer's setter, which stores without a lifetime, followed by its getter at the
     * same tick: the value comes back, unless the store failed, and then the read fails
     * the same way.
     */
    method PutThenGet(key: string, value: seq<bv8>, now: int)
      returns (stored: Outcome<CacheError>, read: Result<seq<bv8>, CacheError>)
      requires Valid()
      modifies this
      ensures Valid()
      ensures key == "" ==> stored == Fail(NullKey)
      ensures stored.Pass? ==> read == Success(value)
      ensures stored.Fail? ==> read == Failure(stored.error)
    {
      ghost var evicted, order;
      stored, evicted, order := AddOrReplace(key, value, None, now);
      if stored.Fail? {
        return stored, Failure(stored.error);
      }
      read := Get(key, now);
    }
  }

  /** A fresh 1024-byte cache holding one 10-byte entry stored at tick 1, which costs 94 bytes. */
  method CacheWithSmallEntry() returns (c: LruCache)
    ensures fresh(c) && c.Valid() && c.maxCacheSizeInBytes == 1024
    ensures c.cache == map["k" := NewNode(seq(10, i => 0 as bv8), None, 1)]
    ensures c.sizeInBytes == 94 && c.Drift() == 0
  {
    c := new LruCache(1024);
    var small := seq(10, i => 0 as bv8);
    ghost var evicted, order;
    var stored;
    stored, evicted, order := c.AddOrReplace("k", small, None, 1);
    assert Unexpired(map[], 1) == map[];
    TotalCostOfEmpty(map[]);
    SumOfSingleton("k", NewNode(small, None, 1), EntryCost);
  }

  /**
   * The running size is an estimate: replacing the only entry of a 1024-byte cache by a
   * larger payload evicts the entry's old node, whose cost the size then loses, and
   * removing the key afterwards leaves the size below zero.
   */
  method ReplaceEvictingOwnNode() returns (c: LruCache, afterReplace: int, afterRemove: int)
    ensures afterReplace == 990 && TotalCost(map["k" := NewNode(seq(1000, i => 0 as bv8), None, 2)]) == 1084
    ensures afterRemove == -94 && c.cache == map[]
  {
    c := CacheWithSmallEntry();
    var first := NewNode(seq(10, i => 0 as bv8), None, 1);
    var large := seq(1000, i => 0 as bv8);
    ghost var evicted, order;
    var stored;
    stored, evicted, order := c.AddOrReplace("k", large, None, 2);
    assert Unexpired(map["k" := first], 2) == map["k" := first];
    assert evicted == {"k"};
    SumOfSingleton("k", NewNode(large, None, 2), EntryCost);
    afterReplace := c.sizeInBytes;
    var removed := c.Remove("k");
    afterRemove := c.sizeInBytes;
  }
}
=== FILE: map_sums.dfy ===
/** Sums over the entries of a map, used for the cache's size and counter accounting. */
module MapSums {

  /** The sum of f over all entries of m, taken in an arbitrary key order. */
  ghost function Sum<K, V>(m: map<K, V>, f: (K, V) -> int): int
    decreases |m|
  {
    if |m| == 0 then 0
    else
      NonEmptyHasKey(m);
      var k :| k in m;
      f(k, m[k]) + Sum(m - {k}, f)
  }

  lemma NonEmptyHasKey<K, V>(m: map<K, V>)
    requires |m| != 0
    ensures exists k :: k in m
  {
    var keys := m.Keys;
    assert |keys| == |m|;
    var k :| k in keys;
  }

  /** The order of summation does not matter: any key can be taken out first. */
  lemma {:induction false} SumRemove<K, V>(m: map<K, V>, f: (K, V) -> int, k: K)
    requires k in m
    ensures Sum(m, f) == f(k, m[k]) + Sum(m - {k}, f)
    decreases |m|
  {
    var j := SumUnfold(m, f, k);
    if j != k {
      var withoutJ, withoutK := m - {j}, m - {k};
      RemoveShrinks(m, j);
      RemoveShrinks(m, k);
      assert k in withoutJ && withoutJ[k] == m[k];
      assert j in withoutK && withoutK[j] == m[j];
      SumRemove(withoutJ, f, k);
      SumRemove(withoutK, f, j);
      RemoveCommutes(m, j, k);
    }
  }

  /** The key the definition of Sum takes out first. */
  lemma SumUnfold<K, V>(m: map<K, V>, f: (K, V) -> int, k: K) returns (j: K)
    requires k in m
    ensures j in m && Sum(m, f) == f(j, m[j]) + Sum(m - {j}, f)
  {
    assert |m| != 0 by {
      assert k in m.Keys;
    }
    j :| j in m && Sum(m, f) == f(j, m[j]) + Sum(m - {j}, f);
  }

  lemma RemoveCommutes<K, V>(m: map<K, V>, j: K, k: K)
    ensures (m - {j}) - {k} == (m - {k}) - {j}
  {
  }

  lemma RemoveShrinks<K, V>(m: map<K, V>, k: K)
    requires k in m
    ensures |m - {k}| == |m| - 1
  {
    assert (m - {k}).Keys == m.Keys - {k};
  }

  /** Setting one entry changes the sum by the difference of its two terms. */
  lemma SumUpdate<K, V>(m: map<K, V>, f: (K, V) -> int, k: K, v: V)
    ensures Sum(m[k := v], f) == Sum(m, f) - (if k in m then f(k, m[k]) else 0) + f(k, v)
  {
    var updated := m[k := v];
    SumRemove(updated, f, k);
    assert updated - {k} == m - {k};
    if k in m {
      SumRemove(m, f, k);
    } else {
      assert m - {k} == m;
    }
  }

  lemma SumOfEmpty<K, V>(m: map<K, V>, f: (K, V) -> int)
    requires m == map[]
    ensures Sum(m, f) == 0
  {
  }

  lemma SumOfSingleton<K, V>(k: K, v: V, f: (K, V) -> int)
    ensures Sum(map[k := v], f) == f(k, v)
  {
    SumRemove(map[k := v], f, k);
    assert map[k := v] - {k} == map[];
  }
}

=== FILE: operation_base.dfy ===
/** The input check every rover operation class starts with. */
module OperationBase {
  import opened Wrappers
  import opened DotNetText

  /** The plain Exception the check throws; its message is the same in every class. */
  datatype InputError = InputError(message: string)

  const InputErrorMessage: string := "Planet Size(s) Cannot be identified. Please Check the provided input."

  /** ValidateInput: a null, empty or all-white-space text is refused; `None` stands for null. */
  function ValidateInput(inputText: Option<string>): (r: Outcome<InputError>)
    ensures r.Pass? <==> inputText.Some? && exists i | 0 <= i < |inputText.value| :: !IsWhiteSpace(inputText.value[i])
    ensures r.Fail? ==> r.error.message == InputErrorMessage
  {
    if IsNullOrWhiteSpace(inputText) then Fail(InputError(InputErrorMessage)) else Pass
  }

  /** What passes the check still splits into at least one non-empty part. */
  lemma ValidInputHasAWord(inputText: string)
    requires ValidateInput(Some(inputText)).Pass?
    ensures exists j | 0 <= j < |Split(inputText)| :: Split(inputText)[j] != ""
  {
    BlankIffEmptyParts(inputText);
  }
}

=== FILE: planet.dfy ===
/** The planet a rover drives on: a name and a rectangle from (0, 0) to the two boundaries. */
module Planets {
  import opened Int32

  class Planet {
    var name: string
    var horizontalBoundary: int32
    var verticalBoundary: int32

    constructor(name: string, horizontalBoundary: int32, verticalBoundary: int32)
      ensures this.name == name
      ensures this.horizontalBoundary == horizontalBoundary && this.verticalBoundary == verticalBoundary
    {
      this.name := name;
      this.horizontalBoundary := horizontalBoundary;
      this.verticalBoundary := verticalBoundary;
    }

    /** Grows each boundary by the given amount, with C#'s wrapping `+=`. */
    method Enlarge(horizontalAdditionalSize: int32, verticalAdditionalSize: int32)
      modifies this
      ensures horizontalBoundary == Wrap(old(horizontalBoundary) + horizontalAdditionalSize)
      ensures verticalBoundary == Wrap(old(verticalBoundary) + verticalAdditionalSize)
      ensures name == old(name)
    {
      horizontalBoundary := Wrap(horizontalBoundary + horizontalAdditionalSize);
      verticalBoundary := Wrap(verticalBoundary + verticalAdditionalSize);
    }

    /** Overwrites both boundaries. */
    method Resize(horizontalBoundary: int32, verticalBoundary: int32)
      modifies this
      ensures this.horizontalBoundary == horizontalBoundary && this.verticalBoundary == verticalBoundary
      ensures name == old(name)
    {
      this.horizontalBoundary := horizontalBoundary;
      this.verticalBoundary := verticalBoundary;
    }
  }

  /** Two enlargements in a row equal one by the (wrapped) sum of the amounts. */
  lemma EnlargeTwice(boundary: int32, first: int32, second: int32)
    ensures Wrap(Wrap(boundary + first) + second) == Wrap(boundary + Wrap(first + second))
  {
    WrapAddCongruent(boundary + first, second);
    WrapAddCongruent(first + second, boundary);
  }

  /** Enlarging by an amount and then by its (wrapped) negation restores the boundary, overflow or not. */
  lemma EnlargeUndo(boundary: int32, amount: int32)
    ensures Wrap(Wrap(boundary + amount) + Wrap(0 - amount)) == boundary
  {
    EnlargeTwice(boundary, amount, Wrap(0 - amount));
    WrapAddCongruent(0 - amount, amount);
  }
}

=== FILE: planet_operation.dfy ===
/** PlanetOperation: reading the planet size line and pairing up the rover lines. */
module PlanetOperations {
  import opened Wrappers
  import opened Int32
  import opened DotNetText
  import opened Planets

  /** The ZeroPlanetBoundaryException. */
  datatype ZeroPlanetBoundary = ZeroPlanetBoundary

  /** CreatePlanet: a planet with the given boundaries, named "mars" unless a name is given. */
  method CreatePlanet(horizontalBoundary: int32, verticalBoundary: int32, name: string := "mars") returns (planet: Planet)
    ensures fresh(planet)
    ensures planet.name == name
    ensures planet.horizontalBoundary == horizontalBoundary && planet.verticalBoundary == verticalBoundary
  {
    planet := new Planet(name, horizontalBoundary, verticalBoundary);
  }

  /** The private Split: the text cut at half its length (rounded down) into two pieces. */
  function SplitHalves(str: string): (halves: seq<string>)
    ensures |halves| == 2 && halves[0] + halves[1] == str
    ensures |halves[0]| == |str| / 2 && |halves[1]| == |str| - |str| / 2
  {
    var half1 := |str| / 2;
    [str[..half1], str[half1..]]
  }

  /**
   * The boundaries a size line such as "55" or "2020" denotes: the first half of the
   * text is the horizontal boundary and the second half the vertical one, each read
   * as int.TryParse reads it (0 when it is no integer). A text of fewer than two
   * characters, or a zero boundary, is refused.
   */
  function PlanetBoundaries(text: string): (r: Result<(int32, int32), ZeroPlanetBoundary>)
    ensures |text| < 2 ==> r.Failure?
    ensures r.Success? ==> r.value.0 != 0 && r.value.1 != 0
    ensures r.Success? ==>
      && TryParseInt32(text[..|text| / 2]) == Some(r.value.0)
      && TryParseInt32(text[|text| / 2..]) == Some(r.value.1)
    ensures |text| >= 2
            && TryParseInt32(text[..|text| / 2]).Some? && TryParseInt32(text[..|text| / 2]).value != 0
            && TryParseInt32(text[|text| / 2..]).Some? && TryParseInt32(text[|text| / 2..]).value != 0
            ==> r.Success?
  {
    if |text| < 2 then Failure(ZeroPlanetBoundary)
    else
      var x := ParseOrZero(text[..|text| / 2]);
      var y := ParseOrZero(text[|text| / 2..]);
      if x == 0 || y == 0 then Failure(ZeroPlanetBoundary) else Success((x, y))
  }

  /**
   * BuildPlanetBoundaries: collects halves followed by a blank into `first` until it is
   * at least half the text long, joins the remaining halves into `second`, and parses both.
   */
  method BuildPlanetBoundaries(text: string) returns (r: Result<(int32, int32), ZeroPlanetBoundary>)
    ensures r == PlanetBoundaries(text)
    ensures r.Success? ==> r.value.0 != 0 && r.value.1 != 0
  {
    var parts := SplitHalves(text);
    var counter := 0;
    var first := "";
    var middle := |text| / 2;
    while |first| < middle
      invariant counter <= 1
      invariant counter == 0 ==> first == ""
      invariant counter == 1 ==> first == parts[0] + " "
      decreases middle - |first|
    {
      first := first + parts[counter] + " ";
      counter := counter + 1;
    }
    var second := Join(" ", parts[counter..]);
    var xBoundary := ParseOrZero(first);
    var yBoundary := ParseOrZero(second);
    if counter == 0 {
      assert first == "" && TryParseInt32(first) == None;
    } else {
      ParseIgnoresTrailingBlank(parts[0]);
      assert parts[counter..] == [parts[1]];
    }
    if xBoundary == 0 || yBoundary == 0 {
      return Failure(ZeroPlanetBoundary);
    }
    return Success((xBoundary, yBoundary));
  }

  /** int.TryParse skips trailing white space, so a blank after the number changes nothing. */
  lemma ParseIgnoresTrailingBlank(s: string)
    ensures TryParseInt32(s + " ") == TryParseInt32(s)
  {
    TrimStartBeforeBlank(s);
    var t := TrimStart(s);
    if t != [] {
      assert TrimEnd(t + " ") == TrimEnd(t) by {
        assert (t + " ")[..|t + " "| - 1] == t;
      }
    }
  }

  lemma {:induction false} TrimStartBeforeBlank(s: string)
    ensures TrimStart(s + " ") == if TrimStart(s) == [] then [] else TrimStart(s) + " "
    decreases |s|
  {
    if s == [] {
      assert TrimStart(" ") == TrimStart([]);
    } else {
      assert (s + " ")[0] == s[0] && (s + " ")[1..] == s[1..] + " ";
      if IsNumberWhite(s[0]) {
        TrimStartBeforeBlank(s[1..]);
      }
    }
  }

  /**
   * Two numbers written with the same number of characters, one after the other,
   * are read back as the two boundaries when neither is zero: "55", "2020", "-5-5".
   */
  lemma BoundariesRoundTrip(x: int32, y: int32)
    requires |Int32ToString(x)| == |Int32ToString(y)| && x != 0 && y != 0
    ensures PlanetBoundaries(Int32ToString(x) + Int32ToString(y)) == Success((x, y))
  {
    var sx, sy := Int32ToString(x), Int32ToString(y);
    var text := sx + sy;
    assert |text| / 2 == |sx|;
    assert text[..|text| / 2] == sx && text[|text| / 2..] == sy;
    Int32RoundTrip(x);
    Int32RoundTrip(y);
  }

  /** A zero on either side is refused, so "00" is no planet. */
  lemma ZeroBoundaryRefused(x: int32, y: int32)
    requires |Int32ToString(x)| == |Int32ToString(y)| && (x == 0 || y == 0)
    ensures PlanetBoundaries(Int32ToString(x) + Int32ToString(y)).Failure?
  {
    var sx, sy := Int32ToString(x), Int32ToString(y);
    var text := sx + sy;
    assert text[..|text| / 2] == sx && text[|text| / 2..] == sy;
    Int32RoundTrip(x);
    Int32RoundTrip(y);
  }

  /** The sample line "55" is a 5 x 5 planet. */
  lemma FiveByFive()
    ensures PlanetBoundaries("55") == Success((5, 5))
  {
    assert Int32ToString(5) == "5";
    BoundariesRoundTrip(5, 5);
    assert Int32ToString(5) + Int32ToString(5) == "55";
  }

  /** The sample line "00" is refused. */
  lemma ZeroByZero()
    ensures PlanetBoundaries("00").Failure?
  {
    assert Int32ToString(0) == "0";
    ZeroBoundaryRefused(0, 0);
    assert Int32ToString(0) + Int32ToString(0) == "00";
  }

  /** Negative sizes are not refused: "-5-5" is -5 x -5. */
  lemma NegativeSizeAccepted()
    ensures PlanetBoundaries("-5-5") == Success((-5, -5))
  {
    assert NatToDigits(5) == "5";
    assert Int32ToString(-5) == "-5";
    BoundariesRoundTrip(-5, -5);
    assert Int32ToString(-5) + Int32ToString(-5) == "-5-5";
  }

  /** Numbers of different widths are cut in the wrong place: "105" reads as 1 x 5, not 10 x 5. */
  lemma UnevenWidthsMisread()
    ensures PlanetBoundaries("105") == Success((1, 5))
  {
    assert "105"[..1] == "1" && "105"[1..] == "05";
    ParseDigitsOnly("1");
    ParseDigitsOnly("05");
  }

  /** A text too short to halve never fills `first`, so it is refused. */
  lemma ShortTextRefused(text: string)
    requires |text| < 2
    ensures PlanetBoundaries(text).Failure?
  {
  }

  /** The other sample line: "2020" is 20 x 20. */
  lemma TwentyByTwenty()
    ensures PlanetBoundaries("2020") == Success((20, 20))
  {
    assert NatToDigits(2) == "2";
    assert NatToDigits(20) == NatToDigits(2) + "0";
    assert Int32ToString(20) == "20";
    BoundariesRoundTrip(20, 20);
    assert Int32ToString(20) + Int32ToString(20) == "2020";
  }

  /** List.IndexOf: the first position holding `x`, or -1. */
  function IndexOf(list: seq<string>, x: string): (i: int)
    ensures -1 <= i < |list|
    ensures i >= 0 ==> list[i] == x && forall j | 0 <= j < i :: list[j] != x
    ensures i == -1 <==> x !in list
  {
    if |list| == 0 then -1
    else if list[0] == x then 0
    else
      var i := IndexOf(list[1..], x);
      if i == -1 then -1 else i + 1
  }

  /** C#'s `i % 2`, which truncates toward zero: -1 for a negative odd number. */
  function RemainderByTwo(i: int): (r: int)
    ensures -1 <= r <= 1
    ensures i > 0 ==> r >= 0
    ensures i < 0 ==> r <= 0
  {
    if i >= 0 then i % 2 else 0 - ((0 - i) % 2)
  }

  /** The remainder leaves an even quotient part: i - RemainderByTwo(i) is a multiple of two. */
  lemma RemainderByTwoIsTruncated(i: int)
    ensures (i - RemainderByTwo(i)) % 2 == 0
  {
  }

  /** `items.Where(x => list.IndexOf(x) % 2 == parity)`, in order. */
  function WhereIndexParity(items: seq<string>, list: seq<string>, parity: int): (r: seq<string>)
    ensures |r| <= |items|
    decreases |items|
  {
    if |items| == 0 then []
    else
      var remainder := RemainderByTwo(IndexOf(list, items[0]));
      (if remainder == parity then [items[0]] else []) + WhereIndexParity(items[1..], list, parity)
  }

  /** The filter keeps exactly the items whose first position in list has the given remainder. */
  lemma {:induction false} WhereIndexParityKeeps(items: seq<string>, list: seq<string>, parity: int)
    ensures forall x | x in WhereIndexParity(items, list, parity) ::
      x in items && RemainderByTwo(IndexOf(list, x)) == parity
    ensures forall x | x in items && RemainderByTwo(IndexOf(list, x)) == parity ::
      x in WhereIndexParity(items, list, parity)
    decreases |items|
  {
    if |items| > 0 {
      WhereIndexParityKeeps(items[1..], list, parity);
      assert items == [items[0]] + items[1..];
    }
  }

  /** Every item of list lands in exactly one of the two filters. */
  lemma {:induction false} WhereIndexParitySplits(items: seq<string>, list: seq<string>)
    requires forall x | x in items :: x in list
    ensures |WhereIndexParity(items, list, 1)| + |WhereIndexParity(items, list, 0)| == |items|
    decreases |items|
  {
    if |items| > 0 {
      assert items[0] in list;
      assert forall x | x in items[1..] :: x in items;
      WhereIndexParitySplits(items[1..], list);
    }
  }

  /** Enumerable.Zip into tuples: pairs up elements until either sequence ends. */
  function Zip(first: seq<string>, second: seq<string>): (pairs: seq<(string, string)>)
    ensures |pairs| == if |first| < |second| then |first| else |second|
    ensures forall i | 0 <= i < |pairs| :: pairs[i] == (first[i], second[i])
  {
    if |first| == 0 || |second| == 0 then []
    else [(first[0], second[0])] + Zip(first[1..], second[1..])
  }

  /**
   * BuildRoversAndRoutesFromInput: lines whose first occurrence is at an odd position
   * are locations, those at an even position (after the first, the size line) are
   * routes, and the two are zipped.
   */
  function BuildRoversAndRoutesFromInput(inputList: seq<string>): (r: seq<(string, string)>)
    ensures r == [] || 2 * |r| < |inputList|
  {
    WhereIndexParitySplits(inputList, inputList);
    var locationInputList := WhereIndexParity(inputList, inputList, 1);
    var routingInputList := WhereIndexParity(inputList, inputList, 0);
    Zip(locationInputList, if |routingInputList| == 0 then [] else routingInputList[1..])
  }

  /**
   * Every pair is a line whose first occurrence is at an odd position, then a line
   * whose first occurrence is at an even position.
   */
  lemma RoversAndRoutesParity(inputList: seq<string>)
    ensures forall i | 0 <= i < |BuildRoversAndRoutesFromInput(inputList)| ::
      var pair := BuildRoversAndRoutesFromInput(inputList)[i];
      && pair.0 in inputList && IndexOf(inputList, pair.0) % 2 == 1
      && pair.1 in inputList && IndexOf(inputList, pair.1) % 2 == 0
  {
    var locations := WhereIndexParity(inputList, inputList, 1);
    var routes := WhereIndexParity(inputList, inputList, 0);
    WhereIndexParityKeeps(inputList, inputList, 1);
    WhereIndexParityKeeps(inputList, inputList, 0);
    var skipped := if |routes| == 0 then [] else routes[1..];
    var r := BuildRoversAndRoutesFromInput(inputList);
    forall i | 0 <= i < |r|
      ensures r[i].0 in inputList && IndexOf(inputList, r[i].0) % 2 == 1
      ensures r[i].1 in inputList && IndexOf(inputList, r[i].1) % 2 == 0
    {
      assert r[i] == (locations[i], skipped[i]);
      assert skipped[i] in routes;
    }
  }

  /** The intended pairing: lines k and k + 1, then k + 2 and k + 3, and so on, dropping a lone last line. */
  function ConsecutivePairs(list: seq<string>, k: nat): (pairs: seq<(string, string)>)
    ensures |pairs| == if k + 1 < |list| then (|list| - k) / 2 else 0
    ensures forall i | 0 <= i < |pairs| :: pairs[i] == (list[k + 2 * i], list[k + 2 * i + 1])
    decreases |list| - k
  {
    if k + 1 < |list| then [(list[k], list[k + 1])] + ConsecutivePairs(list, k + 2) else []
  }

  /** Every other line, from line k on. */
  function EveryOther(list: seq<string>, k: nat): seq<string>
    decreases |list| - k
  {
    if k < |list| then [list[k]] + EveryOther(list, k + 2) else []
  }

  predicate Distinct(list: seq<string>) {
    forall i, j | 0 <= i < j < |list| :: list[i] != list[j]
  }

  lemma IndexOfDistinct(list: seq<string>, k: int)
    requires Distinct(list) && 0 <= k < |list|
    ensures IndexOf(list, list[k]) == k
  {
  }

  /** Without repeated lines, filtering by index parity keeps every other line. */
  lemma {:induction false} WhereParityOfDistinct(list: seq<string>, k: nat, parity: int)
    requires Distinct(list) && k <= |list| && (parity == 0 || parity == 1)
    ensures WhereIndexParity(list[k..], list, parity) == EveryOther(list, if k % 2 == parity then k else k + 1)
    decreases |list| - k
  {
    if k < |list| {
      var items := list[k..];
      IndexOfDistinct(list, k);
      assert items[0] == list[k] && items[1..] == list[k + 1..];
      WhereParityOfDistinct(list, k + 1, parity);
      var rest := WhereIndexParity(list[k + 1..], list, parity);
      assert WhereIndexParity(items, list, parity) == (if k % 2 == parity then [list[k]] else []) + rest;
      NextParity(k);
    } else {
      assert list[k..] == [];
    }
  }

  lemma NextParity(k: nat)
    ensures (k + 1) % 2 == 1 - k % 2
  {
    var q := k / 2;
    assert k == 2 * q + k % 2;
    if k % 2 == 0 {
      assert k + 1 == 2 * q + 1;
    } else {
      assert k + 1 == 2 * (q + 1);
    }
  }

  lemma {:induction false} ZipEveryOther(list: seq<string>, k: nat)
    ensures Zip(EveryOther(list, k), EveryOther(list, k + 1)) == ConsecutivePairs(list, k)
    decreases |list| - k
  {
    if k + 1 < |list| {
      ZipEveryOther(list, k + 2);
      var a, b := EveryOther(list, k), EveryOther(list, k + 1);
      assert a[1..] == EveryOther(list, k + 2) && b[1..] == EveryOther(list, k + 3);
    }
  }

  /**
   * Without repeated lines, the rovers are (line 1, line 2), (line 3, line 4), ...:
   * (n - 1) / 2 pairs for n lines, a lone last line dropped.
   */
  lemma RoversAndRoutesOfDistinctLines(inputList: seq<string>)
    requires Distinct(inputList)
    ensures BuildRoversAndRoutesFromInput(inputList) == ConsecutivePairs(inputList, 1)
  {
    assert inputList[0..] == inputList;
    WhereParityOfDistinct(inputList, 0, 1);
    WhereParityOfDistinct(inputList, 0, 0);
    var locations := WhereIndexParity(inputList, inputList, 1);
    var routes := WhereIndexParity(inputList, inputList, 0);
    assert locations == EveryOther(inputList, 1);
    assert routes == EveryOther(inputList, 0);
    var skipped := if |routes| == 0 then [] else routes[1..];
    assert skipped == EveryOther(inputList, 2);
    ZipEveryOther(inputList, 1);
  }

  /**
   * A route line equal to an earlier location line takes that line's parity: for
   * lines size, a, a, b, route (all else distinct) the first rover gets the second
   * rover's route and the second rover is dropped.
   */
  lemma RepeatedLineMispairs(size: string, a: string, b: string, route: string)
    requires size != a && size != b && size != route && a != b && a != route && b != route
    ensures BuildRoversAndRoutesFromInput([size, a, a, b, route]) == [(a, route)]
  {
    var list := [size, a, a, b, route];
    RepeatedLocationLines(list);
    RepeatedRouteLines(list);
    assert [size, route][1..] == [route];
  }

  lemma RepeatedLocationLines(list: seq<string>)
    requires |list| == 5 && list[1] == list[2]
    requires list[0] != list[1] && list[0] != list[3] && list[0] != list[4]
    requires list[1] != list[3] && list[1] != list[4] && list[3] != list[4]
    ensures WhereIndexParity(list, list, 1) == [list[1], list[2], list[3]]
  {
    SampleIndexes(list);
    FilterOfFive(list, list, 1, 0, 1, 1, 3, 4);
  }

  lemma RepeatedRouteLines(list: seq<string>)
    requires |list| == 5 && list[1] == list[2]
    requires list[0] != list[1] && list[0] != list[3] && list[0] != list[4]
    requires list[1] != list[3] && list[1] != list[4] && list[3] != list[4]
    ensures WhereIndexParity(list, list, 0) == [list[0], list[4]]
  {
    SampleIndexes(list);
    FilterOfFive(list, list, 0, 0, 1, 1, 3, 4);
  }

  /** The filter over five items whose first indexes in list are known. */
  lemma FilterOfFive(items: seq<string>, list: seq<string>, parity: int, i0: nat, i1: nat, i2: nat, i3: nat, i4: nat)
    requires |items| == 5
    requires IndexOf(list, items[0]) == i0 && IndexOf(list, items[1]) == i1 && IndexOf(list, items[2]) == i2
    requires IndexOf(list, items[3]) == i3 && IndexOf(list, items[4]) == i4
    ensures WhereIndexParity(items, list, parity)
            == Kept(items[0], i0, parity) + (Kept(items[1], i1, parity) + (Kept(items[2], i2, parity)
               + (Kept(items[3], i3, parity) + Kept(items[4], i4, parity))))
  {
    var second, third := items[1..], items[2..];
    assert third[0] == items[2] && third[1] == items[3] && third[2] == items[4];
    FilterOfThree(third, list, parity, i2, i3, i4);
    assert second == [items[1]] + third;
    ParityCons(items[1], third, list, parity, i1);
    assert items == [items[0]] + second;
    ParityCons(items[0], second, list, parity, i0);
  }

  /** The filter over three items whose first indexes in list are known. */
  lemma FilterOfThree(items: seq<string>, list: seq<string>, parity: int, i0: nat, i1: nat, i2: nat)
    requires |items| == 3
    requires IndexOf(list, items[0]) == i0 && IndexOf(list, items[1]) == i1 && IndexOf(list, items[2]) == i2
    ensures WhereIndexParity(items, list, parity)
            == Kept(items[0], i0, parity) + (Kept(items[1], i1, parity) + Kept(items[2], i2, parity))
  {
    var second, last := items[1..], items[2..];
    assert last == [items[2]] + [];
    ParityCons(items[2], [], list, parity, i2);
    assert second == [items[1]] + last;
    ParityCons(items[1], last, list, parity, i1);
    assert items == [items[0]] + second;
    ParityCons(items[0], second, list, parity, i0);
  }

  /** The item when its index has the parity, otherwise nothing. */
  function Kept(x: string, i: nat, parity: int): seq<string> {
    if i % 2 == parity then [x] else []
  }

  /** The input of the case study's sample with its second rover's location line repeated. */
  lemma RepeatedSampleLineMispairs()
    ensures BuildRoversAndRoutesFromInput(["55", "1 2 N", "1 2 N", "3 3 E", "M"]) == [("1 2 N", "M")]
  {
    assert "55" != "1 2 N" && "55" != "3 3 E" && "55" != "M";
    assert "1 2 N" != "3 3 E" && "1 2 N" != "M" && "3 3 E" != "M";
    RepeatedLineMispairs("55", "1 2 N", "3 3 E", "M");
  }

  /** One step of the filter, for an item whose first index is known. */
  lemma ParityCons(x: string, rest: seq<string>, list: seq<string>, parity: int, i: nat)
    requires IndexOf(list, x) == i
    ensures WhereIndexParity([x] + rest, list, parity) == Kept(x, i, parity) + WhereIndexParity(rest, list, parity)
  {
    assert ([x] + rest)[0] == x && ([x] + rest)[1..] == rest;
  }

  lemma SampleIndexes(list: seq<string>)
    requires |list| == 5 && list[1] == list[2]
    requires list[0] != list[1] && list[0] != list[3] && list[0] != list[4]
    requires list[1] != list[3] && list[1] != list[4] && list[3] != list[4]
    ensures IndexOf(list, list[0]) == 0 && IndexOf(list, list[1]) == 1 && IndexOf(list, list[2]) == 1
    ensures IndexOf(list, list[3]) == 3 && IndexOf(list, list[4]) == 4
  {
  }
}

=== FILE: rotation.dfy ===
/** Rotating a direction by quarter turns. */
module Rotations {
  import opened Directions

  /**
   * A Rotation value: the enum names L = -1 and R = +1, and the numbers 0..9
   * that Enum.TryParse also accepts from one command character.
   */
  type Rotation = r: int | -1 <= r <= 9

  const L: Rotation := -1
  const R: Rotation := 1

  lemma RotatedDegreesNameADirection(rotation: Rotation, current: Direction)
    ensures IsDirectionDegrees((current.Degrees() + rotation * 90 + 360) % 360)
  {
  }

  /** RotationExtensions.CreateDirectionFromRotation: turn by `rotation` quarter turns, clockwise positive. */
  function CreateDirectionFromRotation(rotation: Rotation, current: Direction): (r: Direction)
    ensures r.Degrees() == (current.Degrees() + rotation * 90 + 360) % 360
  {
    RotatedDegreesNameADirection(rotation, current);
    FromDegrees((current.Degrees() + rotation * 90 + 360) % 360)
  }

  /** The direction a quarter turn clockwise of `d`. */
  function QuarterClockwise(d: Direction): Direction {
    match d
    case North => East
    case NorthEast => SouthEast
    case East => South
    case SouthEast => SouthWest
    case South => West
    case SouthWest => NorthWest
    case West => North
    case NorthWest => NorthEast
  }

  /** The direction a quarter turn counter-clockwise of `d`. */
  function QuarterCounterClockwise(d: Direction): Direction {
    match d
    case North => West
    case NorthEast => NorthWest
    case East => North
    case SouthEast => NorthEast
    case South => East
    case SouthWest => SouthEast
    case West => South
    case NorthWest => SouthWest
  }

  /** CreateDirectionFromRotation gives `e` when the rotated degrees are `e`'s. */
  lemma Turns(rotation: Rotation, d: Direction, e: Direction)
    requires (d.Degrees() + rotation * 90 + 360) % 360 == e.Degrees()
    ensures CreateDirectionFromRotation(rotation, d) == e
  {
    DegreesInjective(CreateDirectionFromRotation(rotation, d), e);
  }

  lemma RightTurn(d: Direction)
    ensures CreateDirectionFromRotation(R, d) == QuarterClockwise(d)
  {
    match d
    case North => Turns(R, North, East);
    case NorthEast => Turns(R, NorthEast, SouthEast);
    case East => Turns(R, East, South);
    case SouthEast => Turns(R, SouthEast, SouthWest);
    case South => Turns(R, South, West);
    case SouthWest => Turns(R, SouthWest, NorthWest);
    case West => Turns(R, West, North);
    case NorthWest => Turns(R, NorthWest, NorthEast);
  }

  lemma LeftTurn(d: Direction)
    ensures CreateDirectionFromRotation(L, d) == QuarterCounterClockwise(d)
  {
    match d
    case North => Turns(L, North, West);
    case NorthEast => Turns(L, NorthEast, NorthWest);
    case East => Turns(L, East, North);
    case SouthEast => Turns(L, SouthEast, NorthEast);
    case South => Turns(L, South, East);
    case SouthWest => Turns(L, SouthWest, SouthEast);
    case West => Turns(L, West, South);
    case NorthWest => Turns(L, NorthWest, SouthWest);
  }

  /** R and L undo each other, in either order. */
  lemma RightLeftCancel(d: Direction)
    ensures CreateDirectionFromRotation(L, CreateDirectionFromRotation(R, d)) == d
    ensures CreateDirectionFromRotation(R, CreateDirectionFromRotation(L, d)) == d
  {
    RightTurn(d);
    LeftTurn(d);
    LeftTurn(QuarterClockwise(d));
    RightTurn(QuarterCounterClockwise(d));
  }

  /** Four turns the same way make a full circle. */
  lemma FourTurnsIdentity(d: Direction)
    ensures CreateDirectionFromRotation(R, CreateDirectionFromRotation(R,
              CreateDirectionFromRotation(R, CreateDirectionFromRotation(R, d)))) == d
    ensures CreateDirectionFromRotation(L, CreateDirectionFromRotation(L,
              CreateDirectionFromRotation(L, CreateDirectionFromRotation(L, d)))) == d
  {
    var r1 := QuarterClockwise(d);
    var r2 := QuarterClockwise(r1);
    var r3 := QuarterClockwise(r2);
    RightTurn(d); RightTurn(r1); RightTurn(r2); RightTurn(r3);
    var l1 := QuarterCounterClockwise(d);
    var l2 := QuarterCounterClockwise(l1);
    var l3 := QuarterCounterClockwise(l2);
    LeftTurn(d); LeftTurn(l1); LeftTurn(l2); LeftTurn(l3);
  }

  /** The wrap-around at North works in both directions. */
  lemma WrapAroundNorth()
    ensures CreateDirectionFromRotation(L, North) == West
    ensures CreateDirectionFromRotation(R, West) == North
  {
  }

  /** The numeric rotations 0 and 4 leave the direction as it is. */
  lemma FullTurnsKeep(d: Direction)
    ensures CreateDirectionFromRotation(0, d) == d
    ensures CreateDirectionFromRotation(4, d) == d
  {
    assert 0 <= d.Degrees() < 360;
    Turns(0, d, d);
    Turns(4, d, d);
  }

  /** The numeric rotation 3 turns like L. */
  lemma ThreeTurnsLeft(d: Direction)
    ensures CreateDirectionFromRotation(3, d) == CreateDirectionFromRotation(L, d)
  {
    assert 0 <= d.Degrees() < 360;
    Turns(3, d, CreateDirectionFromRotation(L, d));
  }

  /** Quarter turns keep cardinal directions cardinal and diagonal ones diagonal. */
  lemma RotationKeepsCardinality(rotation: Rotation, d: Direction)
    ensures CreateDirectionFromRotation(rotation, d).IsCardinal() <==> d.IsCardinal()
  {
  }
}

=== FILE: rover.dfy ===
/** The rover: a spacecraft that turns in place and moves one square forward. */
module Rovers {
  import opened Wrappers
  import opened Directions
  import opened Rotations
  import opened Locations
  import opened Planets

  /** The MotilityType flags enum. */
  datatype MotilityType = OnlyForward | StandardFourWay | Flying

  class Rover {
    var name: string
    var motilityType: MotilityType
    var location: Location
    var planet: Planet

    constructor(name: string, planet: Planet, location: Location)
      ensures this.name == name && this.planet == planet && this.location == location
      ensures motilityType == OnlyForward
    {
      this.name := name;
      this.planet := planet;
      this.location := location;
      motilityType := OnlyForward;
    }

    /** Turns the rover; only the heading changes. */
    method Rotate(rotation: Rotation)
      modifies this
      ensures location == old(location).(direction := CreateDirectionFromRotation(rotation, old(location.direction)))
      ensures name == old(name) && motilityType == old(motilityType) && planet == old(planet)
    {
      location := location.(direction := CreateDirectionFromRotation(rotation, location.direction));
    }

    /**
     * Steps forward. The new location is validated against the planet before it is
     * stored, so a step off the planet fails and leaves the rover where it was.
     */
    method Move() returns (outcome: Outcome<OutOfPlanet>)
      modifies this
      ensures var next := CreateNewLocationUsingDirection(old(location));
              outcome == Validate(next, planet.horizontalBoundary, planet.verticalBoundary) &&
              location == (if outcome.Pass? then next else old(location))
      ensures name == old(name) && motilityType == old(motilityType) && planet == old(planet)
    {
      var newLocation := CreateNewLocationUsingDirection(location);
      outcome := Validate(newLocation, planet.horizontalBoundary, planet.verticalBoundary);
      if outcome.Fail? {
        return;
      }
      location := newLocation;
    }
  }
}

=== FILE: spacecraft_operation.dfy ===
/** SpaceCraftOperation: building a rover and driving it along a route of command characters. */
module SpaceCraftOperations {
  import opened Wrappers
  import opened Int32
  import opened DotNetText
  import opened Directions
  import opened Rotations
  import opened Locations
  import opened Planets
  import opened Rovers

  /**
   * Enum.TryParse<Rotation> on a one-character string: the names "L" and "R", or
   * a decimal digit, which Enum.TryParse reads as the number it spells.
   */
  function TryParseRotation(c: char): (r: Option<Rotation>)
    ensures r.Some? <==> c == 'L' || c == 'R' || IsDigit(c)
    ensures r == Some(L) <==> c == 'L'
    ensures r == Some(R) <==> c == 'R' || c == '1'
    ensures IsDigit(c) ==> r == Some((c as int - '0' as int) as Rotation)
  {
    if c == 'L' then Some(L)
    else if c == 'R' then Some(R)
    else if IsDigit(c) then Some((c as int - '0' as int) as Rotation)
    else None
  }

  /**
   * The location after the rotation a command character stands for, if it stands for
   * one: a turn never moves the rover.
   */
  function Turned(location: Location, c: char): (r: Location)
    ensures r.x == location.x && r.y == location.y
    ensures TryParseRotation(c).None? ==> r == location
  {
    match TryParseRotation(c)
    case Some(rotation) => location.(direction := CreateDirectionFromRotation(rotation, location.direction))
    case None => location
  }

  /** Where a route ends and whether it ran to completion. */
  datatype Route = Route(final: Location, outcome: Outcome<OutOfPlanet>)

  /**
   * The effect of a route of (already upper-cased) commands on a rover at `location`,
   * on a planet with the given boundaries: a rotation character turns it, 'M' moves
   * it, anything else is skipped, and the first move off the planet stops the route.
   */
  function Execute(location: Location, horizontalBoundary: int32, verticalBoundary: int32, commands: string): (r: Route)
    ensures 'M' !in commands ==> r.outcome == Pass && r.final.x == location.x && r.final.y == location.y
    ensures r.outcome.Fail? ==> 'M' in commands
    decreases |commands|
  {
    if commands == [] then Route(location, Pass)
    else
      var c := commands[0];
      var turned := Turned(location, c);
      if c == 'M' then
        var next := CreateNewLocationUsingDirection(turned);
        match Validate(next, horizontalBoundary, verticalBoundary)
        case Fail(e) => Route(turned, Fail(e))
        case Pass => Execute(next, horizontalBoundary, verticalBoundary, commands[1..])
      else
        Execute(turned, horizontalBoundary, verticalBoundary, commands[1..])
  }

  /** The route text as MoveSpaceCraft reads it: upper-cased first. From a valid start, the rover ends on the planet. */
  function RunRoute(location: Location, horizontalBoundary: int32, verticalBoundary: int32, routingText: string): (r: Route)
    ensures Validate(location, horizontalBoundary, verticalBoundary).Pass? ==>
      Validate(r.final, horizontalBoundary, verticalBoundary).Pass?
  {
    if Validate(location, horizontalBoundary, verticalBoundary).Pass? then
      RouteStaysOnPlanet(location, horizontalBoundary, verticalBoundary, ToUpperInvariant(routingText));
      Execute(location, horizontalBoundary, verticalBoundary, ToUpperInvariant(routingText))
    else
      Execute(location, horizontalBoundary, verticalBoundary, ToUpperInvariant(routingText))
  }

  /**
   * MoveSpaceCraft: feeds each upper-cased character to the rover, turning it on a
   * rotation character and moving it on 'M'. A failed move ends the loop (the
   * exception propagates). The `planet` argument is not used: the rover moves on its own planet.
   */
  method MoveSpaceCraft(planet: Planet, spaceCraft: Rover, routingText: string) returns (outcome: Outcome<OutOfPlanet>)
    modifies spaceCraft
    ensures var route := RunRoute(old(spaceCraft.location), spaceCraft.planet.horizontalBoundary,
                                  spaceCraft.planet.verticalBoundary, routingText);
            spaceCraft.location == route.final && outcome == route.outcome
    ensures spaceCraft.planet == old(spaceCraft.planet) && spaceCraft.name == old(spaceCraft.name)
  {
    var commands := ToUpperInvariant(routingText);
    ghost var h, v := spaceCraft.planet.horizontalBoundary, spaceCraft.planet.verticalBoundary;
    ghost var route := Execute(spaceCraft.location, h, v, commands);
    var i := 0;
    while i < |commands|
      invariant 0 <= i <= |commands|
      invariant spaceCraft.planet == old(spaceCraft.planet) && spaceCraft.name == old(spaceCraft.name)
      invariant Execute(spaceCraft.location, h, v, commands[i..]) == route
    {
      var character := commands[i];
      assert commands[i..][1..] == commands[i + 1..];
      match TryParseRotation(character) {
        case Some(rotation) => spaceCraft.Rotate(rotation);
        case None =>
      }
      if character == 'M' {
        outcome := spaceCraft.Move();
        if outcome.Fail? {
          return;
        }
      }
      i := i + 1;
    }
    outcome := Pass;
  }

  /**
   * BuildSpaceCraft: every motility type gets a Rover, named "Rover_" and the clock's
   * tick count, at the given location on the given planet.
   */
  method BuildSpaceCraft(initialLocation: Location, planet: Planet, motilityType: MotilityType, ticks: nat)
    returns (spaceCraft: Rover)
    ensures fresh(spaceCraft)
    ensures spaceCraft.location == initialLocation && spaceCraft.planet == planet
    ensures spaceCraft.motilityType == OnlyForward
    ensures spaceCraft.name == "Rover_" + NatToDigits(ticks)
  {
    match motilityType
    case OnlyForward =>
      spaceCraft := new Rover("Rover_" + NatToDigits(ticks), planet, initialLocation);
    case _ =>
      spaceCraft := new Rover("Rover_" + NatToDigits(ticks), planet, initialLocation);
  }

  /** The rover never leaves the planet: from a valid start, every location the route visits is valid. */
  lemma {:induction false} RouteStaysOnPlanet(location: Location, horizontalBoundary: int32, verticalBoundary: int32, commands: string)
    requires Validate(location, horizontalBoundary, verticalBoundary).Pass?
    ensures Validate(Execute(location, horizontalBoundary, verticalBoundary, commands).final, horizontalBoundary, verticalBoundary).Pass?
    decreases |commands|
  {
    if commands != [] {
      var c := commands[0];
      var turned := Turned(location, c);
      assert Validate(turned, horizontalBoundary, verticalBoundary).Pass?;
      if c == 'M' {
        var next := CreateNewLocationUsingDirection(turned);
        if Validate(next, horizontalBoundary, verticalBoundary).Pass? {
          RouteStaysOnPlanet(next, horizontalBoundary, verticalBoundary, commands[1..]);
        }
      } else {
        RouteStaysOnPlanet(turned, horizontalBoundary, verticalBoundary, commands[1..]);
      }
    }
  }

  /**
   * Routes compose: running `a + b` runs `a`, and then, only if `a` completed, runs `b`
   * from where `a` ended. So the first failed move drops every later command.
   */
  lemma {:induction false} RouteConcatenation(location: Location, horizontalBoundary: int32, verticalBoundary: int32, a: string, b: string)
    ensures var first := Execute(location, horizontalBoundary, verticalBoundary, a);
            Execute(location, horizontalBoundary, verticalBoundary, a + b) ==
              if first.outcome.Pass? then Execute(first.final, horizontalBoundary, verticalBoundary, b) else first
    decreases |a|
  {
    if a == [] {
      assert a + b == b;
    } else {
      assert (a + b)[0] == a[0];
      assert (a + b)[1..] == a[1..] + b;
      var c := a[0];
      var turned := Turned(location, c);
      if c == 'M' {
        var next := CreateNewLocationUsingDirection(turned);
        if Validate(next, horizontalBoundary, verticalBoundary).Pass? {
          RouteConcatenation(next, horizontalBoundary, verticalBoundary, a[1..], b);
        }
      } else {
        RouteConcatenation(turned, horizontalBoundary, verticalBoundary, a[1..], b);
      }
    }
  }

  /** A character that is neither a rotation nor 'M' is skipped. */
  lemma IgnoredCommand(location: Location, horizontalBoundary: int32, verticalBoundary: int32, c: char, rest: string)
    requires c != 'M' && c != 'L' && c != 'R' && !IsDigit(c)
    ensures Execute(location, horizontalBoundary, verticalBoundary, [c] + rest) == Execute(location, horizontalBoundary, verticalBoundary, rest)
  {
    assert ([c] + rest)[1..] == rest;
  }

  /** Two characters that turn the rover alike and are alike in being 'M' have the same effect. */
  lemma CommandsAlike(location: Location, horizontalBoundary: int32, verticalBoundary: int32, c: char, d: char, rest: string)
    requires Turned(location, c) == Turned(location, d) && (c == 'M') == (d == 'M')
    ensures Execute(location, horizontalBoundary, verticalBoundary, [c] + rest) == Execute(location, horizontalBoundary, verticalBoundary, [d] + rest)
  {
    var turned := Turned(location, c);
    assert ([c] + rest)[1..] == rest && ([d] + rest)[1..] == rest;
    assert ([c] + rest)[0] == c && ([d] + rest)[0] == d;
    if c == 'M' {
      assert c == d;
    } else {
      assert Execute(location, horizontalBoundary, verticalBoundary, [c] + rest) == Execute(turned, horizontalBoundary, verticalBoundary, rest);
    }
  }

  /** The parse of some command characters; a lower-case 'l' is not a rotation name. */
  lemma RotationCharacters()
    ensures TryParseRotation('0') == Some(0) && TryParseRotation('1') == Some(R)
    ensures TryParseRotation('3') == Some(3) && TryParseRotation('4') == Some(4)
    ensures TryParseRotation(' ') == None && TryParseRotation('M') == None && TryParseRotation('l') == None
  {
  }

  /** A character that neither turns the rover nor is 'M' is skipped. */
  lemma {:induction false} NoTurnSkipped(location: Location, horizontalBoundary: int32, verticalBoundary: int32, c: char, rest: string)
    requires c != 'M' && Turned(location, c) == location
    ensures Execute(location, horizontalBoundary, verticalBoundary, [c] + rest) == Execute(location, horizontalBoundary, verticalBoundary, rest)
  {
    assert ([c] + rest)[1..] == rest;
  }

  lemma ZeroAndFourDoNotTurn(location: Location)
    ensures Turned(location, '0') == location && Turned(location, '4') == location
  {
    RotationCharacters();
    FullTurnsKeep(location.direction);
  }

  /** The digit commands '0' and '4' are skipped. */
  lemma ZeroAndFourSkipped(location: Location, horizontalBoundary: int32, verticalBoundary: int32, rest: string)
    ensures Execute(location, horizontalBoundary, verticalBoundary, "0" + rest) == Execute(location, horizontalBoundary, verticalBoundary, rest)
    ensures Execute(location, horizontalBoundary, verticalBoundary, "4" + rest) == Execute(location, horizontalBoundary, verticalBoundary, rest)
  {
    ZeroAndFourDoNotTurn(location);
    NoTurnSkipped(location, horizontalBoundary, verticalBoundary, '0', rest);
    NoTurnSkipped(location, horizontalBoundary, verticalBoundary, '4', rest);
  }

  lemma OneAndThreeTurnLikeNames(location: Location)
    ensures Turned(location, '1') == Turned(location, 'R') && Turned(location, '3') == Turned(location, 'L')
  {
    RotationCharacters();
    ThreeTurnsLeft(location.direction);
  }

  /** The digit command '1' is R and '3' is L. */
  lemma OneAndThreeTurn(location: Location, horizontalBoundary: int32, verticalBoundary: int32, rest: string)
    ensures Execute(location, horizontalBoundary, verticalBoundary, "1" + rest) == Execute(location, horizontalBoundary, verticalBoundary, "R" + rest)
    ensures Execute(location, horizontalBoundary, verticalBoundary, "3" + rest) == Execute(location, horizontalBoundary, verticalBoundary, "L" + rest)
  {
    OneAndThreeTurnLikeNames(location);
    CommandsAlike(location, horizontalBoundary, verticalBoundary, '1', 'R', rest);
    CommandsAlike(location, horizontalBoundary, verticalBoundary, '3', 'L', rest);
  }

  /** Commands are case-insensitive: a route and its upper-case form drive the rover the same way. */
  lemma RunRouteIgnoresCase(location: Location, horizontalBoundary: int32, verticalBoundary: int32, routingText: string)
    ensures RunRoute(location, horizontalBoundary, verticalBoundary, routingText) ==
            RunRoute(location, horizontalBoundary, verticalBoundary, ToUpperInvariant(routingText))
  {
    UpperIdempotent(routingText);
  }

  /** An 'L' command turns a quarter counter-clockwise and continues. */
  lemma LeftCommand(location: Location, horizontalBoundary: int32, verticalBoundary: int32, rest: string)
    ensures Execute(location, horizontalBoundary, verticalBoundary, "L" + rest) ==
            Execute(location.(direction := QuarterCounterClockwise(location.direction)), horizontalBoundary, verticalBoundary, rest)
  {
    LeftTurn(location.direction);
    assert ("L" + rest)[0] == 'L' && ("L" + rest)[1..] == rest;
  }

  /** An 'R' command turns a quarter clockwise and continues. */
  lemma RightCommand(location: Location, horizontalBoundary: int32, verticalBoundary: int32, rest: string)
    ensures Execute(location, horizontalBoundary, verticalBoundary, "R" + rest) ==
            Execute(location.(direction := QuarterClockwise(location.direction)), horizontalBoundary, verticalBoundary, rest)
  {
    RightTurn(location.direction);
    assert ("R" + rest)[0] == 'R' && ("R" + rest)[1..] == rest;
  }

  /** An 'M' command steps if the step stays on the planet, and otherwise ends the route where the rover stands. */
  lemma MoveCommand(location: Location, horizontalBoundary: int32, verticalBoundary: int32, rest: string)
    ensures var next := CreateNewLocationUsingDirection(location);
            Execute(location, horizontalBoundary, verticalBoundary, "M" + rest) ==
              if Validate(next, horizontalBoundary, verticalBoundary).Pass? then Execute(next, horizontalBoundary, verticalBoundary, rest)
              else Route(location, Validate(next, horizontalBoundary, verticalBoundary))
  {
    assert ("M" + rest)[0] == 'M' && ("M" + rest)[1..] == rest;
    assert TryParseRotation('M') == None;
  }

  /** The first sample route on the 5 x 5 sample planet, or any planet holding its squares: "1 2 N" with "LMLMLMLMM" ends at 1 3 N. */
  lemma FirstSampleRoute(horizontalBoundary: int32, verticalBoundary: int32)
    requires horizontalBoundary >= 1 && verticalBoundary >= 3
    ensures Execute(Location(1, 2, North), horizontalBoundary, verticalBoundary, "LML" + "MLM" + "LMM") == Route(Location(1, 3, North), Pass)
  {
    FirstSampleRouteLeg1(horizontalBoundary, verticalBoundary);
    FirstSampleRouteLeg2(horizontalBoundary, verticalBoundary);
    FirstSampleRouteLeg3(horizontalBoundary, verticalBoundary);
    RouteConcatenation(Location(1, 2, North), horizontalBoundary, verticalBoundary, "LML", "MLM");
    RouteConcatenation(Location(1, 2, North), horizontalBoundary, verticalBoundary, "LML" + "MLM", "LMM");
  }

  lemma FirstSampleRouteLeg1(horizontalBoundary: int32, verticalBoundary: int32)
    requires horizontalBoundary >= 1 && verticalBoundary >= 3
    ensures Execute(Location(1, 2, North), horizontalBoundary, verticalBoundary, "LML") == Route(Location(0, 2, South), Pass)
  {
    calc {
      Execute(Location(1, 2, North), horizontalBoundary, verticalBoundary, "LML");
    == { assert "LML" == "L" + "ML"; LeftCommand(Location(1, 2, North), horizontalBoundary, verticalBoundary, "ML"); }
      Execute(Location(1, 2, West), horizontalBoundary, verticalBoundary, "ML");
    == { assert "ML" == "M" + "L"; MoveCommand(Location(1, 2, West), horizontalBoundary, verticalBoundary, "L"); }
      Execute(Location(0, 2, West), horizontalBoundary, verticalBoundary, "L");
    == { assert "L" == "L" + ""; LeftCommand(Location(0, 2, West), horizontalBoundary, verticalBoundary, ""); }
      Execute(Location(0, 2, South), horizontalBoundary, verticalBoundary, "");
    ==
      Route(Location(0, 2, South), Pass);
    }
  }

  lemma FirstSampleRouteLeg2(horizontalBoundary: int32, verticalBoundary: int32)
    requires horizontalBoundary >= 1 && verticalBoundary >= 3
    ensures Execute(Location(0, 2, South), horizontalBoundary, verticalBoundary, "MLM") == Route(Location(1, 1, East), Pass)
  {
    calc {
      Execute(Location(0, 2, South), horizontalBoundary, verticalBoundary, "MLM");
    == { assert "MLM" == "M" + "LM"; MoveCommand(Location(0, 2, South), horizontalBoundary, verticalBoundary, "LM"); }
      Execute(Location(0, 1, South), horizontalBoundary, verticalBoundary, "LM");
    == { assert "LM" == "L" + "M"; LeftCommand(Location(0, 1, South), horizontalBoundary, verticalBoundary, "M"); }
      Execute(Location(0, 1, East), horizontalBoundary, verticalBoundary, "M");
    == { assert "M" == "M" + ""; MoveCommand(Location(0, 1, East), horizontalBoundary, verticalBoundary, ""); }
      Execute(Location(1, 1, East), horizontalBoundary, verticalBoundary, "");
    ==
      Route(Location(1, 1, East), Pass);
    }
  }

  lemma FirstSampleRouteLeg3(horizontalBoundary: int32, verticalBoundary: int32)
    requires horizontalBoundary >= 1 && verticalBoundary >= 3
    ensures Execute(Location(1, 1, East), horizontalBoundary, verticalBoundary, "LMM") == Route(Location(1, 3, North), Pass)
  {
    calc {
      Execute(Location(1, 1, East), horizontalBoundary, verticalBoundary, "LMM");
    == { assert "LMM" == "L" + "MM"; LeftCommand(Location(1, 1, East), horizontalBoundary, verticalBoundary, "MM"); }
      Execute(Location(1, 1, North), horizontalBoundary, verticalBoundary, "MM");
    == { assert "MM" == "M" + "M"; MoveCommand(Location(1, 1, North), horizontalBoundary, verticalBoundary, "M"); }
      Execute(Location(1, 2, North), horizontalBoundary, verticalBoundary, "M");
    == { assert "M" == "M" + ""; MoveCommand(Location(1, 2, North), horizontalBoundary, verticalBoundary, ""); }
      Execute(Location(1, 3, North), horizontalBoundary, verticalBoundary, "");
    ==
      Route(Location(1, 3, North), Pass);
    }
  }

  /** The second sample route on the 5 x 5 sample planet, or any planet holding its squares: "3 3 E" with "MMRMMRMRRM" ends at 5 1 E. */
  lemma SecondSampleRoute(horizontalBoundary: int32, verticalBoundary: int32)
    requires horizontalBoundary >= 5 && verticalBoundary >= 3
    ensures Execute(Location(3, 3, East), horizontalBoundary, verticalBoundary, "MMR" + "MMR" + "MRRM") == Route(Location(5, 1, East), Pass)
  {
    SecondSampleRouteLeg1(horizontalBoundary, verticalBoundary);
    SecondSampleRouteLeg2(horizontalBoundary, verticalBoundary);
    SecondSampleRouteLeg3(horizontalBoundary, verticalBoundary);
    RouteConcatenation(Location(3, 3, East), horizontalBoundary, verticalBoundary, "MMR", "MMR");
    RouteConcatenation(Location(3, 3, East), horizontalBoundary, verticalBoundary, "MMR" + "MMR", "MRRM");
  }

  lemma SecondSampleRouteLeg1(horizontalBoundary: int32, verticalBoundary: int32)
    requires horizontalBoundary >= 5 && verticalBoundary >= 3
    ensures Execute(Location(3, 3, East), horizontalBoundary, verticalBoundary, "MMR") == Route(Location(5, 3, South), Pass)
  {
    calc {
      Execute(Location(3, 3, East), horizontalBoundary, verticalBoundary, "MMR");
    == { assert "MMR" == "M" + "MR"; MoveCommand(Location(3, 3, East), horizontalBoundary, verticalBoundary, "MR"); }
      Execute(Location(4, 3, East), horizontalBoundary, verticalBoundary, "MR");
    == { assert "MR" == "M" + "R"; MoveCommand(Location(4, 3, East), horizontalBoundary, verticalBoundary, "R"); }
      Execute(Location(5, 3, East), horizontalBoundary, verticalBoundary, "R");
    == { assert "R" == "R" + ""; RightCommand(Location(5, 3, East), horizontalBoundary, verticalBoundary, ""); }
      Execute(Location(5, 3, South), horizontalBoundary, verticalBoundary, "");
    ==
      Route(Location(5, 3, South), Pass);
    }
  }

  lemma SecondSampleRouteLeg2(horizontalBoundary: int32, verticalBoundary: int32)
    requires horizontalBoundary >= 5 && verticalBoundary >= 3
    ensures Execute(Location(5, 3, South), horizontalBoundary, verticalBoundary, "MMR") == Route(Location(5, 1, West), Pass)
  {
    calc {
      Execute(Location(5, 3, South), horizontalBoundary, verticalBoundary, "MMR");
    == { assert "MMR" == "M" + "MR"; MoveCommand(Location(5, 3, South), horizontalBoundary, verticalBoundary, "MR"); }
      Execute(Location(5, 2, South), horizontalBoundary, verticalBoundary, "MR");
    == { assert "MR" == "M" + "R"; MoveCommand(Location(5, 2, South), horizontalBoundary, verticalBoundary, "R"); }
      Execute(Location(5, 1, South), horizontalBoundary, verticalBoundary, "R");
    == { assert "R" == "R" + ""; RightCommand(Location(5, 1, South), horizontalBoundary, verticalBoundary, ""); }
      Execute(Location(5, 1, West), horizontalBoundary, verticalBoundary, "");
    ==
      Route(Location(5, 1, West), Pass);
    }
  }

  lemma SecondSampleRouteLeg3(horizontalBoundary: int32, verticalBoundary: int32)
    requires horizontalBoundary >= 5 && verticalBoundary >= 3
    ensures Execute(Location(5, 1, West), horizontalBoundary, verticalBoundary, "MRRM") == Route(Location(5, 1, East), Pass)
  {
    calc {
      Execute(Location(5, 1, West), horizontalBoundary, verticalBoundary, "MRRM");
    == { assert "MRRM" == "M" + "RRM"; MoveCommand(Location(5, 1, West), horizontalBoundary, verticalBoundary, "RRM"); }
      Execute(Location(4, 1, West), horizontalBoundary, verticalBoundary, "RRM");
    == { assert "RRM" == "R" + "RM"; RightCommand(Location(4, 1, West), horizontalBoundary, verticalBoundary, "RM"); }
      Execute(Location(4, 1, North), horizontalBoundary, verticalBoundary, "RM");
    == { assert "RM" == "R" + "M"; RightCommand(Location(4, 1, North), horizontalBoundary, verticalBoundary, "M"); }
      Execute(Location(4, 1, East), horizontalBoundary, verticalBoundary, "M");
    == { assert "M" == "M" + ""; MoveCommand(Location(4, 1, East), horizontalBoundary, verticalBoundary, ""); }
      Execute(Location(5, 1, East), horizontalBoundary, verticalBoundary, "");
    ==
      Route(Location(5, 1, East), Pass);
    }
  }

  /** On any planet, a rover in the corner facing South fails its first move, stays put, and skips the rest. */
  lemma OffPlanetStopsRoute(horizontalBoundary: int32, verticalBoundary: int32)
    ensures Execute(Location(0, 0, South), horizontalBoundary, verticalBoundary, "MLM") == Route(Location(0, 0, South), Fail(OutOfPlanet(0, -1)))
  {
    MoveCommand(Location(0, 0, South), horizontalBoundary, verticalBoundary, "LM");
    assert "MLM" == "M" + "LM";
  }
}

=== FILE: wrappers.dfy ===
/** Failure-carrying result types used for the source's exceptions and null returns. */
module Wrappers {

  datatype Option<+T> = None | Some(value: T)

  datatype Result<+T, +E> = Success(value: T) | Failure(error: E)

  /** The result of an operation that returns nothing but may throw. */
  datatype Outcome<+E> = Pass | Fail(error: E)
}
